=== FILE: README.md ===
# DigitalEmbassy crisis app — a Dafny model

DigitalEmbassy is a mobile-first crisis map. It shows landmarks (safe spaces, medical points, checkpoints, danger spots), hazard areas, a news feed and a chat assistant. The assistant answers from a JSON landmark store, the "mesh", and can turn a free-text report into a new landmark. This project models the logic around that store and around the screens, as immutable datatypes and pure transition functions:

- **The server side.**
  - The post-processing in `getGeminiResponse`: history rendering, prompt assembly, code-fence stripping, shape checks and the fallback reply.
  - `saveReportToMesh` (read-modify-write append).
  - The `GET /api/landmarks` reader.
  - The Google-Places adapter.
- **The two chat panels.**
  - The desktop `ChatInterface`, wired to the assistant.
  - The mobile `MobileChatInterface` inside `ChatbotButton`, which answers with a canned text after a timer.
- **The client landmark state.**
  - The `LandmarksProvider`: load priority, persistence effect, `addLandmark`, `useLandmarks`.
  - The entry forms: `AddLandmarkForm`, `LandmarkDialog` and `SelectMap`.
- **Search and map selection.**
  - The search bar's result list.
  - The overlay's first-match search.
  - The interactive map's layer ids, click handling, crisis acknowledgement and area colours.
- **Small utilities and state machines.**
  - `formatRelativeTime`.
  - The news page's ordering and accordion.
  - The bottom navigation's active-item test.
  - The emergency-call page.
  - The debug menu's key dispatch.

Everything the code reaches outside itself becomes a parameter. This covers the file system, the language model, `JSON.parse`/`JSON.stringify`, `fetch`, `localStorage`, `crypto.randomUUID`, `new Date()` and `parseFloat`. A store file is `Missing`, `Corrupt`, or `Holds` a parsed value, which is either an array or a JSON value that is not an array (`Store.StoreFile`). An array's entries are landmarks or arbitrary JSON values, since `JSON.parse` checks nothing against the `Landmark` annotation.

One module per source file: `Gemini`, `Mesh`, `Store`, `LandmarkAdapters`, `ChatInterface`, `ChatbotButton`, `LandmarksProvider`, `AddLandmarkForm`, `LandmarkDialog`, `SelectMap`, `SearchBar`, `MapOverlay`, `InteractiveMap`, `RelativeTime`, `News`, `Navigation`, `EmergencyCall` and `DebugMenu`. They share:

- `Types`, the records of `src/lib/types`;
- `Json`, JSON values and JavaScript truthiness;
- `Text`, the ECMAScript string operations used: `trim`, ASCII `toLowerCase`, `includes`, `indexOf`, `split`/`join` on newlines, `String(n)`;
- `Wrappers`, `Option` and a `Result` that stands for a thrown `Error`.

## Model

| member | source | states |
|---|---|---|
| Gemini.HistoryLines | src/lib/actions/gemini.ts:100-103 | one history line per message, in order, each the rendering of its message |
| Gemini.OneLinePerMessage | src/lib/actions/gemini.ts:100-104 | splitting the joined history on newlines gives back one line per message, `User: ` for user turns and `Assistant: ` otherwise, provided no content holds a newline |
| Gemini.BuildPrompt | src/lib/actions/gemini.ts:106-116 | the prompt is a leading newline, the system prompt, the mesh-context block holding the serialised store, then the history block; each part can be cut back out at its offset |
| Gemini.MeshContext | src/lib/actions/gemini.ts:88-98 | the context is the parsed store when it can be read and parsed, and `[]` otherwise |
| Gemini.UnreadableStoreIsEmptyContext | src/lib/actions/gemini.ts:88-98 | a missing or corrupt store does not abort the call: the answer is the one built on an empty context, and it still reports success |
| Gemini.FencedBody | src/lib/actions/gemini.ts:123-125 | the fence expression matches exactly when two non-overlapping ```` ``` ```` occur; the body is then the trimmed text between the first fence (less an optional `json` tag) and the next fence after it |
| Gemini.Sanitize | src/lib/actions/gemini.ts:123-125 | without a fence pair the whole reply is trimmed; with one, the fenced body is taken |
| Gemini.UnfencedReplyParsedWhole | src/lib/actions/gemini.ts:125 | a reply without a fence pair is parsed whole after trimming |
| Gemini.FencedReplyRoundTrip | src/lib/actions/gemini.ts:123-125 | wrapping a trimmed JSON text as ```` ```json ````, newline, text, newline, ```` ``` ```` is undone exactly by the sanitiser |
| Gemini.Interpret | src/lib/actions/gemini.ts:118-144 | a failed model call, an empty sanitised text, a parse failure, or a missing or falsy `type`/`payload` each give the fixed fallback message; otherwise the parsed object is returned; success is always reported and the data always has a truthy `type` and `payload` |
| Gemini.GetGeminiResponse | src/lib/actions/gemini.ts:85-145 | the whole call always reports success with well-shaped data, whatever the store, the model and the parser do |
| Gemini.AnyTagPassesThrough | src/lib/actions/gemini.ts:129-133 | only the presence of `type` and `payload` is checked, so any non-empty tag such as `location_request` reaches the client unchanged |
| Mesh.NewLandmark | src/lib/actions/mesh.ts:18-29 | name, description, category and location are copied from the report and the user's position; trust `low`, unverified, added by `user_report` and visible are fixed |
| Mesh.Base | src/lib/actions/mesh.ts:31-37 | the array the new landmark is pushed onto: the stored array whatever its entries are, `[]` when the file is missing or corrupt, and none when the stored value is not an array (where `push` throws) |
| Mesh.SaveReportToMesh | src/lib/actions/mesh.ts:13-47 | success exactly when the base is an array and the write succeeds; then the written array is the base followed by the new landmark, and that landmark is returned. On failure no landmark is returned. When `push` throws nothing is written; when the write fails the store is whatever the failed write left behind |
| Mesh.AppendOnly | src/lib/actions/mesh.ts:31-40 | a successful save keeps every earlier entry, landmark or not, in place and order, and adds exactly the new landmark at the end |
| Mesh.ForeignArrayAccepted | src/lib/actions/mesh.ts:39-44 | an array holding values that are not landmarks (`[1]`, `[{}]`) is appended to like any other, and the save succeeds |
| Mesh.CleanFailureKeepsStore | src/lib/actions/mesh.ts:39-46 | a write that fails without touching the file leaves the store as it was, and the next successful save keeps every earlier entry |
| Mesh.TruncatedWriteLosesReports | src/lib/actions/mesh.ts:31-46 | a write that fails after truncating leaves a file that no longer parses; the next successful save starts from `[]` and holds only its own landmark, so every earlier report is lost |
| Mesh.SaveThenGet | src/lib/actions/mesh.ts:39-42 | after a successful save, `GET` answers the prior list with the new landmark last, and an unreadable store becomes exactly `[new]` |
| Mesh.NonListStoreRejectsSave | src/lib/actions/mesh.ts:39-46 | a store holding a JSON value that is not an array (an object, `null`, a number, a string, a boolean) makes `push` throw: the save fails and the file is left as it was |
| Mesh.SuccessIgnoresFields | src/lib/actions/mesh.ts:18-29 | no field is validated: whether a save succeeds does not depend on the report or the location |
| Store.Read | src/app/api/landmarks/route.ts:10-11 | reading gives the parsed value exactly when the file exists and parses |
| Store.Get | src/app/api/landmarks/route.ts:8-16 | `GET` answers the stored value unchanged, and `[]` when reading or parsing fails; it never writes |
| LandmarkAdapters.ConvertPlaceToLandmark | src/utils/landmarkAdapters.ts:5-19 | id, name, address and coordinates are copied; category `trusted_contact`, trust `high` and verified are fixed; `addedBy` and `visible` are never set |
| LandmarkAdapters.ConversionRoundTrip | src/utils/landmarkAdapters.ts:5-19 | the place can be read back from the landmark, so no field of the place is lost |
| LandmarkAdapters.ConversionDeterministicAndInjective | src/utils/landmarkAdapters.ts:5-19 | two places give landmarks that are equal apart from `lastUpdated` exactly when the places are equal |
| ChatInterface.TypeInput | src/components/chat/chat-interface.tsx:150-152 | typing changes only the input, and not while a request is pending (the input is disabled) |
| ChatInterface.Submit | src/components/chat/chat-interface.tsx:61-73 | a blank input or a pending request leaves the panel unchanged; otherwise exactly one user message with the trimmed input is appended, the input is cleared and the request starts |
| ChatInterface.SubmitAcceptedIffEnabled | src/components/chat/chat-interface.tsx:63-158 | a submit changes the panel exactly when the send button is enabled |
| ChatInterface.Receive | src/components/chat/chat-interface.tsx:92 | an arriving message is appended after everything shown and the panel is idle again |
| ChatInterface.AnswerMessage | src/components/chat/chat-interface.tsx:86-91 | the assistant message carries the response data on success and the error text otherwise, with `isError` set exactly on failure |
| ChatInterface.Complete | src/components/chat/chat-interface.tsx:86-92 | the answer goes last, after every earlier message; it is the assistant's, flagged as an error exactly when the call failed, and holds the response object on success and the error text on failure; the input is kept and the request is no longer pending |
| ChatInterface.RequestHistory | src/components/chat/chat-interface.tsx:78-84 | the history sent is the three mock documents, seen by the renderer as assistant turns with content `undefined`; the typed message is not part of it |
| ChatInterface.RenderedRequestHistory | src/components/chat/chat-interface.tsx:84 | every prompt's history block is three lines `Assistant: undefined` (together with src/lib/actions/gemini.ts:100-104) |
| ChatInterface.Respond | src/components/chat/chat-interface.tsx:76-93 | answering appends exactly one message after the existing ones and ends the pending state |
| ChatInterface.AnswersAreNeverErrors | src/components/chat/chat-interface.tsx:86-91 | since the server action always reports success, the appended answer is never flagged as an error and always holds a routable response object (together with src/lib/actions/gemini.ts:133,143) |
| ChatInterface.SubmitKeepsRendering | src/components/chat/chat-interface.tsx:121-137 | typed messages are text, so a submit keeps every bubble renderable |
| ChatInterface.AnswerBreaksRendering | src/components/chat/chat-interface.tsx:135 | the appended answer's content is the response object, which React cannot render as a child, so the panel no longer renders once the first answer arrives (together with src/components/chat/chat-interface.tsx:89) |
| ChatInterface.AnswerIgnoresConversation | src/components/chat/chat-interface.tsx:84 | two panels with different conversations get the same answer from the same store and model |
| ChatInterface.RunAppendsOnly | src/components/chat/chat-interface.tsx:72-92 | over any sequence of events the message list only grows, keeping every earlier message in place |
| ChatInterface.GreetingStaysFirst | src/components/chat/chat-interface.tsx:30-36 | the `init` greeting stays the first message whatever happens |
| ChatInterface.StepKeepsUserTurnsTrimmed | src/components/chat/chat-interface.tsx:63-72 | one step keeps every user message non-empty and trimmed |
| ChatInterface.RunKeepsUserTurnsTrimmed | src/components/chat/chat-interface.tsx:63-72 | every user message ever shown is non-empty and trimmed |
| ChatbotButton.BodyOverflow | src/components/chatbot-button.tsx:28-38 | page scrolling is locked exactly while the panel is open |
| ChatbotButton.Toggle | src/components/chatbot-button.tsx:23-127 | the round button flips the panel; opening mounts a fresh chat holding only the greeting |
| ChatbotButton.CloseButton | src/components/chatbot-button.tsx:98 | the header's close button always closes the panel |
| ChatbotButton.StepKeepsInvariant | src/components/chatbot-button.tsx:140-165 | each event keeps the greeting first and every assistant message either the greeting or the canned reply |
| ChatbotButton.RunKeepsInvariant | src/components/chatbot-button.tsx:121-164 | whatever the user types, the mobile chat only ever answers with the canned reply |
| ChatbotButton.ReopenStartsOver | src/components/chatbot-button.tsx:21-127 | closing and reopening discards the conversation |
| ChatbotButton.ToggleTwice | src/components/chatbot-button.tsx:23-25 | two presses of the round button restore open or closed |
| ChatbotButton.SubmitThenTimer | src/components/chatbot-button.tsx:140-165 | an accepted submit followed by the timer adds the user message and then the canned reply, clears the input and ends the pending state |
| LandmarksProvider.StaticLandmarks | src/lib/state/landmarks.tsx:15-25 | the bundled list is the nine data files spread in declaration order: each file's landmarks occupy one block at the offset given by the lengths of the files before it, and nothing else is in the list |
| LandmarksProvider.StaticLandmarksContents | src/lib/state/landmarks.tsx:15-25 | the bundled list is as long as the nine files together, holds exactly their landmarks, and starts with the checkpoints |
| LandmarksProvider.Loaded | src/lib/state/landmarks.tsx:38-58 | a non-empty cache entry that parses wins; one that does not parse, or unavailable storage, gives the static list; without a cache entry a successful fetch gives the server's list followed by the static ones, and any failed fetch gives the static list |
| LandmarksProvider.ApplyLoad | src/lib/state/landmarks.tsx:43-56 | the load never replaces a list that is already non-empty |
| LandmarksProvider.AddLandmark | src/lib/state/landmarks.tsx:68-70 | `addLandmark` appends at the end and keeps every earlier entry |
| LandmarksProvider.Persist | src/lib/state/landmarks.tsx:62-66 | the effect writes only when the list changed and is non-empty; an accepted `setItem` caches the serialised list, a throwing one escapes the effect uncaught, and otherwise the cache is left as it was |
| LandmarksProvider.RunKeepsSynced | src/lib/state/landmarks.tsx:37-70 | over any run, whatever storage does, the cache mirrors the list whenever the list is non-empty and the provider has not crashed, and a non-empty list never becomes empty |
| LandmarksProvider.CrashIsFinal | src/lib/state/landmarks.tsx:62-66 | once `setItem` has thrown out of the effect, no later update reaches the provider |
| LandmarksProvider.AcceptedWritesNeverCrash | src/lib/state/landmarks.tsx:37-70 | a session whose storage accepts every write never crashes and ends with the cache mirroring the list |
| LandmarksProvider.UnavailableStorageCrashes | src/lib/state/landmarks.tsx:37-66 | with storage unavailable, the failed read falls back to the static list, and persisting it throws out of the effect with nothing cached |
| LandmarksProvider.AddsAppend | src/lib/state/landmarks.tsx:68-70 | adding landmarks one by one to a live provider whose storage accepts the writes appends them in order |
| LandmarksProvider.AddBeforeLoadDropsLoaded | src/lib/state/landmarks.tsx:43-70 | a landmark added before the first load finishes makes the load's list be dropped, whatever storage does with the writes |
| LandmarksProvider.ReloadRoundTrip | src/lib/state/landmarks.tsx:40-66 | what one session caches is what the next session shows, when serialising then parsing is the identity |
| LandmarksProvider.FirstLoadFromServer | src/lib/state/landmarks.tsx:46-50 | without a cache the provider shows the store's list followed by the bundled landmarks (together with src/app/api/landmarks/route.ts:8-16) |
| LandmarksProvider.UseLandmarks | src/lib/state/landmarks.tsx:79-85 | outside a provider the hook throws its error; inside it returns the provider's value |
| AddLandmarkForm.OnOpenOrMove | src/components/add-landmark-form.tsx:74-81 | when the dialog is open, the effect clears name, description, category and error; otherwise it changes nothing |
| AddLandmarkForm.Submit | src/components/add-landmark-form.tsx:83-111 | the checks run in the order name, category, coordinates, and only the first failure is reported; data is submitted and closing requested exactly when all pass; the name is trimmed, a blank description becomes undefined, and category and location are the selection and the click |
| AddLandmarkForm.SubmittedDataIsTrimmed | src/components/add-landmark-form.tsx:103-108 | submitted data has a non-empty trimmed name and, when present, a non-empty trimmed description |
| AddLandmarkForm.Unsnake | src/components/add-landmark-form.tsx:57 | every underscore becomes a space and nothing else changes |
| AddLandmarkForm.CapitalizeWords | src/components/add-landmark-form.tsx:58 | exactly the word characters that start a word are upper-cased |
| AddLandmarkForm.FormatCategoryName | src/components/add-landmark-form.tsx:55-59 | the label has the identifier's length and no underscore |
| AddLandmarkForm.LabelRoundTrip | src/components/add-landmark-form.tsx:55-59 | a snake_case identifier can be read back from its label |
| AddLandmarkForm.OfferedLabelsDistinct | src/components/add-landmark-form.tsx:45-59 | the six offered categories get six different labels |
| AddLandmarkForm.LabelWordsCapitalized | src/components/add-landmark-form.tsx:58 | every word of a label starts with a capital letter or a digit |
| AddLandmarkForm.SafeSpaceLabel | src/components/add-landmark-form.tsx:55-59 | `safe_space` is shown as `Safe Space` |
| LandmarkDialog.HandleSubmit | src/components/landmark-dialog.tsx:44-58 | name, category and location are taken as given, without a check on the name; an empty description or radius becomes undefined; the dialog closes, and name, description and radius are reset while the category is kept |
| LandmarkDialog.SaveKeepsFields | src/components/landmark-dialog.tsx:45-52 | the landmark keeps everything typed: the text fields can be read back from it, and it has a radius exactly when one was typed |
| LandmarkDialog.CategorySticks | src/components/landmark-dialog.tsx:41-57 | after a save the next save uses the same category, with the other fields blank |
| SelectMap.UseLocation | src/lib/state/location.tsx:23-29 | outside a provider the hook throws; inside it gives the last known location |
| SelectMap.Mount | src/components/select-map.tsx:16-17 | the pin starts at the last known location |
| SelectMap.Click | src/components/select-map.tsx:24-27 | a click moves the pin and never touches the last known location |
| SelectMap.Save | src/components/select-map.tsx:29-32 | saving commits the pin as the last known location and calls `onSave` exactly when one is given |
| SelectMap.ClicksSelectLast | src/components/select-map.tsx:24-27 | after any clicks the pin is at the last click and the last known location is unchanged |
| SelectMap.SaveCommitsLastClick | src/components/select-map.tsx:24-32 | clicks followed by a save commit the last click, or the starting location when there was none |
| SelectMap.SaveIdempotent | src/components/select-map.tsx:29-31 | saving twice commits the same as saving once |
| SearchBar.AreaCenterAsWritten | src/components/search-bar.tsx:55-74 | the bounding-box centre of a polygon's outer ring; any other geometry has no coordinates and lands at (0, 0) |
| SearchBar.PointAreaReportedAtOrigin | src/components/search-bar.tsx:55-74 | a point area in Berlin is reported at (0, 0) |
| SearchBar.AreaCenter | src/components/search-bar.tsx:55-74 | the corrected centre: a point area's own position; every other geometry, a line string included, keeps the centre the code computes |
| SearchBar.PointAreaResultOnPoint | src/components/search-bar.tsx:91 | with the corrected centre, a point area's result carries the point's position |
| SearchBar.Hits | src/components/search-bar.tsx:82-91 | filtering then mapping never lists more items than it was given |
| SearchBar.HitsMembers | src/components/search-bar.tsx:83-90 | a result is listed exactly when it is the result of an item whose lower-cased name contains the lower-cased query |
| SearchBar.HitsConcat | src/components/search-bar.tsx:82-84 | searching two lists one after the other is searching their concatenation |
| SearchBar.HitsKind | src/components/search-bar.tsx:84-91 | every listed result has the kind its list maps to |
| SearchBar.Results | src/components/search-bar.tsx:76-95 | an empty query lists nothing, and no more than all the landmarks and areas are listed |
| SearchBar.ResultsMembers | src/components/search-bar.tsx:76-95 | a result is listed exactly when it comes from a matching landmark or area that the filter admits |
| SearchBar.ResultsLandmarksFirst | src/components/search-bar.tsx:80-93 | no area result comes before a landmark result |
| SearchBar.ResultsIgnoreCase | src/components/search-bar.tsx:78-90 | two queries equal up to ASCII case give the same results |
| SearchBar.MatchesIgnoreCase | src/components/search-bar.tsx:83-90 | filtering depends on the query only through its lower-case form |
| SearchBar.AllIsBoth | src/components/search-bar.tsx:80-93 | with no filter, the results are the landmark-only results followed by the area-only results |
| SearchBar.HandleSelect | src/components/search-bar.tsx:97-101 | choosing a result moves the last known location to it, clears the query and deactivates the search |
| SearchBar.SelectClearsResults | src/components/search-bar.tsx:77-101 | after a choice the result list is empty |
| MapOverlay.GetAreaCenter | src/components/map-overlay.tsx:51-71 | a point area is centred on its own coordinates; a polygon, multipolygon or line gets the averaged vertex position (a parameter); any other geometry averages no vertices and lands at (0, 0) |
| MapOverlay.PointCentresAgree | src/components/map-overlay.tsx:61-63 | the corrected search-bar centre and the overlay centre agree on point areas (together with src/components/search-bar.tsx:55-74) |
| MapOverlay.FindFirst | src/components/map-overlay.tsx:76-82 | the index found is of a matching item with no match before it, and none is found only when nothing matches |
| MapOverlay.HandleSearch | src/components/map-overlay.tsx:73-90 | the first matching landmark wins over any area, and its (lng, lat) is passed; otherwise the first matching area's centre is; nothing is passed when nothing matches; search mode always ends |
| MapOverlay.FirstHitIsFound | src/components/map-overlay.tsx:76-82 | `find` and `filter` agree: the first filtered result is the item `find` returns, and `filter` is empty exactly when `find` fails (together with src/components/search-bar.tsx:82-84) |
| MapOverlay.SearchAgreesWithSearchBar | src/components/map-overlay.tsx:73-90 | for a non-empty query the overlay jumps to the first result of the unfiltered search list (together with src/components/search-bar.tsx:76-95) |
| MapOverlay.EmptyQueryJumpsToFirstLandmark | src/components/map-overlay.tsx:75-78 | an empty query is not special here: it matches every name, so the first landmark is chosen |
| InteractiveMap.InteractiveLayers | src/components/interactive-map.tsx:51-54 | two layer ids per area, fill then outline, in area order |
| InteractiveMap.ParseLayerId | src/components/interactive-map.tsx:63-65 | a match is a fill or outline prefix followed by the captured id, which contains no line terminator |
| InteractiveMap.LayerIdRoundTrip | src/components/interactive-map.tsx:52-65 | parsing a fill or outline layer id gives the area id back exactly when that id has no line terminator |
| InteractiveMap.FindArea | src/components/interactive-map.tsx:66 | the area found is the first one with the id, no earlier area having it; none is found only when no area has it |
| InteractiveMap.HandleMapClick | src/components/interactive-map.tsx:56-75 | no features clears the selection; otherwise an area is selected, at the click position, exactly when the first feature's layer id parses to the id of a known area, and it is the first area with that id |
| InteractiveMap.ClickOnLayerSelectsArea | src/components/interactive-map.tsx:52-69 | clicking either layer of an area with a single-line id selects an area with that id at the click position |
| InteractiveMap.InteractiveLayersNameAreas | src/components/interactive-map.tsx:51-75 | every clickable layer selects an area when clicked |
| InteractiveMap.SetStatus | src/components/interactive-map.tsx:40-148 | setting a status keeps the acknowledgement only while the status stays `Crisis` |
| InteractiveMap.Acknowledge | src/components/interactive-map.tsx:80-82 | acknowledging is possible only while the warning shows, and then records the acknowledgement |
| InteractiveMap.StepsKeepConsistent | src/components/interactive-map.tsx:40-82 | an acknowledgement only ever exists during a crisis |
| InteractiveMap.NewCrisisWarnsAgain | src/components/interactive-map.tsx:40-80 | leaving a crisis and entering a new one shows the warning again |
| InteractiveMap.AcknowledgeHidesWarning | src/components/interactive-map.tsx:80-81 | acknowledging hides the warning, and setting `Crisis` again does not bring it back |
| InteractiveMap.CategoryColors | src/components/interactive-map.tsx:18-22 | the fixed fill and border colours of the three categories |
| InteractiveMap.AreaPaint | src/components/interactive-map.tsx:104-119 | an area's own colours win and its category's colours fill in the rest |
| InteractiveMap.CategoriesDistinguishable | src/components/interactive-map.tsx:18-111 | without overrides, areas of different categories have different fills |
| RelativeTime.Classify | src/lib/utils.ts:23-35 | fewer than 10 seconds, future instants included, is "just now"; otherwise the largest unit strictly exceeded is chosen and the count is the floor of the quotient, at least 1; 10 to 60 seconds is counted in seconds |
| RelativeTime.Render | src/lib/utils.ts:24-35 | the text is "just now" or the count, a space, the unit's plural and " ago" |
| RelativeTime.FormatRelativeTime | src/lib/utils.ts:16-36 | the text is "just now" exactly when less than ten seconds have elapsed; any other text reads back as the age of the elapsed whole seconds |
| RelativeTime.ShiftInvariant | src/lib/utils.ts:21 | only the distance between the two instants matters: shifting both by the same amount gives the same text |
| RelativeTime.UnitGrowsWithAge | src/lib/utils.ts:23-32 | an older instant is never reported in a smaller unit |
| RelativeTime.BoundaryRendering | src/lib/utils.ts:23-35 | exactly 60 seconds is "60 seconds ago", exactly a day is "24 hours ago", and a year and a half is "1 years ago" |
| RelativeTime.FutureIsJustNow | src/lib/utils.ts:21-33 | instants in the future are "just now" |
| RelativeTime.RenderRoundTrip | src/lib/utils.ts:24-35 | every rendered age reads back as itself, so different ages never share a text |
| News.Insert | src/app/news/page.tsx:73-75 | inserting into a newest-first list keeps it newest first, one longer |
| News.SortNewestFirst | src/app/news/page.tsx:73-75 | the sorted list is newest first and as long as the input |
| News.SortPermutes | src/app/news/page.tsx:73 | the sorted list is a permutation of the items |
| News.SortIsStable | src/app/news/page.tsx:73-75 | items of the same date keep their relative order, as `Array.prototype.sort` guarantees |
| News.SortKeepsSorted | src/app/news/page.tsx:73-75 | an already newest-first list is left as it is |
| News.PageOrderAfterCeasefire | src/app/news/page.tsx:11-76 | once the page was loaded more than six hours after the ceasefire briefing, the cards show in the order 1, 2, 3, 4, 6, 5 |
| News.Toggle | src/app/news/page.tsx:64-108 | toggling the open card closes it; toggling any other card opens that one alone |
| News.AtMostOneOpen | src/app/news/page.tsx:64-107 | no two cards are expanded at once |
| News.ToggleTwice | src/app/news/page.tsx:108 | toggling one card twice restores the state exactly when no card, or that card, was open before |
| News.ToggleTwiceLosesOtherCard | src/app/news/page.tsx:108 | with card 2 open, toggling card 1 twice leaves every card closed |
| Navigation.AriaCurrent | src/components/MobileLayout.tsx:79 | only the active item carries `aria-current="page"` |
| Navigation.RootActiveOnlyAtRoot | src/components/MobileLayout.tsx:66 | the map item is active exactly at `/` |
| Navigation.OtherActiveOnPrefix | src/components/MobileLayout.tsx:66 | any other item is active exactly on the paths that start with its href |
| Navigation.AtMostOneActive | src/components/MobileLayout.tsx:66 | for a prefix-free list of hrefs no path activates two items |
| Navigation.MainItemsPrefixFree | src/components/MobileLayout.tsx:27-33 | the main layout's hrefs are prefix-free, so at most one of its items is active |
| Navigation.LayoutItemsPrefixFree | src/components/layout/MobileLayout.tsx:14-48 | the alternative layout's hrefs are prefix-free, so at most one of its items is active |
| Navigation.SubPathsActivateSection | src/components/MobileLayout.tsx:66 | `/news/1` activates News and `/chatbot/x` activates Chat, neither activates Map, and `/newsroom` activates News too (together with src/components/layout/MobileLayout.tsx:48) |
| Navigation.EmergencyCallActivatesNothing | src/components/MobileLayout.tsx:27-66 | the emergency-call page activates no item in either bar |
| EmergencyCall.HandleCall | src/app/emergency-call/page.tsx:11-21 | a tap starts dialing only from idle, arming the 3000 ms timer; in any other state it does nothing |
| EmergencyCall.Tick | src/app/emergency-call/page.tsx:11-17 | a due timer while dialing connects the call and is cleared; nothing else changes |
| EmergencyCall.StepForward | src/app/emergency-call/page.tsx:9-21 | a timer is armed exactly while dialing, and each step moves the status at most one place forward |
| EmergencyCall.RunForward | src/app/emergency-call/page.tsx:9-31 | over any run the status never goes back, a connected call stays connected, and the pulse does not return once stopped |
| EmergencyCall.ConnectsAfterDelay | src/app/emergency-call/page.tsx:11-21 | after a tap the call connects at the first tick at least 3000 ms later and not before |
| EmergencyCall.SecondTapIgnored | src/app/emergency-call/page.tsx:19-21 | tapping again while dialing does not restart the timer |
| EmergencyCall.StatusText | src/app/emergency-call/page.tsx:37-39 | the texts shown for idle, dialing and connected |
| EmergencyCall.StatusTextsDistinct | src/app/emergency-call/page.tsx:37-39 | the text tells the three states apart |
| DebugMenu.Actions | src/components/DebugMenu.tsx:26-60 | the seven actions: `r`, `q`, `w`, then keys `1` to `4` for Online, Transmitting, Crisis and Offline |
| DebugMenu.ToggledRoute | src/components/DebugMenu.tsx:31-36 | route B when the current route serialises like route A; route A otherwise, including when there is none |
| DebugMenu.HandleKey | src/components/DebugMenu.tsx:62-77 | Shift+D in either case toggles the panel and nothing else; any other key leaves the panel as it is |
| DebugMenu.Click | src/components/DebugMenu.tsx:86-92 | a button runs its action while the panel is open, and there is nothing to click while it is closed |
| DebugMenu.KeyIndex | src/components/DebugMenu.tsx:69-70 | the action found has the pressed key; none is found only when no action has it |
| DebugMenu.DispatchFiresAtMostOne | src/components/DebugMenu.tsx:69-74 | with distinct keys a press runs exactly the action bound to it, and an unbound key changes nothing |
| DebugMenu.ActionKeysDistinct | src/components/DebugMenu.tsx:26-60 | the seven keys are distinct |
| DebugMenu.KeyRunsItsAction | src/components/DebugMenu.tsx:62-74 | any key but Shift+D runs the one action bound to it, whether or not the panel is open |
| DebugMenu.ShiftDTogglesOnly | src/components/DebugMenu.tsx:64-68 | Shift+D and Shift+d toggle the panel and run no action |
| DebugMenu.UpperCaseIgnored | src/components/DebugMenu.tsx:70 | keys match case-sensitively: `R` does nothing |
| DebugMenu.DigitKeysSetStatus | src/components/DebugMenu.tsx:51-57 | keys `1` to `4` set Online, Transmitting, Crisis and Offline |
| DebugMenu.RouteKeys | src/components/DebugMenu.tsx:38-49 | `q` starts route A; `w` appends the prepared landmark to a live provider (a crashed one is left as it was), starts route B and keeps the status |
| DebugMenu.RouteToggleAlternates | src/components/DebugMenu.tsx:31-36 | `r` starts route A from no route, switches A to B, and goes back to A when the routes serialise differently |
| Text.Trim | src/components/chat/chat-interface.tsx:63 | `trim` removes exactly the ECMAScript whitespace at both ends; the result is empty exactly for a blank string |
| Text.IndexOfFrom | src/lib/actions/gemini.ts:123 | the first occurrence at or after the start, or none when there is none |
| Text.SplitJoinRoundTrip | src/lib/actions/gemini.ts:104 | splitting newline-joined, newline-free lines gives the lines back |
| Text.NatToStringRoundTrip | src/lib/utils.ts:24 | a rendered count reads back as the number |

## Left out

- The language model's behaviour and the system prompt's wording. The model is an untrusted parameter that may fail or return any text, and the system prompt is a parameter. The "ask for missing fields, then ask for a location" dialogue lives only in the prompt. The client has no awaiting-field or awaiting-location controller, so none is modelled.
- File, network and browser I/O become parameters: the store file's state, the write's outcome, `fetch`, what `localStorage.getItem` returns and whether each `setItem` throws, `JSON.parse` and `JSON.stringify`. A crash is recorded as the provider taking no further updates; the error page React shows instead is not modelled. `crypto.randomUUID`, `new Date()` and `parseFloat` are parameters too.
- Concurrency: overlapping saves to the store (lost updates between writers), the ordering of React state updates beyond the single add-before-load race, and timers other than the ones modelled.
- Floating point: the bounding-box and mean centres of areas are parameters. Coordinates and radii are reals, with no IEEE rounding and no NaN. The dialog's radius field is a number input, whose value is empty or a valid number, so `parseFloat` never meets text it would turn into NaN.
- A `FeatureCollection` geometry is reduced to its first feature's geometry. An empty collection, where the code would throw, is not modelled.
- Full Unicode case mapping: `toLowerCase` and `toUpperCase` are modelled on ASCII letters only, and other characters are left unchanged.
- Rendering, animation, scrolling, focus and styling, apart from the pulse, the glow, the scroll lock, `aria-current` and the status texts.
- The contents of the bundled data files (`data/*.json`, the debug routes, the landmark change): they are parameters. The news items' headlines and descriptions are kept as data and play no part in any property.
- Dates that do not parse (NaN in `formatRelativeTime` and in the news sort). Instants are integers in milliseconds.
- The `sort` comparator is modelled as a stable insertion sort by date. That is the order `Array.prototype.sort` must produce for this comparator; the engine's algorithm is not modelled.
- `MapOverlay`'s search has no caller in the shown user interface (the overlay is mounted without `landmarks`, `areas` or `onSearchSelect`). It is modelled as a function of its inputs. The overlay's own `SearchBar` elements (map-overlay.tsx:115-119 and 138) pass no `landmarks` or `areas` either, so `landmarks.filter` (search-bar.tsx:83) throws on the first typed character; the model treats the lists as given.
- Store.Get: the response body is the parsed value, including a non-list one, which is passed through unchanged; the HTTP response object is not modelled.
- ChatInterface.RequestHistory: the three mock documents are represented only by what the history renderer makes of them, `undefined` content for assistant-role turns. The documents' fields are not modelled.
- ChatInterface.Respond: the model appends the answer and carries on. In the code, `{message.content}` then holds an object, and React throws "Objects are not valid as a React child", so the desktop panel stops rendering at its first answer (`ChatInterface.AnswerBreaksRendering`). `ChatInterface.Run` describes later turns that the interface never reaches.
- LandmarksProvider.Loaded: the cached text is taken to hold a landmark array, as the persistence effect writes it. The code adopts whatever `JSON.parse` returns, so a cache holding `null`, `{}` or `5` would become the provider's list, and the next `landmarks.length` or `.map` would throw or misbehave. A served body that is not an array is the `None` case, because spreading it throws into the `catch`; the exception is a JSON string, which spreads into its characters and is not modelled.
- LandmarksProvider.FirstLoadFromServer: it covers a served array of landmarks only. The provider's list holds landmarks, so a served array with other values in it is outside the model of the client.
- AddLandmarkForm.Submit: it models `handleSubmit` only. The name input and the category select carry the HTML `required` attribute (add-landmark-form.tsx:145 and 156), so the browser's constraint validation blocks an empty name or an unset category before `handleSubmit` runs, and "Title/Name is required." is seen only for a whitespace-only name.
- SearchBar.Hits: its own contract bounds the length only; what it lists is stated by `SearchBar.HitsMembers`, `SearchBar.HitsConcat` and `SearchBar.HitsKind`.

## Notes on the code's behaviour

- There is no dialogue controller on the client. The "ask for missing fields, then for a location" flow exists only as wording in the system prompt.
- The server accepts any reply whose `type` and `payload` are truthy; it checks no sub-fields for a given tag (`Gemini.AnyTagPassesThrough`).
- `saveReportToMesh` validates no field and does not re-read or lock the store before writing (`Mesh.SuccessIgnoresFields`).
- The desktop chat sends three mock documents, not the conversation, as the history (`ChatInterface.RequestHistory`, `ChatInterface.AnswerIgnoresConversation`).
- The navigation test is a plain string prefix, so `/newsroom` would activate News (`Navigation.SubPathsActivateSection`).

## Findings

| source | as written | input that shows it | evidently intended | confidence | as-written member | corrected member |
|---|---|---|---|---|---|---|
| src/components/search-bar.tsx:55-74 | `computeAreaCenter` takes coordinates only from a Polygon or MultiPolygon; any other geometry yields an empty list and the bounding-box start values give the centre (0, 0) | a Point area at lng 13.4, lat 52.5: selecting its search result moves the last known location to (0, 0) | a point area's result carries the point's own position, as `getAreaCenter` in map-overlay.tsx:61-63 does; the other geometries keep the computed centre, a line string included | not executed | SearchBar.AreaCenterAsWritten, SearchBar.PointAreaReportedAtOrigin | SearchBar.AreaCenter, SearchBar.PointAreaResultOnPoint |

=== FILE: adapters.dfy ===
/** `convertPlaceToLandmark`: a Google Places text-search result becomes a
    trusted-contact landmark. The timestamp is a parameter. */
module LandmarkAdapters {
  import opened Wrappers
  import opened Types

  /** The fields of a Places result the adapter reads. */
  datatype RawPlace = RawPlace(name: string, formattedAddress: string, location: Location, placeId: string)

  const TrustedContact: string := "trusted_contact"

  function ConvertPlaceToLandmark(place: RawPlace, now: string): (l: Landmark)
    ensures l.id == place.placeId && l.name == place.name
    ensures l.description == Some(place.formattedAddress)
    ensures l.location.lat == place.location.lat && l.location.lng == place.location.lng
    ensures l.category == TrustedContact && l.trustLevel == Some(High) && l.isVerified == Some(true)
    ensures l.lastUpdated == Some(now)
    ensures l.addedBy.None? && l.visible.None? && l.radius.None?
  {
    Landmark(place.placeId, place.name, Some(place.formattedAddress),
             Location(place.location.lat, place.location.lng), TrustedContact,
             Some(High), Some(now), None, Some(true), None, None)
  }

  /** Recovers the place a converted landmark came from. */
  function LandmarkToPlace(l: Landmark): RawPlace
    requires l.description.Some?
  {
    RawPlace(l.name, l.description.value, l.location, l.id)
  }

  /** The conversion loses nothing of the place: it can be undone. */
  lemma ConversionRoundTrip(place: RawPlace, now: string)
    ensures LandmarkToPlace(ConvertPlaceToLandmark(place, now)) == place
  {
  }

  /** Equal places give equal landmarks apart from the timestamp, and
      different places give different landmarks. */
  lemma ConversionDeterministicAndInjective(p: RawPlace, q: RawPlace, t1: string, t2: string)
    ensures (ConvertPlaceToLandmark(p, t1).(lastUpdated := None)
             == ConvertPlaceToLandmark(q, t2).(lastUpdated := None)) <==> p == q
  {
    if ConvertPlaceToLandmark(p, t1).(lastUpdated := None) == ConvertPlaceToLandmark(q, t2).(lastUpdated := None) {
      ConversionRoundTrip(p, t1);
      ConversionRoundTrip(q, t2);
    }
  }
}

=== FILE: add_form.dfy ===
/** `AddLandmarkForm`: the dialog in which a user reports a new landmark at
    the map position they clicked. It validates the name, the category and
    the position, in that order, and hands the trimmed data to its parent. */
module AddLandmarkForm {
  import opened Wrappers
  import opened Types
  import opened Text

  /** The categories offered in the select, in display order. */
  const Categories: seq<string> :=
    ["safe_space", "danger_zone", "satellite_phone", "trusted_contact", "medical", "checkpoint"]

  const NameRequired: string := "Title/Name is required."
  const CategoryRequired: string := "Category is required."
  const LocationMissing: string := "Location not set. Please click on the map again."

  /** The form's fields and its error line. `category` is `None` until a
      value is selected. */
  datatype FormState = FormState(name: string, description: string, category: Option<string>,
                                 error: Option<string>)

  /** The data handed to `onSubmit`. */
  datatype NewLandmarkData = NewLandmarkData(name: string, description: Option<string>,
                                             category: string, location: Location)

  /** The reset effect, run whenever the dialog is open and it opens or the
      clicked position changes. */
  const Blank: FormState := FormState("", "", None, None)

  function OnOpenOrMove(s: FormState, isOpen: bool): (t: FormState)
    ensures isOpen ==> t == Blank
    ensures !isOpen ==> t == s
  {
    if isOpen then Blank else s
  }

  /** What a submit does: the new form state, the data passed to `onSubmit`
      if any, and whether the parent was asked to close the dialog. */
  datatype SubmitOutcome = SubmitOutcome(form: FormState, submitted: Option<NewLandmarkData>,
                                         closeRequested: bool)

  /** A category value is missing when it is `undefined` or empty (falsy). */
  predicate HasCategory(category: Option<string>) {
    category.Some? && category.value != ""
  }

  /** `handleSubmit`. The previous error is cleared first; the checks run
      in order and the first that fails sets the error and stops. */
  function Submit(s: FormState, clicked: Option<Location>): (o: SubmitOutcome)
    ensures o.form.name == s.name && o.form.description == s.description
         && o.form.category == s.category
    ensures o.submitted.Some? <==> Trim(s.name) != "" && HasCategory(s.category) && clicked.Some?
    ensures o.closeRequested <==> o.submitted.Some?
    ensures o.form.error.None? <==> o.submitted.Some?
    ensures Trim(s.name) == "" ==> o.form.error == Some(NameRequired)
    ensures Trim(s.name) != "" && !HasCategory(s.category) ==> o.form.error == Some(CategoryRequired)
    ensures Trim(s.name) != "" && HasCategory(s.category) && clicked.None?
      ==> o.form.error == Some(LocationMissing)
    ensures o.submitted.Some? ==>
      var d := o.submitted.value;
      && d.name == Trim(s.name) && d.category == s.category.value && d.location == clicked.value
      && d.description == (if Trim(s.description) == "" then None else Some(Trim(s.description)))
  {
    var cleared := s.(error := None);
    if Trim(s.name) == "" then SubmitOutcome(cleared.(error := Some(NameRequired)), None, false)
    else if !HasCategory(s.category) then SubmitOutcome(cleared.(error := Some(CategoryRequired)), None, false)
    else if clicked.None? then SubmitOutcome(cleared.(error := Some(LocationMissing)), None, false)
    else
      var description := Trim(s.description);
      var data := NewLandmarkData(Trim(s.name), if description == "" then None else Some(description),
                                  s.category.value, clicked.value);
      SubmitOutcome(cleared, Some(data), true)
  }

  /** Submitted data is clean: a non-empty trimmed name and, if present, a
      non-empty trimmed description. Submitting it again unchanged gives the
      same data. */
  lemma SubmittedDataIsTrimmed(s: FormState, clicked: Option<Location>)
    requires Submit(s, clicked).submitted.Some?
    ensures var d := Submit(s, clicked).submitted.value;
      && d.name != "" && Trim(d.name) == d.name
      && (d.description.Some? ==> d.description.value != "" && Trim(d.description.value) == d.description.value)
      && Submit(FormState(d.name, d.description.GetOr(""), Some(d.category), None), clicked).submitted
         == Some(d)
  {
    TrimIdempotent(s.name);
    TrimIdempotent(s.description);
  }

  // ---------------------------------------------------------------------
  // Category labels

  /** `\w` in a JavaScript regular expression without the `u` flag. */
  predicate IsWordChar(c: char) {
    ('a' <= c <= 'z') || ('A' <= c <= 'Z') || ('0' <= c <= '9') || c == '_'
  }

  /** Position `k` is a word start (`\b\w`): a word character with no word
      character before it. */
  predicate WordStart(t: string, k: int)
    requires 0 <= k < |t|
  {
    IsWordChar(t[k]) && (k == 0 || !IsWordChar(t[k - 1]))
  }

  /** `category.replace(/_/g, " ")`. */
  function Unsnake(category: string): (t: string)
    ensures |t| == |category|
    ensures forall k :: 0 <= k < |t| ==> t[k] == (if category[k] == '_' then ' ' else category[k])
  {
    seq(|category|, k requires 0 <= k < |category| => if category[k] == '_' then ' ' else category[k])
  }

  /** `.replace(/\b\w/g, char => char.toUpperCase())`. */
  function CapitalizeWords(t: string): (r: string)
    ensures |r| == |t|
    ensures forall k :: 0 <= k < |t| ==> r[k] == (if WordStart(t, k) then UpperChar(t[k]) else t[k])
  {
    seq(|t|, k requires 0 <= k < |t| => if WordStart(t, k) then UpperChar(t[k]) else t[k])
  }

  /** `formatCategoryName`: the label shown for a category. */
  function FormatCategoryName(category: string): (shown: string)
    ensures |shown| == |category|
    ensures forall k :: 0 <= k < |shown| ==> shown[k] != '_'
  {
    CapitalizeWords(Unsnake(category))
  }

  /** A snake_case category identifier: lower-case ASCII letters, digits and
      underscores. */
  predicate SnakeCase(category: string) {
    forall k :: 0 <= k < |category| ==>
      ('a' <= category[k] <= 'z') || ('0' <= category[k] <= '9') || category[k] == '_'
  }

  /** Reads a label back into the identifier it was made from. */
  function CategoryOfLabel(text: string): string {
    seq(|text|, k requires 0 <= k < |text| => if text[k] == ' ' then '_' else LowerChar(text[k]))
  }

  /** A label determines its category: for snake_case identifiers the
      formatting is undone exactly, so no two categories share a label. */
  lemma LabelRoundTrip(category: string)
    requires SnakeCase(category)
    ensures CategoryOfLabel(FormatCategoryName(category)) == category
  {
    var shown := FormatCategoryName(category);
    var back := CategoryOfLabel(shown);
    forall k | 0 <= k < |category| ensures back[k] == category[k] {
      assert shown[k] == CapitalizeWords(Unsnake(category))[k];
    }
  }

  /** The six categories on offer get six different labels. */
  lemma OfferedLabelsDistinct(i: int, j: int)
    requires 0 <= i < |Categories| && 0 <= j < |Categories| && i != j
    ensures FormatCategoryName(Categories[i]) != FormatCategoryName(Categories[j])
  {
    CategoriesSnakeCase(i);
    CategoriesSnakeCase(j);
    CategoriesDistinct(i, j);
    LabelRoundTrip(Categories[i]);
    LabelRoundTrip(Categories[j]);
  }

  lemma CategoriesSnakeCase(i: int)
    requires 0 <= i < |Categories|
    ensures SnakeCase(Categories[i])
  {
  }

  lemma CategoriesDistinct(i: int, j: int)
    requires 0 <= i < |Categories| && 0 <= j < |Categories| && i != j
    ensures Categories[i] != Categories[j]
  {
  }

  /** In a label every word starts with a capital letter or a digit. */
  lemma LabelWordsCapitalized(category: string, k: int)
    requires SnakeCase(category)
    requires 0 <= k < |category|
    requires WordStart(Unsnake(category), k)
    ensures 'A' <= FormatCategoryName(category)[k] <= 'Z' || '0' <= FormatCategoryName(category)[k] <= '9'
  {
  }

  lemma SafeSpaceLabel()
    ensures FormatCategoryName("safe_space") == "Safe Space"
  {
    var t := Unsnake("safe_space");
    assert t == "safe space";
    var shown := CapitalizeWords(t);
    var expected := "Safe Space";
    forall k | 0 <= k < |t|
      ensures shown[k] == expected[k]
    {
      if k != 0 && k != 5 {
        assert IsWordChar(t[k - 1]);
      }
    }
  }
}

=== FILE: chat.dfy ===
/** The chat panel `ChatInterface`: a message list opened by a greeting, an
    input line, and a pending flag while a request is in flight. Events are
    the user typing, the form being submitted, and the server action's answer
    arriving. The server action is reached through `Gemini`; message ids
    (`crypto.randomUUID`) are parameters. */
module ChatInterface {
  import opened Wrappers
  import opened Types
  import opened Text
  import Json
  import Store
  import Gemini

  /** A message body. The message type declares a string, but a successful
      answer puts the parsed response object itself into `content`. */
  datatype Content = Text(text: string) | Structured(value: Json.Value)

  datatype ChatMessage = ChatMessage(id: string, role: Role, content: Content, isError: Option<bool>)

  datatype ChatState = ChatState(messages: seq<ChatMessage>, input: string, pending: bool)

  const GreetingText: string :=
    "I am the Euromesh emergency assistant. How can I help you based on the latest local data?"

  const Greeting: ChatMessage := ChatMessage("init", Assistant, Text(GreetingText), None)

  /** The panel as it mounts: the greeting alone, an empty input, idle. */
  const Initial: ChatState := ChatState([Greeting], "", false)

  /** The input's `onChange`. The input is disabled while a request is
      pending, so typing then has no effect. */
  function TypeInput(s: ChatState, text: string): (t: ChatState)
    ensures t.messages == s.messages && t.pending == s.pending
    ensures t.input == (if s.pending then s.input else text)
  {
    if s.pending then s else s.(input := text)
  }

  /** The send button is enabled: nothing pending and a non-blank input. */
  predicate SendEnabled(s: ChatState) {
    !s.pending && Trim(s.input) != ""
  }

  /** `handleSubmit`: a blank input or a pending request ignores the submit;
      otherwise the trimmed input is appended as the user's message, the
      input is cleared and the request starts. */
  function Submit(s: ChatState, id: string): (t: ChatState)
    ensures SendEnabled(s) ==>
      && t.messages == s.messages + [ChatMessage(id, User, Text(Trim(s.input)), None)]
      && t.input == "" && t.pending
    ensures !SendEnabled(s) ==> t == s
  {
    var trimmed := Trim(s.input);
    if trimmed == "" || s.pending then s
    else ChatState(s.messages + [ChatMessage(id, User, Text(trimmed), None)], "", true)
  }

  /** A message arrives: it is appended and the panel is idle again. */
  function Receive(s: ChatState, m: ChatMessage): (t: ChatState)
    ensures t.messages == s.messages + [m] && t.input == s.input && !t.pending
  {
    s.(messages := s.messages + [m], pending := false)
  }

  /** The assistant's message for a server-action result: the response on
      success, the error text otherwise, flagged as an error exactly when the
      call reported failure. */
  function AnswerMessage(id: string, result: ApiResponse<Json.Value>): (m: ChatMessage)
    ensures m.id == id && m.role == Assistant
    ensures m.isError == Some(result.Failure?)
    ensures result.Success? ==> m.content == Structured(result.data)
    ensures result.Failure? ==> m.content == Text(result.error)
  {
    match result
    case Success(data) => ChatMessage(id, Assistant, Structured(data), Some(false))
    case Failure(error) => ChatMessage(id, Assistant, Text(error), Some(true))
  }

  /** The transition's completion: the answer goes last, after everything
      already shown (the user's message included), and the panel is idle. */
  function Complete(s: ChatState, id: string, result: ApiResponse<Json.Value>): (t: ChatState)
    ensures |t.messages| == |s.messages| + 1 && t.messages[..|s.messages|] == s.messages
    ensures var m := t.messages[|s.messages|];
      && m.id == id && m.role == Assistant && m.isError == Some(result.Failure?)
      && (result.Success? ==> m.content == Structured(result.data))
      && (result.Failure? ==> m.content == Text(result.error))
    ensures t.input == s.input && !t.pending
  {
    Receive(s, AnswerMessage(id, result))
  }

  // ---------------------------------------------------------------------
  // The request

  /** What the history renderer sees of one of the three mock documents that
      are sent in place of the conversation: no `role` (so not `"user"`) and
      no `content` (interpolated as `undefined`). */
  const MockDocument: Message := Message("", Assistant, "undefined", None)

  const MockHistory: seq<Message> := [MockDocument, MockDocument, MockDocument]

  /** The history the panel sends with every request. Neither the message
      list nor the typed text is part of it. */
  function RequestHistory(s: ChatState): (h: seq<Message>)
    ensures |h| == 3
    ensures forall i :: 0 <= i < |h| ==> h[i].role == Assistant && h[i].content == "undefined"
  {
    MockHistory
  }

  /** The answer to a submitted message, as the panel displays it. */
  function Respond(s: ChatState, id: string, file: Store.StoreFile, systemPrompt: string,
                   stringify: Store.Parsed -> string,
                   generate: string -> Option<string>,
                   parse: string -> Option<Json.Value>): (t: ChatState)
    ensures |t.messages| == |s.messages| + 1 && t.messages[..|s.messages|] == s.messages
    ensures !t.pending
  {
    Complete(s, id, Gemini.GetGeminiResponse(RequestHistory(s), file, systemPrompt, stringify,
                                             generate, parse))
  }

  /** Every answer the panel appends is a routable response and never
      flagged as an error, because the server action always reports
      success. */
  lemma AnswersAreNeverErrors(s: ChatState, id: string, file: Store.StoreFile, systemPrompt: string,
                              stringify: Store.Parsed -> string,
                              generate: string -> Option<string>,
                              parse: string -> Option<Json.Value>)
    ensures var m := Respond(s, id, file, systemPrompt, stringify, generate, parse).messages[|s.messages|];
      m.isError == Some(false) && m.content.Structured? && Gemini.WellShaped(m.content.value)
  {
    var r := Gemini.GetGeminiResponse(RequestHistory(s), file, systemPrompt, stringify, generate, parse);
    assert r.Success?;
  }

  /** Whether React can render a value as a child: strings, numbers,
      booleans and `null` render (the last two as nothing), an array renders
      when its elements do, and a plain object throws "Objects are not valid
      as a React child". */
  predicate RendersAsChild(v: Json.Value)
    decreases v
  {
    match v
    case Obj(_) => false
    case Arr(items) => forall i :: 0 <= i < |items| ==> RendersAsChild(items[i])
    case _ => true
  }

  /** The bubble's `{message.content}`. */
  predicate Renderable(c: Content) {
    c.Text? || RendersAsChild(c.value)
  }

  /** The panel renders when every message's content does. */
  predicate PanelRenders(s: ChatState) {
    forall i :: 0 <= i < |s.messages| ==> Renderable(s.messages[i].content)
  }

  /** Typed and greeting messages are text, so the panel renders until the
      first answer arrives. */
  lemma SubmitKeepsRendering(s: ChatState, id: string)
    requires PanelRenders(s)
    ensures PanelRenders(Submit(s, id))
  {
  }

  /** The answer's content is the response object itself, which React
      refuses to render: the first answer makes the panel throw. */
  lemma AnswerBreaksRendering(s: ChatState, id: string, file: Store.StoreFile, systemPrompt: string,
                              stringify: Store.Parsed -> string,
                              generate: string -> Option<string>,
                              parse: string -> Option<Json.Value>)
    ensures var m := Respond(s, id, file, systemPrompt, stringify, generate, parse).messages[|s.messages|];
      !Renderable(m.content)
    ensures !PanelRenders(Respond(s, id, file, systemPrompt, stringify, generate, parse))
  {
  }

  /** The answer does not depend on the conversation: two panels with
      different messages and input get the same answer from the same store
      and model. */
  lemma AnswerIgnoresConversation(s1: ChatState, s2: ChatState, id: string, file: Store.StoreFile,
                                  systemPrompt: string, stringify: Store.Parsed -> string,
                                  generate: string -> Option<string>,
                                  parse: string -> Option<Json.Value>)
    ensures Respond(s1, id, file, systemPrompt, stringify, generate, parse).messages[|s1.messages|]
         == Respond(s2, id, file, systemPrompt, stringify, generate, parse).messages[|s2.messages|]
  {
  }

  /** The history block of every prompt is three lines `Assistant: undefined`. */
  lemma RenderedRequestHistory(s: ChatState)
    ensures var lines := SplitLines(Gemini.RenderHistory(RequestHistory(s)));
      |lines| == 3 && forall i :: 0 <= i < 3 ==> lines[i] == "Assistant: undefined"
  {
    Gemini.OneLinePerMessage(RequestHistory(s));
  }

  // ---------------------------------------------------------------------
  // Runs of events

  datatype Event =
    | Typed(text: string)
    | Submitted(id: string)
    | Answered(id: string, result: ApiResponse<Json.Value>)

  function Step(s: ChatState, e: Event): ChatState {
    match e
    case Typed(text) => TypeInput(s, text)
    case Submitted(id) => Submit(s, id)
    case Answered(id, result) => Complete(s, id, result)
  }

  function Run(s: ChatState, events: seq<Event>): ChatState
    decreases |events|
  {
    if |events| == 0 then s else Run(Step(s, events[0]), events[1..])
  }

  /** The message list only grows: every step keeps what was shown, in order. */
  lemma {:induction false} RunAppendsOnly(s: ChatState, events: seq<Event>)
    ensures |s.messages| <= |Run(s, events).messages|
    ensures Run(s, events).messages[..|s.messages|] == s.messages
    decreases |events|
  {
    if |events| > 0 {
      var t := Step(s, events[0]);
      assert |s.messages| <= |t.messages| && t.messages[..|s.messages|] == s.messages;
      RunAppendsOnly(t, events[1..]);
    }
  }

  /** The greeting stays the first message whatever happens. */
  lemma GreetingStaysFirst(events: seq<Event>)
    ensures |Run(Initial, events).messages| >= 1 && Run(Initial, events).messages[0] == Greeting
  {
    RunAppendsOnly(Initial, events);
    assert Run(Initial, events).messages[..1] == [Greeting];
  }

  /** Every message the user sent is non-empty and has no surrounding
      whitespace. */
  predicate UserTurnsTrimmed(s: ChatState) {
    forall i :: 0 <= i < |s.messages| && s.messages[i].role == User ==>
      s.messages[i].content.Text? && s.messages[i].content.text != []
      && Trim(s.messages[i].content.text) == s.messages[i].content.text
  }

  /** A step keeps the user's turns trimmed, as long as answers come from the
      assistant. */
  lemma StepKeepsUserTurnsTrimmed(s: ChatState, e: Event)
    requires UserTurnsTrimmed(s)
    ensures UserTurnsTrimmed(Step(s, e))
  {
    match e
    case Typed(text) =>
    case Submitted(id) =>
      if SendEnabled(s) {
        TrimIdempotent(s.input);
        AppendKeepsTrimmed(s.messages, ChatMessage(id, User, Text(Trim(s.input)), None));
      }
    case Answered(id, result) =>
      AppendKeepsTrimmed(s.messages, AnswerMessage(id, result));
  }

  /** Appending an assistant message, or a trimmed non-empty user message,
      keeps the user's turns trimmed. */
  lemma AppendKeepsTrimmed(messages: seq<ChatMessage>, m: ChatMessage)
    requires UserTurnsTrimmed(ChatState(messages, "", false))
    requires m.role == User ==> m.content.Text? && m.content.text != [] && Trim(m.content.text) == m.content.text
    ensures forall input, pending :: UserTurnsTrimmed(ChatState(messages + [m], input, pending))
  {
    var r := messages + [m];
    assert forall i :: 0 <= i < |messages| ==> r[i] == messages[i];
    assert r[|messages|] == m;
  }

  lemma {:induction false} RunKeepsUserTurnsTrimmed(s: ChatState, events: seq<Event>)
    requires UserTurnsTrimmed(s)
    ensures UserTurnsTrimmed(Run(s, events))
    decreases |events|
  {
    if |events| > 0 {
      StepKeepsUserTurnsTrimmed(s, events[0]);
      RunKeepsUserTurnsTrimmed(Step(s, events[0]), events[1..]);
    }
  }

  /** A submit changes the panel exactly when the send button is enabled. */
  lemma SubmitAcceptedIffEnabled(s: ChatState, id: string)
    ensures Submit(s, id) != s <==> SendEnabled(s)
  {
    if SendEnabled(s) {
      assert |Submit(s, id).messages| == |s.messages| + 1;
    }
  }
}

=== FILE: chatbot.dfy ===
/** `ChatbotButton`: a round button that toggles a full-screen mobile chat,
    and the `MobileChatInterface` inside it. The mobile chat answers every
    message with the same canned text after a one-second timer; it never
    calls the assistant. Its state lives only while the panel is open. */
module ChatbotButton {
  import opened Wrappers
  import opened Types
  import ChatInterface
  import Text

  const MobileGreetingText: string :=
    "I am the Euromesh emergency assistant. You can ask for information or report a new danger."

  const CannedReply: string :=
    "Thank you for your message. I'm here to help with emergency information and reports."

  /** The simulated latency of the canned reply, in milliseconds. */
  const ReplyDelayMs: nat := 1000

  const MobileInitial: ChatInterface.ChatState :=
    ChatInterface.ChatState([ChatInterface.ChatMessage("init", Assistant, ChatInterface.Text(MobileGreetingText), None)],
                            "", false)

  /** The full-screen panel: closed, or open with the chat it mounted. */
  datatype Panel = Closed | Open(chat: ChatInterface.ChatState)

  /** `document.body.style.overflow` as the scroll-lock effect leaves it. */
  datatype Overflow = Hidden | Unset

  function BodyOverflow(p: Panel): (o: Overflow)
    ensures o == Hidden <==> p.Open?
  {
    if p.Open? then Hidden else Unset
  }

  /** The round button's `toggleChat`: opening mounts a fresh chat, closing
      discards it. */
  function Toggle(p: Panel): (q: Panel)
    ensures p.Closed? <==> q.Open?
    ensures q.Open? ==> q.chat == MobileInitial
  {
    if p.Closed? then Open(MobileInitial) else Closed
  }

  /** The close button in the panel's header. */
  function CloseButton(p: Panel): (q: Panel)
    ensures q == Closed
  {
    Closed
  }

  datatype Event =
    | Typed(text: string)
    | Submitted(id: string)
    | TimerFired(id: string)
    | Toggled
    | CloseClicked

  /** One event. Chat events reach the chat only while the panel is open;
      a timer that fires after the panel closed updates an unmounted
      component and changes nothing. `TimerFired` stands only for a timer
      armed by the chat now mounted: one armed before a close and reopen
      fires into the old, unmounted chat and is not an event here. */
  function Step(p: Panel, e: Event): Panel {
    match e
    case Toggled => Toggle(p)
    case CloseClicked => CloseButton(p)
    case Typed(text) => if p.Open? then Open(ChatInterface.TypeInput(p.chat, text)) else p
    case Submitted(id) => if p.Open? then Open(ChatInterface.Submit(p.chat, id)) else p
    case TimerFired(id) =>
      if p.Open? then
        Open(ChatInterface.Receive(p.chat, ChatInterface.ChatMessage(id, Assistant, ChatInterface.Text(CannedReply), None)))
      else p
  }

  function Run(p: Panel, events: seq<Event>): Panel
    decreases |events|
  {
    if |events| == 0 then p else Run(Step(p, events[0]), events[1..])
  }

  /** Every assistant message in the mobile chat is the greeting or the
      canned reply. */
  predicate OnlyCannedAnswers(c: ChatInterface.ChatState) {
    forall i :: 0 <= i < |c.messages| && c.messages[i].role == Assistant ==>
      c.messages[i].content == ChatInterface.Text(MobileGreetingText)
      || c.messages[i].content == ChatInterface.Text(CannedReply)
  }

  predicate PanelInvariant(p: Panel) {
    p.Open? ==> OnlyCannedAnswers(p.chat) && |p.chat.messages| >= 1
                && p.chat.messages[0] == MobileInitial.messages[0]
  }

  lemma StepKeepsInvariant(p: Panel, e: Event)
    requires PanelInvariant(p)
    ensures PanelInvariant(Step(p, e))
  {
    if p.Open? {
      match e
      case Submitted(id) =>
        if ChatInterface.SendEnabled(p.chat) {
          AppendKeepsCanned(p.chat, ChatInterface.Submit(p.chat, id),
                            ChatInterface.ChatMessage(id, User, ChatInterface.Text(Text.Trim(p.chat.input)), None));
        }
      case TimerFired(id) =>
        var m := ChatInterface.ChatMessage(id, Assistant, ChatInterface.Text(CannedReply), None);
        AppendKeepsCanned(p.chat, ChatInterface.Receive(p.chat, m), m);
      case _ =>
    }
  }

  /** Appending a user message or the canned reply keeps the invariant. */
  lemma AppendKeepsCanned(c: ChatInterface.ChatState, d: ChatInterface.ChatState, m: ChatInterface.ChatMessage)
    requires PanelInvariant(Open(c)) && d.messages == c.messages + [m]
    requires m.role == Assistant ==> m.content == ChatInterface.Text(CannedReply)
    ensures PanelInvariant(Open(d))
  {
    assert d.messages[0] == c.messages[0];
  }

  /** Whatever the user types, the mobile chat only ever answers with the
      greeting and the canned reply, and the greeting stays first. */
  lemma {:induction false} RunKeepsInvariant(p: Panel, events: seq<Event>)
    requires PanelInvariant(p)
    ensures PanelInvariant(Run(p, events))
    decreases |events|
  {
    if |events| > 0 {
      StepKeepsInvariant(p, events[0]);
      RunKeepsInvariant(Step(p, events[0]), events[1..]);
    }
  }

  /** Closing and reopening loses the conversation: the chat starts over. */
  lemma ReopenStartsOver(p: Panel)
    requires p.Open?
    ensures Toggle(Toggle(p)) == Open(MobileInitial)
    ensures Toggle(CloseButton(p)) == Open(MobileInitial)
  {
  }

  /** The round button is a toggle: two presses from closed give a fresh
      open chat, two presses from open give closed. */
  lemma ToggleTwice(p: Panel)
    ensures Toggle(Toggle(p)).Open? <==> p.Open?
  {
  }

  /** A submitted message, once the timer fires, is followed by exactly the
      canned reply, and the chat is idle again. */
  lemma SubmitThenTimer(c: ChatInterface.ChatState, id1: string, id2: string)
    requires ChatInterface.SendEnabled(c)
    ensures var q := Run(Open(c), [Submitted(id1), TimerFired(id2)]);
      && q.Open? && !q.chat.pending && q.chat.input == ""
      && |q.chat.messages| == |c.messages| + 2
      && q.chat.messages[|c.messages|].role == User
      && q.chat.messages[|c.messages| + 1].content == ChatInterface.Text(CannedReply)
  {
    var c1 := ChatInterface.Submit(c, id1);
    var c2 := ChatInterface.Receive(c1, ChatInterface.ChatMessage(id2, Assistant, ChatInterface.Text(CannedReply), None));
    RunTwo(Open(c), Submitted(id1), TimerFired(id2));
    assert |c2.messages| == |c.messages| + 2 && c2.messages[|c.messages|].role == User;
  }

  lemma RunTwo(p: Panel, e1: Event, e2: Event)
    ensures Run(p, [e1, e2]) == Step(Step(p, e1), e2)
  {
    assert [e1, e2][1..] == [e2];
    assert Run(p, [e1, e2]) == Run(Step(p, e1), [e2]);
    assert [e2][1..] == [];
    assert Run(Step(p, e1), [e2]) == Run(Step(Step(p, e1), e2), []);
  }
}

=== FILE: debug_menu.dfy ===
/** The debug menu: a keyboard listener and a panel of buttons that switch
    the animated route, add the prepared landmark change and set the system
    status. Shift+D opens and closes the panel; every other key runs the
    action bound to it, if any. The two routes and the landmark are bundled
    data files, received here as parameters together with `JSON.stringify`. */
module DebugMenu {
  import opened Wrappers
  import opened Types
  import opened Text
  import Json
  import LandmarksProvider

  datatype Command = ToggleRoute | StartRoute1 | StartLandmarkChange | SetStatusTo(status: SystemStatus)

  datatype DebugAction = DebugAction(key: string, caption: string, command: Command)

  /** The statuses keys `1` to `4` select, in that order. */
  const Statuses: seq<SystemStatus> := [Online, Transmitting, Crisis, Offline]

  function StatusName(s: SystemStatus): string {
    match s
    case Online => "Online"
    case Transmitting => "Transmitting"
    case Crisis => "Crisis"
    case Offline => "Offline"
  }

  /** The `actions` memo: three route actions, then one status action per
      status keyed by its position counted from 1. */
  function Actions(): (actions: seq<DebugAction>)
    ensures |actions| == 7
    ensures actions[0] == DebugAction("r", "Toggle Route (R)", ToggleRoute)
    ensures actions[1] == DebugAction("q", "Start Route 1 (Q)", StartRoute1)
    ensures actions[2] == DebugAction("w", "Start Landmark Change (W)", StartLandmarkChange)
    ensures forall k :: 0 <= k < 4 ==>
      actions[3 + k] == DebugAction(NatToString(k + 1), "Set Status: " + StatusName(Statuses[k]),
                                    SetStatusTo(Statuses[k]))
  {
    [ DebugAction("r", "Toggle Route (R)", ToggleRoute),
      DebugAction("q", "Start Route 1 (Q)", StartRoute1),
      DebugAction("w", "Start Landmark Change (W)", StartLandmarkChange) ]
    + seq(4, k requires 0 <= k < 4 =>
          DebugAction(NatToString(k + 1), "Set Status: " + StatusName(Statuses[k]), SetStatusTo(Statuses[k])))
  }

  /** The bundled data the actions use, with what `localStorage.setItem`
      does when the provider persists the changed list. */
  datatype DebugData = DebugData(routeA: Json.Value, routeB: Json.Value, landmarkChange: Landmark,
                                 stringify: Json.Value -> string,
                                 stringifyLandmarks: seq<Landmark> -> string,
                                 setItem: LandmarksProvider.SetItem)

  /** What the actions change: the debug context's status and route, and the
      landmarks provider. */
  datatype World = World(status: SystemStatus, route: Option<Json.Value>,
                         provider: LandmarksProvider.ProviderState)

  /** The route update of the `r` action: route B when the current route
      serialises like route A, route A otherwise (also when there is none). */
  function ToggledRoute(current: Option<Json.Value>, data: DebugData): (r: Json.Value)
    ensures (current.Some? && data.stringify(current.value) == data.stringify(data.routeA)) ==> r == data.routeB
    ensures !(current.Some? && data.stringify(current.value) == data.stringify(data.routeA)) ==> r == data.routeA
  {
    if current.Some? && data.stringify(current.value) == data.stringify(data.routeA) then data.routeB
    else data.routeA
  }

  /** An action's handler. */
  function Fire(w: World, c: Command, data: DebugData): World {
    match c
    case ToggleRoute => w.(route := Some(ToggledRoute(w.route, data)))
    case StartRoute1 => w.(route := Some(data.routeA))
    case StartLandmarkChange =>
      World(w.status, Some(data.routeB),
            LandmarksProvider.Step(w.provider, LandmarksProvider.Added(data.landmarkChange, data.setItem),
                                   data.stringifyLandmarks))
    case SetStatusTo(s) => w.(status := s)
  }

  /** `actions.forEach`: every action whose key equals the pressed key runs,
      in list order. */
  function ForEach(actions: seq<DebugAction>, key: string, w: World, data: DebugData): World
    decreases |actions|
  {
    if |actions| == 0 then w
    else
      var w1 := if actions[0].key == key then Fire(w, actions[0].command, data) else w;
      ForEach(actions[1..], key, w1, data)
  }

  datatype MenuState = MenuState(open: bool, world: World)

  /** `handleKey`. */
  function HandleKey(s: MenuState, key: string, shift: bool, data: DebugData): (t: MenuState)
    ensures ToLower(key) == "d" && shift ==> t == s.(open := !s.open)
    ensures !(ToLower(key) == "d" && shift) ==> t.open == s.open
  {
    if ToLower(key) == "d" && shift then s.(open := !s.open)
    else s.(world := ForEach(Actions(), key, s.world, data))
  }

  /** A click on an action's button, which exists only while the panel is
      open. */
  function Click(s: MenuState, i: nat, data: DebugData): (t: MenuState)
    requires i < |Actions()|
    ensures s.open ==> t == s.(world := Fire(s.world, Actions()[i].command, data))
    ensures !s.open ==> t == s
  {
    if s.open then s.(world := Fire(s.world, Actions()[i].command, data)) else s
  }

  // ---------------------------------------------------------------------
  // Dispatch

  predicate DistinctKeys(actions: seq<DebugAction>) {
    forall i, j :: 0 <= i < j < |actions| ==> actions[i].key != actions[j].key
  }

  /** The position of the action bound to `key`, if any. */
  function KeyIndex(actions: seq<DebugAction>, key: string): (r: Option<nat>)
    ensures r.Some? ==> r.value < |actions| && actions[r.value].key == key
    ensures r.None? ==> forall i :: 0 <= i < |actions| ==> actions[i].key != key
    decreases |actions|
  {
    if |actions| == 0 then None
    else if actions[0].key == key then Some(0)
    else
      match KeyIndex(actions[1..], key)
      case Some(i) => Some(i + 1)
      case None => None
  }

  /** With distinct keys, a key press runs exactly the one action bound to
      it, and a key bound to nothing changes nothing. */
  lemma {:induction false} DispatchFiresAtMostOne(actions: seq<DebugAction>, key: string, w: World,
                                                  data: DebugData)
    requires DistinctKeys(actions)
    ensures ForEach(actions, key, w, data)
         == match KeyIndex(actions, key)
            case None => w
            case Some(i) => Fire(w, actions[i].command, data)
    decreases |actions|
  {
    if |actions| > 0 {
      var rest := actions[1..];
      assert DistinctKeys(rest);
      if actions[0].key == key {
        var w1 := Fire(w, actions[0].command, data);
        DispatchFiresAtMostOne(rest, key, w1, data);
        assert KeyIndex(rest, key).None? by {
          forall i | 0 <= i < |rest|
            ensures rest[i].key != key
          {
            assert rest[i] == actions[i + 1];
          }
        }
      } else {
        DispatchFiresAtMostOne(rest, key, w, data);
      }
    }
  }

  /** With distinct keys, each action's key finds that action. */
  lemma {:induction false} KeyIndexOfOwnKey(actions: seq<DebugAction>, i: nat)
    requires DistinctKeys(actions) && i < |actions|
    ensures KeyIndex(actions, actions[i].key) == Some(i)
    decreases i
  {
    if i > 0 {
      assert DistinctKeys(actions[1..]);
      assert actions[1..][i - 1] == actions[i];
      KeyIndexOfOwnKey(actions[1..], i - 1);
    }
  }

  lemma KeysOfActions()
    ensures NatToString(1) == "1" && NatToString(2) == "2" && NatToString(3) == "3" && NatToString(4) == "4"
    ensures [Actions()[0].key, Actions()[1].key, Actions()[2].key, Actions()[3].key,
             Actions()[4].key, Actions()[5].key, Actions()[6].key] == ["r", "q", "w", "1", "2", "3", "4"]
  {
    var a := Actions();
    assert a[3].key == NatToString(1) && a[4].key == NatToString(2);
    assert a[5].key == NatToString(3) && a[6].key == NatToString(4);
  }

  /** The seven keys are distinct. */
  lemma ActionKeysDistinct()
    ensures DistinctKeys(Actions())
  {
    KeysOfActions();
  }

  /** Shift+D, in either case, toggles the panel and runs no action. */
  lemma ShiftDTogglesOnly(s: MenuState, data: DebugData)
    ensures HandleKey(s, "d", true, data) == s.(open := !s.open)
    ensures HandleKey(s, "D", true, data) == s.(open := !s.open)
  {
    assert ToLower("d") == "d" && ToLower("D") == "d";
  }

  /** Any key other than Shift+D runs the action bound to it, and nothing
      when none is; the panel's state does not matter. */
  lemma KeyRunsItsAction(s: MenuState, key: string, shift: bool, data: DebugData)
    requires !(ToLower(key) == "d" && shift)
    ensures HandleKey(s, key, shift, data).world
         == match KeyIndex(Actions(), key)
            case None => s.world
            case Some(i) => Fire(s.world, Actions()[i].command, data)
  {
    ActionKeysDistinct();
    DispatchFiresAtMostOne(Actions(), key, s.world, data);
  }

  /** Keys are compared case-sensitively: an upper-case `R` does nothing. */
  lemma UpperCaseIgnored(s: MenuState, shift: bool, data: DebugData)
    ensures HandleKey(s, "R", shift, data) == s
  {
    assert ToLower("R") == "r";
    KeysOfActions();
    KeyRunsItsAction(s, "R", shift, data);
  }

  /** Pressing an action's own key, when it is not Shift+D, runs that
      action. */
  lemma OwnKeyRunsAction(s: MenuState, i: nat, shift: bool, data: DebugData)
    requires i < |Actions()| && !(ToLower(Actions()[i].key) == "d" && shift)
    ensures HandleKey(s, Actions()[i].key, shift, data).world == Fire(s.world, Actions()[i].command, data)
  {
    ActionKeysDistinct();
    KeyIndexOfOwnKey(Actions(), i);
    KeyRunsItsAction(s, Actions()[i].key, shift, data);
  }

  /** The digit keys are not `d`. */
  lemma DigitKeyNotD(k: nat)
    requires 1 <= k <= 4
    ensures ToLower(NatToString(k)) != "d"
  {
    KeysOfActions();
    var key := NatToString(k);
    assert |key| == 1 && key[0] != 'd' && key[0] != 'D' by {
      if k == 1 { assert key == "1"; }
      else if k == 2 { assert key == "2"; }
      else if k == 3 { assert key == "3"; }
      else { assert key == "4"; }
    }
  }

  /** Keys `1` to `4` set the statuses in order. */
  lemma DigitKeysSetStatus(s: MenuState, k: nat, shift: bool, data: DebugData)
    requires 1 <= k <= 4
    ensures HandleKey(s, NatToString(k), shift, data).world == s.world.(status := Statuses[k - 1])
  {
    var a := Actions();
    assert a[3 + (k - 1)].key == NatToString(k) && a[3 + (k - 1)].command == SetStatusTo(Statuses[k - 1]);
    DigitKeyNotD(k);
    OwnKeyRunsAction(s, k + 2, shift, data);
  }

  /** `q` starts route A; `w` appends the landmark change to a live
      provider and starts route B. */
  lemma RouteKeys(s: MenuState, shift: bool, data: DebugData)
    ensures HandleKey(s, "q", shift, data).world == s.world.(route := Some(data.routeA))
    ensures HandleKey(s, "w", shift, data).world.route == Some(data.routeB)
    ensures HandleKey(s, "w", shift, data).world.status == s.world.status
    ensures !s.world.provider.crashed ==>
      HandleKey(s, "w", shift, data).world.provider.landmarks == s.world.provider.landmarks + [data.landmarkChange]
    ensures s.world.provider.crashed ==> HandleKey(s, "w", shift, data).world.provider == s.world.provider
  {
    assert ToLower("q") == "q" && ToLower("w") == "w";
    OwnKeyRunsAction(s, 1, shift, data);
    OwnKeyRunsAction(s, 2, shift, data);
  }

  /** `r` from no route starts route A, and from route A switches to B;
      when the routes serialise differently, pressing it again goes back. */
  lemma RouteToggleAlternates(data: DebugData)
    ensures ToggledRoute(None, data) == data.routeA
    ensures ToggledRoute(Some(data.routeA), data) == data.routeB
    ensures data.stringify(data.routeB) != data.stringify(data.routeA)
            ==> ToggledRoute(Some(ToggledRoute(Some(data.routeA), data)), data) == data.routeA
  {
  }
}

=== FILE: dialog.dfy ===
/** `LandmarkDialog`: a quick-add dialog that turns its four fields into a
    landmark at a given position. It validates nothing. The fresh id and
    `parseFloat` are parameters; the radius input is of type `number`, whose
    value is either empty or a valid number, so `parseFloat` never yields
    `NaN` here. */
module LandmarkDialog {
  import opened Wrappers
  import opened Types

  /** The categories offered, in display order. */
  const Categories: seq<string> :=
    ["safe_space", "dangerous_spot", "communication", "trusted_contact", "medical", "checkpoint"]

  const DefaultCategory: string := "safe_space"

  datatype DialogState = DialogState(name: string, description: string, category: string, radius: string)

  const Initial: DialogState := DialogState("", "", DefaultCategory, "")

  /** What pressing Save does: the landmark passed to `onSubmit`, the fields
      afterwards, and the request to close (always made). */
  datatype SaveOutcome = SaveOutcome(landmark: Landmark, fields: DialogState, closeRequested: bool)

  function HandleSubmit(s: DialogState, id: string, location: Location, parseFloat: string -> real)
    : (o: SaveOutcome)
    ensures o.landmark.id == id && o.landmark.location == location
    ensures o.landmark.name == s.name && o.landmark.category == s.category
    ensures o.landmark.description == (if s.description == "" then None else Some(s.description))
    ensures o.landmark.radius == (if s.radius == "" then None else Some(parseFloat(s.radius)))
    ensures o.landmark.trustLevel.None? && o.landmark.lastUpdated.None? && o.landmark.addedBy.None?
         && o.landmark.isVerified.None? && o.landmark.visible.None?
    ensures o.fields == DialogState("", "", s.category, "")
    ensures o.closeRequested
  {
    var landmark := Landmark(id, s.name, if s.description == "" then None else Some(s.description),
                             location, s.category, None, None, None, None, None,
                             if s.radius == "" then None else Some(parseFloat(s.radius)));
    SaveOutcome(landmark, DialogState("", "", s.category, ""), true)
  }

  /** The text fields of the dialog that produced a landmark, read back from
      the landmark. */
  function TextFieldsOf(l: Landmark): (string, string, string) {
    (l.name, l.description.GetOr(""), l.category)
  }

  /** The landmark keeps everything typed into the text fields: they can be
      read back from it exactly, and the radius is present exactly when one
      was typed. */
  lemma SaveKeepsFields(s: DialogState, id: string, location: Location, parseFloat: string -> real)
    ensures TextFieldsOf(HandleSubmit(s, id, location, parseFloat).landmark) == (s.name, s.description, s.category)
    ensures HandleSubmit(s, id, location, parseFloat).landmark.radius.None? <==> s.radius == ""
  {
  }

  /** The chosen category survives a save, so two saves in a row produce
      landmarks of the same category; the other fields start over. */
  lemma CategorySticks(s: DialogState, id1: string, id2: string, location: Location,
                       parseFloat: string -> real)
    ensures var o1 := HandleSubmit(s, id1, location, parseFloat);
      var o2 := HandleSubmit(o1.fields, id2, location, parseFloat);
      && o2.landmark.category == s.category
      && o2.landmark.name == "" && o2.landmark.description.None? && o2.landmark.radius.None?
  {
  }
}

=== FILE: emergency.dfy ===
/** The emergency-call page: tapping the call button starts dialing, and
    dialing turns into a connected call once a 3000 ms timer fires. The
    timer is armed by the effect that runs whenever the status becomes
    dialing, and is cleared when the status changes; the model keeps the
    instant it is due and receives the passing of time as clock ticks. */
module EmergencyCall {
  import opened Wrappers

  datatype CallStatus = Idle | Dialing | Connected

  const DialDelayMs: int := 3000

  /** The status and the instant the pending timer fires, if one is armed. */
  datatype CallState = CallState(status: CallStatus, timerDue: Option<int>)

  const Initial: CallState := CallState(Idle, None)

  /** `handleCall`, followed by the effect it triggers. */
  function HandleCall(s: CallState, at: int): (t: CallState)
    ensures s.status == Idle ==> t == CallState(Dialing, Some(at + DialDelayMs))
    ensures s.status != Idle ==> t == s
  {
    if s.status == Idle then CallState(Dialing, Some(at + DialDelayMs)) else s
  }

  /** The clock reaching `now`: a due timer moves dialing to connected, and
      the effect's cleanup disarms it. */
  function Tick(s: CallState, now: int): (t: CallState)
    ensures (s.status == Dialing && s.timerDue.Some? && now >= s.timerDue.value)
            ==> t == CallState(Connected, None)
    ensures !(s.status == Dialing && s.timerDue.Some? && now >= s.timerDue.value) ==> t == s
  {
    if s.status == Dialing && s.timerDue.Some? && now >= s.timerDue.value then CallState(Connected, None)
    else s
  }

  datatype Event = Tapped(at: int) | Clock(now: int)

  function Step(s: CallState, e: Event): CallState {
    match e
    case Tapped(at) => HandleCall(s, at)
    case Clock(now) => Tick(s, now)
  }

  function Run(s: CallState, events: seq<Event>): CallState
    decreases |events|
  {
    if |events| == 0 then s else Run(Step(s, events[0]), events[1..])
  }

  /** The call button pulses only while idle. */
  predicate Pulsing(c: CallStatus) {
    c == Idle
  }

  /** A timer is armed exactly while dialing. */
  predicate TimerWhileDialing(s: CallState) {
    s.timerDue.Some? <==> s.status == Dialing
  }

  function Rank(c: CallStatus): nat {
    match c
    case Idle => 0
    case Dialing => 1
    case Connected => 2
  }

  /** Each step keeps the timer invariant and never moves the status back;
      a status change is one step forward. */
  lemma StepForward(s: CallState, e: Event)
    requires TimerWhileDialing(s)
    ensures TimerWhileDialing(Step(s, e))
    ensures Rank(s.status) <= Rank(Step(s, e).status) <= Rank(s.status) + 1
  {
  }

  /** Over any run the invariant holds and the status never goes back, so a
      connected call stays connected and the pulse, once stopped, does not
      return. */
  lemma {:induction false} RunForward(s: CallState, events: seq<Event>)
    requires TimerWhileDialing(s)
    ensures TimerWhileDialing(Run(s, events))
    ensures Rank(s.status) <= Rank(Run(s, events).status)
    ensures s.status == Connected ==> Run(s, events) == s
    ensures !Pulsing(s.status) ==> !Pulsing(Run(s, events).status)
    decreases |events|
  {
    if |events| > 0 {
      StepForward(s, events[0]);
      RunForward(Step(s, events[0]), events[1..]);
    }
  }

  /** A tap dials; the call connects at the first tick at least 3000 ms
      later and not before. */
  lemma ConnectsAfterDelay(tap: int, now: int)
    ensures HandleCall(Initial, tap).status == Dialing
    ensures Tick(HandleCall(Initial, tap), now).status == Connected <==> now >= tap + DialDelayMs
  {
  }

  /** Tapping again while dialing does not restart the timer. */
  lemma SecondTapIgnored(tap: int, again: int)
    ensures HandleCall(HandleCall(Initial, tap), again) == HandleCall(Initial, tap)
  {
  }

  // ---------------------------------------------------------------------
  // What the page shows

  function StatusText(c: CallStatus): (text: string)
    ensures c == Idle ==> text == "Tap to call for help"
    ensures c == Dialing ==> text == "Dialing…"
    ensures c == Connected ==> text == "Connected"
  {
    match c
    case Idle => "Tap to call for help"
    case Dialing => "Dialing…"
    case Connected => "Connected"
  }

  /** The text tells the three statuses apart. */
  lemma StatusTextsDistinct(a: CallStatus, b: CallStatus)
    requires a != b
    ensures StatusText(a) != StatusText(b)
  {
  }
}

=== FILE: gemini.dfy ===
/** The assistant's server action `getGeminiResponse`: it loads the landmark
    store as grounding context, renders the chat history, assembles the
    prompt, asks the language model, and turns the model's text into a
    tagged response. The model itself is an untrusted oracle (`generate`), and
    so are `JSON.parse` (`parse`) and `JSON.stringify` (`stringify`). Which
    tag the model chooses is prompt policy, not code, and is not modelled. */
module Gemini {
  import opened Wrappers
  import opened Types
  import opened Text
  import Json
  import Store

  /** The content of the reply every failure degrades to. */
  const FallbackContent: string :=
    "I'm having trouble processing that request. Could you please try rephrasing?"

  /** `{type: "message", payload: {content: FallbackContent}}`. */
  const Fallback: Json.Value :=
    Json.Obj([("type", Json.Str("message")),
              ("payload", Json.Obj([("content", Json.Str(FallbackContent))]))])

  const Fence: string := "```"

  // ---------------------------------------------------------------------
  // History rendering

  /** One history line: `User: ` for the user's turns, `Assistant: ` for
      every other role, then the content. */
  function RenderLine(m: Message): string {
    (if m.role == User then "User: " else "Assistant: ") + m.content
  }

  function HistoryLines(history: seq<Message>): (lines: seq<string>)
    ensures |lines| == |history|
    ensures forall i :: 0 <= i < |history| ==> lines[i] == RenderLine(history[i])
  {
    seq(|history|, i requires 0 <= i < |history| => RenderLine(history[i]))
  }

  /** The history block of the prompt: the rendered lines joined by newlines. */
  function RenderHistory(history: seq<Message>): string {
    JoinLines(HistoryLines(history))
  }

  /** The rendered history has exactly one line per message, in order, each
      with its role prefix, as long as no message spans several lines. */
  lemma OneLinePerMessage(history: seq<Message>)
    requires |history| >= 1
    requires forall i :: 0 <= i < |history| ==> '\n' !in history[i].content
    ensures |SplitLines(RenderHistory(history))| == |history|
    ensures forall i :: 0 <= i < |history| ==>
      SplitLines(RenderHistory(history))[i] ==
        (if history[i].role == User then "User: " else "Assistant: ") + history[i].content
  {
    var lines := HistoryLines(history);
    forall i | 0 <= i < |lines| ensures '\n' !in lines[i] {
      var prefix := if history[i].role == User then "User: " else "Assistant: ";
      assert lines[i] == prefix + history[i].content;
      assert '\n' !in prefix;
    }
    SplitJoinRoundTrip(lines);
  }

  // ---------------------------------------------------------------------
  // Prompt assembly

  const MeshOpen: string := "\n--- MESH CONTEXT ---\n```json\n"
  const MeshClose: string :=
    "\n```\n--- END MESH CONTEXT ---\n--- CURRENT CONVERSATION HISTORY ---\n"
  const HistoryClose: string := "\n--- END CONVERSATION HISTORY ---\n  "

  /** The full prompt: a leading newline, the system prompt, the serialised
      mesh context, the rendered history, each in its own delimited section
      and in that order. */
  function BuildPrompt(systemPrompt: string, context: string, history: string): (p: string)
    ensures |p| == 1 + |systemPrompt| + |MeshOpen| + |context| + |MeshClose| + |history| + |HistoryClose|
    ensures p[..1] == "\n"
    ensures p[1..1 + |systemPrompt|] == systemPrompt
    ensures var c := 1 + |systemPrompt| + |MeshOpen|;
      p[c..c + |context|] == context
    ensures var h := 1 + |systemPrompt| + |MeshOpen| + |context| + |MeshClose|;
      p[h..h + |history|] == history && h + |history| + |HistoryClose| == |p|
  {
    SevenPartSlices("\n", systemPrompt, MeshOpen, context, MeshClose, history, HistoryClose);
    "\n" + systemPrompt + MeshOpen + context + MeshClose + history + HistoryClose
  }

  /** The grounding context: the store's content, or `[]` when reading or
      parsing fails (the failure is only logged). */
  function MeshContext(file: Store.StoreFile): (ctx: Store.Parsed)
    ensures !file.Holds? ==> ctx == Store.List([])
    ensures file.Holds? ==> ctx == file.parsed
  {
    Store.Get(file)
  }

  function Prompt(history: seq<Message>, file: Store.StoreFile, systemPrompt: string,
                  stringify: Store.Parsed -> string): string
  {
    BuildPrompt(systemPrompt, stringify(MeshContext(file)), RenderHistory(history))
  }

  // ---------------------------------------------------------------------
  // Post-processing of the model's text

  /** The regular expression /```(json)?\s*([\s\S]*?)\s*```/ drops a `json`
      tag right after the opening fence. */
  function Untag(body: string): string {
    if StartsWith(body, "json") then body[4..] else body
  }

  /** `j` is where the fence that closes the one opened at `i` starts: the
      first fence beginning after the opening one ends. */
  ghost predicate ClosingFence(text: string, i: nat, j: nat) {
    FirstOccurrenceFrom(text, Fence, i + 3, j)
  }

  /** The trimmed second capture group of the fence expression, if it matches.
      The expression matches exactly when two non-overlapping fences exist;
      the group then spans from the first fence (minus an optional `json`
      tag) to the first fence that starts after it, and its surrounding
      whitespace is what `\s*` and `trim` remove. */
  function FencedBody(text: string): (r: Option<string>)
    ensures r.None? <==>
      !exists i, j :: OccursAt(text, Fence, i) && OccursAt(text, Fence, j) && i + 3 <= j
    ensures r.Some? ==>
      exists i: nat, j: nat ::
        && FirstOccurrenceFrom(text, Fence, 0, i)
        && ClosingFence(text, i, j)
        && r.value == Trim(Untag(text[i + 3..j]))
  {
    match IndexOfFrom(text, Fence, 0)
    case None => None
    case Some(i) =>
      match IndexOfFrom(text, Fence, i + 3)
      case None =>
        NoClosingFence(text, i);
        None
      case Some(j) =>
        var r := Trim(Untag(text[i + 3..j]));
        assert FirstOccurrenceFrom(text, Fence, 0, i) && ClosingFence(text, i, j);
        Some(r)
  }

  /** Without a fence after the first one, no two fences are far enough
      apart to match. */
  lemma NoClosingFence(text: string, i: nat)
    requires FirstOccurrenceFrom(text, Fence, 0, i)
    requires forall m :: i + 3 <= m ==> !OccursAt(text, Fence, m)
    ensures forall a, b :: (OccursAt(text, Fence, a) && OccursAt(text, Fence, b) && a + 3 <= b
      ==> i <= a && !OccursAt(text, Fence, b))
  {
  }

  /** The text handed to `JSON.parse`: the fenced body when there is one,
      otherwise the whole reply, trimmed. */
  function Sanitize(text: string): (r: string)
    ensures (!exists i, j :: OccursAt(text, Fence, i) && OccursAt(text, Fence, j) && i + 3 <= j)
      ==> r == Trim(text)
    ensures FencedBody(text).Some? ==> r == FencedBody(text).value
  {
    FencedBody(text).GetOr(Trim(text))
  }

  /** A reply the client can route: `type` and `payload` are both present
      and truthy. Nothing else about them is checked. */
  predicate WellShaped(v: Json.Value) {
    Json.TruthyProperty(v, "type") && Json.TruthyProperty(v, "payload")
  }

  /** The `try`/`catch` around the model call. `reply` is the model's text,
      or `None` when the call or `response.text()` throws. */
  function Interpret(reply: Option<string>, parse: string -> Option<Json.Value>)
    : (r: ApiResponse<Json.Value>)
    ensures r.Success? && WellShaped(r.data)
    ensures reply.None? ==> r.data == Fallback
    ensures reply.Some? && Sanitize(reply.value) == "" ==> r.data == Fallback
    ensures reply.Some? && Sanitize(reply.value) != "" && parse(Sanitize(reply.value)).None?
      ==> r.data == Fallback
    ensures reply.Some? && Sanitize(reply.value) != "" && parse(Sanitize(reply.value)).Some?
      ==> var v := parse(Sanitize(reply.value)).value;
          (WellShaped(v) ==> r.data == v) && (!WellShaped(v) ==> r.data == Fallback)
  {
    Json.LookupPair("type", Json.Str("message"), "payload", Json.Obj([("content", Json.Str(FallbackContent))]));
    match reply
    case None => Success(Fallback)
    case Some(text) =>
      var clean := Sanitize(text);
      if clean == "" then Success(Fallback)
      else
        match parse(clean)
        case None => Success(Fallback)
        case Some(v) => if WellShaped(v) then Success(v) else Success(Fallback)
  }

  /** `getGeminiResponse(chatHistory)`. It always reports success, whatever
      the store, the model or the parser do, and what it returns always has a
      truthy `type` and `payload`. */
  function GetGeminiResponse(history: seq<Message>, file: Store.StoreFile, systemPrompt: string,
                             stringify: Store.Parsed -> string,
                             generate: string -> Option<string>,
                             parse: string -> Option<Json.Value>): (r: ApiResponse<Json.Value>)
    ensures r.Success? && WellShaped(r.data)
    ensures r == Interpret(generate(Prompt(history, file, systemPrompt, stringify)), parse)
  {
    Interpret(generate(Prompt(history, file, systemPrompt, stringify)), parse)
  }

  // ---------------------------------------------------------------------
  // Properties

  /** A failed store read does not abort the call: the assistant answers
      exactly as it would with an empty store. */
  lemma UnreadableStoreIsEmptyContext(history: seq<Message>, file: Store.StoreFile,
                                      systemPrompt: string, stringify: Store.Parsed -> string,
                                      generate: string -> Option<string>,
                                      parse: string -> Option<Json.Value>)
    requires !file.Holds?
    ensures GetGeminiResponse(history, file, systemPrompt, stringify, generate, parse)
         == GetGeminiResponse(history, Store.Holds(Store.List([])), systemPrompt, stringify, generate, parse)
    ensures GetGeminiResponse(history, file, systemPrompt, stringify, generate, parse).Success?
  {
    assert MeshContext(file) == MeshContext(Store.Holds(Store.List([])));
  }

  /** A reply without a fence pair is parsed whole, after trimming. */
  lemma UnfencedReplyParsedWhole(text: string)
    requires forall i :: !OccursAt(text, Fence, i)
    ensures Sanitize(text) == Trim(text)
  {
  }

  /** In a ```json-fenced text without inner backticks, the fences are the
      first three characters and the last three. */
  lemma FencesOfWrapped(body: string)
    requires '`' !in body
    ensures var text := "```json\n" + body + "\n```";
      FirstOccurrenceFrom(text, Fence, 0, 0) && ClosingFence(text, 0, |text| - 3)
  {
    var text := "```json\n" + body + "\n```";
    var n := |text|;
    assert OccursAt(text, Fence, 0);
    assert OccursAt(text, Fence, n - 3) by {
      assert text[n - 3..] == Fence;
    }
    forall m | 3 <= m < n - 3 ensures !OccursAt(text, Fence, m) {
      if 8 <= m < 8 + |body| {
        assert text[m] == body[m - 8];
      }
      assert text[m] != '`';
    }
  }

  /** Between the fences of a wrapped body: the tag, then the body on a line
      of its own. */
  lemma UntagWrapped(body: string)
    ensures var text := "```json\n" + body + "\n```";
      Untag(text[3..|text| - 3]) == "\n" + body + "\n"
  {
    var text := "```json\n" + body + "\n```";
    var inner := text[3..|text| - 3];
    assert inner == "json" + ("\n" + body + "\n");
    assert StartsWith(inner, "json");
    assert inner[4..] == "\n" + body + "\n";
  }

  /** In a wrapped body, `indexOf` finds the opening fence at 0 and the
      closing fence three characters before the end. */
  lemma WrappedFenceIndices(body: string)
    requires '`' !in body
    ensures var text := "```json\n" + body + "\n```";
      IndexOfFrom(text, Fence, 0) == Some(0) && IndexOfFrom(text, Fence, 3) == Some(|text| - 3)
  {
    var text := "```json\n" + body + "\n```";
    FencesOfWrapped(body);
    var a := IndexOfFrom(text, Fence, 0);
    var b := IndexOfFrom(text, Fence, 3);
    assert a.Some? && b.Some?;
    FirstOccurrenceUnique(text, Fence, 0, a.value, 0);
    FirstOccurrenceUnique(text, Fence, 3, b.value, |text| - 3);
  }

  /** The fence expression captures what lies between the two fences. */
  lemma WrappedFencedBody(body: string)
    requires '`' !in body
    ensures var text := "```json\n" + body + "\n```";
      FencedBody(text) == Some(Trim(Untag(text[3..|text| - 3])))
  {
    WrappedFenceIndices(body);
  }

  /** Wrapping a trimmed JSON text in a ```json fence is undone exactly. */
  lemma FencedReplyRoundTrip(body: string)
    requires body != [] && !IsWhitespace(body[0]) && !IsWhitespace(body[|body| - 1])
    requires '`' !in body
    ensures Sanitize("```json\n" + body + "\n```") == body
  {
    WrappedFencedBody(body);
    UntagWrapped(body);
    TrimNewlinePadding(body);
  }

  /** Only the presence of `type` and `payload` is checked: a reply tagged
      `location_request`, which the declared response union does not list,
      reaches the client unchanged. */
  lemma AnyTagPassesThrough(text: string, parse: string -> Option<Json.Value>,
                            tag: string, payload: Json.Value)
    requires tag != "" && Json.Truthy(payload)
    requires Sanitize(text) != ""
    requires parse(Sanitize(text)) == Some(Json.Obj([("type", Json.Str(tag)), ("payload", payload)]))
    ensures Interpret(Some(text), parse).data
         == Json.Obj([("type", Json.Str(tag)), ("payload", payload)])
    ensures Json.Property(Interpret(Some(text), parse).data, "type") == Some(Json.Str(tag))
  {
    PairWellShaped(tag, payload);
  }

  /** A two-member object with a non-empty `type` string and a truthy
      `payload` is well shaped. */
  lemma PairWellShaped(tag: string, payload: Json.Value)
    requires tag != "" && Json.Truthy(payload)
    ensures WellShaped(Json.Obj([("type", Json.Str(tag)), ("payload", payload)]))
    ensures Json.Property(Json.Obj([("type", Json.Str(tag)), ("payload", payload)]), "type") == Some(Json.Str(tag))
  {
    Json.LookupPair("type", Json.Str(tag), "payload", payload);
  }
}

=== FILE: interactive_map.dfy ===
/** `InteractiveMap`: the main map screen. Each area is drawn as two layers
    whose ids encode the area's id; a click on one of them opens that area's
    popup. The screen also holds the system status and whether the crisis
    warning has been acknowledged. */
module InteractiveMap {
  import opened Wrappers
  import opened Types
  import opened Text

  const FillPrefix: string := "area-fill-"
  const OutlinePrefix: string := "area-outline-"

  function FillLayerId(id: string): string { FillPrefix + id }
  function OutlineLayerId(id: string): string { OutlinePrefix + id }

  /** The ids of the clickable layers: each area's fill and outline, in area
      order. */
  function InteractiveLayers(areas: seq<Area>): (ids: seq<string>)
    ensures |ids| == 2 * |areas|
    ensures forall i :: 0 <= i < |areas| ==>
      ids[2 * i] == FillLayerId(areas[i].id) && ids[2 * i + 1] == OutlineLayerId(areas[i].id)
    decreases |areas|
  {
    if |areas| == 0 then []
    else
      var rest := InteractiveLayers(areas[1..]);
      var ids := [FillLayerId(areas[0].id), OutlineLayerId(areas[0].id)] + rest;
      assert forall i :: 1 <= i < |areas| ==> ids[2 * i] == rest[2 * (i - 1)] && areas[i] == areas[1..][i - 1];
      ids
  }

  // ---------------------------------------------------------------------
  // Reading an area id back from a layer id

  /** The characters `.` does not match in a JavaScript regular expression. */
  predicate IsLineTerminator(c: char) {
    c == '\n' || c == '\r' || c == '\U{2028}' || c == '\U{2029}'
  }

  predicate SingleLine(s: string) {
    forall k :: 0 <= k < |s| ==> !IsLineTerminator(s[k])
  }

  /** `layerId.match(/^area-(?:fill|outline)-(.*)$/)?.[1]`. */
  function ParseLayerId(layerId: string): (id: Option<string>)
    ensures id.Some? ==>
      && SingleLine(id.value)
      && (layerId == FillLayerId(id.value) || layerId == OutlineLayerId(id.value))
  {
    if StartsWith(layerId, FillPrefix) && SingleLine(layerId[|FillPrefix|..]) then
      assert layerId == FillPrefix + layerId[|FillPrefix|..];
      Some(layerId[|FillPrefix|..])
    else if StartsWith(layerId, OutlinePrefix) && SingleLine(layerId[|OutlinePrefix|..]) then
      assert layerId == OutlinePrefix + layerId[|OutlinePrefix|..];
      Some(layerId[|OutlinePrefix|..])
    else None
  }

  /** A layer id made from an area id gives that id back exactly when the id
      is a single line. */
  lemma LayerIdRoundTrip(id: string)
    ensures ParseLayerId(FillLayerId(id)) == (if SingleLine(id) then Some(id) else None)
    ensures ParseLayerId(OutlineLayerId(id)) == (if SingleLine(id) then Some(id) else None)
  {
    assert FillLayerId(id)[|FillPrefix|..] == id;
    assert OutlineLayerId(id)[|OutlinePrefix|..] == id;
    assert !StartsWith(OutlineLayerId(id), FillPrefix) by {
      assert OutlineLayerId(id)[5] == 'o';
    }
  }

  // ---------------------------------------------------------------------
  // Clicks

  datatype Selection = Selection(area: Area, coordinates: Location)

  /** Position `i` holds the first area with id `id`. */
  predicate FirstWithId(areas: seq<Area>, id: string, i: int) {
    0 <= i < |areas| && areas[i].id == id && forall k :: 0 <= k < i ==> areas[k].id != id
  }

  /** `areas.find(a => a.id === id)`: the first area with that id, if any. */
  function FindArea(areas: seq<Area>, id: string): (r: Option<Area>)
    ensures r.Some? ==> r.value in areas && r.value.id == id
    ensures r.Some? ==> exists i :: FirstWithId(areas, id, i) && areas[i] == r.value
    ensures r.None? <==> forall a :: a in areas ==> a.id != id
    decreases |areas|
  {
    if |areas| == 0 then None
    else if areas[0].id == id then
      assert FirstWithId(areas, id, 0);
      Some(areas[0])
    else
      var r := FindArea(areas[1..], id);
      if r.Some? then
        var i :| FirstWithId(areas[1..], id, i) && areas[1..][i] == r.value;
        assert FirstWithId(areas, id, i + 1) by {
          forall k | 0 <= k < i + 1
            ensures areas[k].id != id
          {
            if k > 0 { assert areas[k] == areas[1..][k - 1]; }
          }
        }
        r
      else
        assert forall a :: a in areas ==> a.id != id by {
          forall a | a in areas
            ensures a.id != id
          {
            if a != areas[0] { assert a in areas[1..]; }
          }
        }
        r
  }

  /** `handleMapClick`: `featureLayers` are the layer ids of the features
      under the mouse cursor, topmost first. The selected area is the area named
      by the topmost feature's layer, or none. */
  function HandleMapClick(featureLayers: seq<string>, at: Location, areas: seq<Area>)
    : (sel: Option<Selection>)
    ensures |featureLayers| == 0 ==> sel.None?
    ensures sel.Some? ==>
      && sel.value.coordinates == at && sel.value.area in areas
      && ParseLayerId(featureLayers[0]) == Some(sel.value.area.id)
    ensures sel.Some? ==> exists i :: FirstWithId(areas, sel.value.area.id, i) && areas[i] == sel.value.area
    ensures (&& |featureLayers| > 0 && ParseLayerId(featureLayers[0]).Some?
             && (exists a :: a in areas && a.id == ParseLayerId(featureLayers[0]).value)) ==> sel.Some?
  {
    if |featureLayers| == 0 then None
    else
      match ParseLayerId(featureLayers[0])
      case None => None
      case Some(id) =>
        match FindArea(areas, id)
        case Some(area) => Some(Selection(area, at))
        case None => None
  }

  /** Clicking any clickable layer of an area with a single-line id opens
      the popup of an area with that id (the first, if ids repeat). */
  lemma ClickOnLayerSelectsArea(areas: seq<Area>, i: int, outline: bool, at: Location)
    requires 0 <= i < |areas| && SingleLine(areas[i].id)
    ensures var layer := if outline then OutlineLayerId(areas[i].id) else FillLayerId(areas[i].id);
      var sel := HandleMapClick([layer], at, areas);
      sel.Some? && sel.value.area.id == areas[i].id && sel.value.coordinates == at
  {
    LayerIdRoundTrip(areas[i].id);
    assert areas[i] in areas;
  }

  /** Every clickable layer names an area of the map. */
  lemma InteractiveLayersNameAreas(areas: seq<Area>, k: int)
    requires 0 <= k < |InteractiveLayers(areas)|
    requires forall a :: a in areas ==> SingleLine(a.id)
    ensures HandleMapClick([InteractiveLayers(areas)[k]], Location(0.0, 0.0), areas).Some?
  {
    var i := k / 2;
    assert areas[i] in areas;
    var ids := InteractiveLayers(areas);
    if k % 2 == 0 {
      assert k == 2 * i;
      assert ids[k] == FillLayerId(areas[i].id);
      ClickOnLayerSelectsArea(areas, i, false, Location(0.0, 0.0));
    } else {
      assert k == 2 * i + 1;
      assert ids[k] == OutlineLayerId(areas[i].id);
      ClickOnLayerSelectsArea(areas, i, true, Location(0.0, 0.0));
    }
  }

  // ---------------------------------------------------------------------
  // Status and the crisis warning

  datatype ScreenState = ScreenState(status: SystemStatus, acknowledged: bool)

  const Initial: ScreenState := ScreenState(Online, false)

  /** The crisis warning covers the map while a crisis is unacknowledged. */
  predicate WarningShown(s: ScreenState) {
    s.status == Crisis && !s.acknowledged
  }

  /** A "Set: status" button, followed by the effect that forgets the
      acknowledgement whenever the status is not a crisis. */
  function SetStatus(s: ScreenState, status: SystemStatus): (t: ScreenState)
    ensures t.status == status
    ensures t.acknowledged <==> status == Crisis && s.acknowledged
  {
    ScreenState(status, if status != Crisis then false else s.acknowledged)
  }

  /** The warning's acknowledge button; it exists only while the warning
      is shown. */
  function Acknowledge(s: ScreenState): (t: ScreenState)
    ensures WarningShown(s) ==> t == s.(acknowledged := true)
    ensures !WarningShown(s) ==> t == s
  {
    if WarningShown(s) then s.(acknowledged := true) else s
  }

  /** An acknowledgement only exists during a crisis. */
  predicate Consistent(s: ScreenState) {
    s.acknowledged ==> s.status == Crisis
  }

  lemma StepsKeepConsistent(s: ScreenState, status: SystemStatus)
    requires Consistent(s)
    ensures Consistent(SetStatus(s, status)) && Consistent(Acknowledge(s))
  {
  }

  /** Leaving a crisis and entering a new one shows the warning again, even
      if the previous one was acknowledged. */
  lemma NewCrisisWarnsAgain(s: ScreenState, other: SystemStatus)
    requires other != Crisis
    ensures WarningShown(SetStatus(SetStatus(s, other), Crisis))
  {
  }

  /** Acknowledging hides the warning until the status leaves the crisis. */
  lemma AcknowledgeHidesWarning(s: ScreenState)
    requires WarningShown(s)
    ensures !WarningShown(Acknowledge(s))
    ensures !WarningShown(SetStatus(Acknowledge(s), Crisis))
  {
  }

  /** The blue edge glow is on exactly while transmitting. */
  predicate GlowOn(s: ScreenState) {
    s.status == Transmitting
  }

  // ---------------------------------------------------------------------
  // Area colours

  datatype Colors = Colors(fill: string, border: string)

  function CategoryColors(c: AreaCategory): (colors: Colors)
    ensures c == NoGo ==> colors == Colors("#DC2626", "#b91c1c")
    ensures c == Caution ==> colors == Colors("#FACC15", "#CA8A04")
    ensures c == Safe ==> colors == Colors("#16A34A", "#15803D")
  {
    match c
    case NoGo => Colors("#DC2626", "#b91c1c")
    case Caution => Colors("#FACC15", "#CA8A04")
    case Safe => Colors("#16A34A", "#15803D")
  }

  /** The paint of an area: its own colours where given, its category's
      otherwise. */
  function AreaPaint(a: Area): (p: Colors)
    ensures p.fill == (if a.fillColor.Some? then a.fillColor.value else CategoryColors(a.category).fill)
    ensures p.border == (if a.borderColor.Some? then a.borderColor.value else CategoryColors(a.category).border)
  {
    Colors(a.fillColor.GetOr(CategoryColors(a.category).fill),
           a.borderColor.GetOr(CategoryColors(a.category).border))
  }

  /** Without overrides, areas of different categories look different. */
  lemma CategoriesDistinguishable(a: Area, b: Area)
    requires a.fillColor.None? && b.fillColor.None? && a.category != b.category
    ensures AreaPaint(a).fill != AreaPaint(b).fill
  {
  }
}

=== FILE: json.dfy ===
/** JSON values as `JSON.parse` produces them, with JavaScript's property
    access and truthiness. Parsing and serialising text are not modelled here:
    callers receive them as oracle functions. */
module Json {
  import opened Wrappers

  datatype Value =
    | Null
    | Bool(b: bool)
    | Num(n: real)
    | Str(s: string)
    | Arr(items: seq<Value>)
    | Obj(fields: seq<(string, Value)>)

  /** The value stored under `key` in an object's member list. `JSON.parse`
      keeps the last of duplicated keys, so the search runs from the end. */
  function Lookup(fields: seq<(string, Value)>, key: string): (r: Option<Value>)
    ensures r.None? <==> forall i :: 0 <= i < |fields| ==> fields[i].0 != key
    ensures r.Some? ==> exists i :: 0 <= i < |fields| && fields[i] == (key, r.value)
    decreases |fields|
  {
    if |fields| == 0 then None
    else if fields[|fields| - 1].0 == key then Some(fields[|fields| - 1].1)
    else Lookup(fields[..|fields| - 1], key)
  }

  /** Property lookup in a two-member object literal `{k1: v1, k2: v2}`. */
  lemma LookupPair(k1: string, v1: Value, k2: string, v2: Value)
    requires k1 != k2
    ensures Lookup([(k1, v1), (k2, v2)], k1) == Some(v1)
    ensures Lookup([(k1, v1), (k2, v2)], k2) == Some(v2)
  {
    assert [(k1, v1), (k2, v2)][..1] == [(k1, v1)];
  }

  /** `v[key]` on a parsed value, `None` standing for `undefined`. Arrays,
      strings, numbers and booleans have no such own property; on `null` the
      access throws, which every caller in the application treats like a
      missing property (both land in the same `catch`). */
  function Property(v: Value, key: string): Option<Value> {
    if v.Obj? then Lookup(v.fields, key) else None
  }

  /** JavaScript truthiness of a parsed value (`NaN` cannot come out of JSON). */
  predicate Truthy(v: Value) {
    match v
    case Null => false
    case Bool(b) => b
    case Num(n) => n != 0.0
    case Str(s) => s != ""
    case Arr(_) => true
    case Obj(_) => true
  }

  /** Truthiness of a property that may be `undefined`. */
  predicate TruthyProperty(v: Value, key: string) {
    var p := Property(v, key);
    p.Some? && Truthy(p.value)
  }
}

=== FILE: mesh.dfy ===
/** The server action `saveReportToMesh`: it turns a report and a location
    into a landmark with fixed trust metadata and appends it to the store by
    reading the whole file, pushing, and writing the whole file back. The
    fresh id (`crypto.randomUUID`) and timestamp (`new Date().toISOString()`)
    are parameters; so is the outcome of the final write. */
module Mesh {
  import opened Wrappers
  import opened Types
  import Store
  import Json

  /** The report as the client sends it. The declared `ReportPayload` type
      has no `category`, but the action reads one, and the assistant's
      report object carries it; the model takes the runtime shape. */
  datatype ReportPayload = ReportPayload(name: string, description: string, category: string)

  /** What `fs.writeFile` does. It truncates the file before writing, so a
      write that fails partway (a full disk, say) may leave the file as it
      was, empty (which no longer parses), or partly written: the file it
      leaves behind is part of the outcome. */
  datatype WriteOutcome = Written | WriteFailed(leftBehind: Store.StoreFile)

  /** `{success, landmark?}`. */
  datatype SaveResult = SaveResult(success: bool, landmark: Option<Landmark>)

  const UserReport: string := "user_report"

  /** The landmark a report becomes. No field is validated. */
  function NewLandmark(report: ReportPayload, userLocation: Location, id: string, now: string)
    : (l: Landmark)
    ensures l.id == id && l.lastUpdated == Some(now)
    ensures l.name == report.name && l.description == Some(report.description)
    ensures l.category == report.category && l.location == userLocation
    ensures l.trustLevel == Some(Low) && l.isVerified == Some(false)
    ensures l.addedBy == Some(UserReport) && l.visible == Some(true)
    ensures l.radius.None?
  {
    Landmark(id, report.name, Some(report.description), userLocation, report.category,
             Some(Low), Some(now), Some(UserReport), Some(false), Some(true), None)
  }

  /** The array `push` is applied to: the stored array, whatever its
      elements are, or a fresh empty one when the file cannot be read or
      parsed. `None` when the file parses to something other than an array,
      on which `push` throws. */
  function Base(file: Store.StoreFile): (base: Option<seq<Store.Entry>>)
    ensures !file.Holds? ==> base == Some([])
    ensures file.Holds? && file.parsed.List? ==> base == Some(file.parsed.entries)
    ensures file.Holds? && file.parsed.NotAList? ==> base.None?
  {
    match Store.Read(file)
    case None => Some([])
    case Some(parsed) => if parsed.List? then Some(parsed.entries) else None
  }

  /** `saveReportToMesh(report, userLocation)`: the result and the store
      afterwards. When `push` throws nothing is written; when the write
      fails the store is whatever the failed write left behind. */
  function SaveReportToMesh(report: ReportPayload, userLocation: Location, id: string, now: string,
                            file: Store.StoreFile, write: WriteOutcome)
    : (out: (SaveResult, Store.StoreFile))
    ensures out.0.success <==> write.Written? && Base(file).Some?
    ensures out.0.success ==>
      && out.0.landmark == Some(NewLandmark(report, userLocation, id, now))
      && out.1 == Store.Holds(Store.List(Base(file).value + [Store.Known(NewLandmark(report, userLocation, id, now))]))
    ensures !out.0.success ==> out.0.landmark.None?
    ensures Base(file).None? ==> out.1 == file
    ensures Base(file).Some? && write.WriteFailed? ==> out.1 == write.leftBehind
  {
    var landmark := NewLandmark(report, userLocation, id, now);
    match Base(file)
    case None => (SaveResult(false, None), file)
    case Some(entries) =>
      var written := entries + [Store.Known(landmark)];
      match write
      case Written => (SaveResult(true, Some(landmark)), Store.Holds(Store.List(written)))
      case WriteFailed(left) => (SaveResult(false, None), left)
  }

  /** A write that fails before touching the file leaves the store as it was,
      so the next successful save still keeps every earlier entry. */
  lemma CleanFailureKeepsStore(r1: ReportPayload, r2: ReportPayload, userLocation: Location,
                               id1: string, id2: string, now: string, entries: seq<Store.Entry>)
    ensures var file := Store.Holds(Store.List(entries));
      var first := SaveReportToMesh(r1, userLocation, id1, now, file, WriteFailed(file));
      var second := SaveReportToMesh(r2, userLocation, id2, now, first.1, Written);
      && !first.0.success && first.1 == file && second.0.success
      && second.1 == Store.Holds(Store.List(entries + [Store.Known(second.0.landmark.value)]))
  {
  }

  /** A write that fails after truncating leaves a file that no longer
      parses; the next successful save then starts from `[]`, and every
      earlier report is gone. */
  lemma TruncatedWriteLosesReports(r1: ReportPayload, r2: ReportPayload, userLocation: Location,
                                   id1: string, id2: string, now: string, entries: seq<Store.Entry>)
    requires |entries| > 0
    ensures var first := SaveReportToMesh(r1, userLocation, id1, now, Store.Holds(Store.List(entries)),
                                          WriteFailed(Store.Corrupt));
      var second := SaveReportToMesh(r2, userLocation, id2, now, first.1, Written);
      && !first.0.success && second.0.success
      && second.1 == Store.Holds(Store.List([Store.Known(second.0.landmark.value)]))
      && |second.1.parsed.entries| < |entries| + 1
  {
    var first := SaveReportToMesh(r1, userLocation, id1, now, Store.Holds(Store.List(entries)),
                                  WriteFailed(Store.Corrupt));
    var landmark := NewLandmark(r2, userLocation, id2, now);
    assert first.1 == Store.Corrupt;
    assert [] + [Store.Known(landmark)] == [Store.Known(landmark)];
  }

  /** The store only grows: after a successful save it holds the earlier
      entries, whatever they are, unchanged and in order, followed by exactly
      the new landmark. */
  lemma AppendOnly(report: ReportPayload, userLocation: Location, id: string, now: string,
                   entries: seq<Store.Entry>)
    ensures var out := SaveReportToMesh(report, userLocation, id, now,
                                        Store.Holds(Store.List(entries)), Written);
      && out.0.success
      && out.1.Holds? && out.1.parsed.List?
      && |out.1.parsed.entries| == |entries| + 1
      && out.1.parsed.entries[..|entries|] == entries
      && out.1.parsed.entries[|entries|] == Store.Known(out.0.landmark.value)
  {
    var out := SaveReportToMesh(report, userLocation, id, now, Store.Holds(Store.List(entries)), Written);
    assert out.1.parsed.entries == entries + [Store.Known(out.0.landmark.value)];
  }

  /** An array holding values that are not landmarks (`[1]`, `[{}]`) is
      appended to like any other: `push` works on every array. */
  lemma ForeignArrayAccepted(report: ReportPayload, userLocation: Location, id: string, now: string,
                             values: seq<Json.Value>)
    ensures var entries := seq(|values|, i requires 0 <= i < |values| => Store.Foreign(values[i]));
      var out := SaveReportToMesh(report, userLocation, id, now, Store.Holds(Store.List(entries)), Written);
      && out.0.success
      && out.1 == Store.Holds(Store.List(entries + [Store.Known(out.0.landmark.value)]))
  {
  }

  /** Saving then reading back (`GET /api/landmarks`) gives the previous
      array with the new landmark last; an unreadable store counts as empty. */
  lemma SaveThenGet(report: ReportPayload, userLocation: Location, id: string, now: string,
                    file: Store.StoreFile)
    requires !(file.Holds? && file.parsed.NotAList?)
    ensures var out := SaveReportToMesh(report, userLocation, id, now, file, Written);
      var before := if file.Holds? then file.parsed.entries else [];
      out.0.success && Store.Get(out.1) == Store.List(before + [Store.Known(out.0.landmark.value)])
  {
  }

  /** A store whose content is not an array makes the save fail without
      writing anything. */
  lemma NonListStoreRejectsSave(report: ReportPayload, userLocation: Location, id: string,
                                now: string, value: Store.NonArray, write: WriteOutcome)
    ensures var out := SaveReportToMesh(report, userLocation, id, now, Store.Holds(Store.NotAList(value)),
                                        write);
      !out.0.success && out.0.landmark.None? && out.1 == Store.Holds(Store.NotAList(value))
  {
  }

  /** Success depends only on the store and the write, never on the report's
      fields: any two reports succeed or fail together. */
  lemma SuccessIgnoresFields(r1: ReportPayload, r2: ReportPayload, l1: Location, l2: Location,
                             id: string, now: string, file: Store.StoreFile, write: WriteOutcome)
    ensures SaveReportToMesh(r1, l1, id, now, file, write).0.success
        == SaveReportToMesh(r2, l2, id, now, file, write).0.success
  {
  }
}

=== FILE: nav.dfy ===
/** The bottom navigation bars of the two mobile layouts. An item is active
    when the current pathname is its page: the map only at `/` itself, any
    other item at its href and every path below it. */
module Navigation {
  import opened Wrappers
  import opened Text

  datatype NavItem = NavItem(href: string, caption: string)

  /** The items of the main mobile layout. */
  const MainItems: seq<NavItem> := [
    NavItem("/", "Map"),
    NavItem("/news", "News"),
    NavItem("/wallet", "Wallet"),
    NavItem("/faq", "FAQ"),
    NavItem("/settings", "Settings")
  ]

  /** The items of the alternative layout under `layout/`. */
  const LayoutItems: seq<NavItem> := [
    NavItem("/", "Map"),
    NavItem("/faq", "FAQ"),
    NavItem("/chatbot", "Chat"),
    NavItem("/liveticker", "Ticker"),
    NavItem("/settings", "Settings")
  ]

  /** The `isActive` test both layouts apply to each item. */
  predicate IsActive(pathname: string, href: string) {
    (pathname == "/" && href == "/") || (href != "/" && StartsWith(pathname, href))
  }

  /** The link's `aria-current` attribute in the main layout. */
  function AriaCurrent(pathname: string, item: NavItem): (a: Option<string>)
    ensures a == Some("page") <==> IsActive(pathname, item.href)
    ensures a.Some? ==> a.value == "page"
  {
    if IsActive(pathname, item.href) then Some("page") else None
  }

  /** The map item is active exactly at the root. */
  lemma RootActiveOnlyAtRoot(pathname: string)
    ensures IsActive(pathname, "/") <==> pathname == "/"
  {
  }

  /** Any other item is active exactly on the paths that start with its href. */
  lemma OtherActiveOnPrefix(pathname: string, href: string)
    requires href != "/"
    ensures IsActive(pathname, href) <==> StartsWith(pathname, href)
  {
  }

  // ---------------------------------------------------------------------
  // At most one active item

  /** Two prefixes of one string: the shorter is a prefix of the longer. */
  lemma PrefixesNest(s: string, a: string, b: string)
    requires StartsWith(s, a) && StartsWith(s, b) && |a| <= |b|
    ensures StartsWith(b, a)
  {
    assert b[..|a|] == s[..|b|][..|a|];
  }

  /** The hrefs are distinct, every one but `/` is longer than `/`, and no
      href other than `/` is a prefix of another. */
  predicate PrefixFree(items: seq<NavItem>) {
    && (forall i :: 0 <= i < |items| && items[i].href != "/" ==> |items[i].href| > 1)
    && (forall i, j :: 0 <= i < |items| && 0 <= j < |items| && i != j ==>
          && items[i].href != items[j].href
          && (items[i].href != "/" ==> !StartsWith(items[j].href, items[i].href)))
  }

  /** For a prefix-free list, no pathname activates two items. */
  lemma {:induction false} AtMostOneActive(items: seq<NavItem>, pathname: string, i: int, j: int)
    requires PrefixFree(items)
    requires 0 <= i < |items| && 0 <= j < |items|
    requires IsActive(pathname, items[i].href) && IsActive(pathname, items[j].href)
    ensures i == j
  {
    if i != j {
      var a, b := items[i].href, items[j].href;
      if a != "/" && b != "/" {
        if |a| <= |b| {
          PrefixesNest(pathname, a, b);
        } else {
          PrefixesNest(pathname, b, a);
        }
      }
    }
  }

  /** A path whose second character differs from a longer href's does not
      start with it. */
  lemma SecondCharDiffers(s: string, href: string)
    requires |href| > 1 && (|s| <= 1 || s[1] != href[1])
    ensures !StartsWith(s, href)
  {
  }

  /** Every href starts with `/`, and apart from `/` itself the second
      characters are pairwise distinct. */
  lemma {:induction false} SecondCharsDistinctPrefixFree(items: seq<NavItem>)
    requires forall i :: 0 <= i < |items| ==> |items[i].href| >= 1 && items[i].href[0] == '/'
    requires forall i :: 0 <= i < |items| && items[i].href != "/" ==> |items[i].href| > 1
    requires forall i, j :: 0 <= i < |items| && 0 <= j < |items| && i != j ==>
      (items[i].href == "/" || items[j].href == "/" || items[i].href[1] != items[j].href[1])
    requires forall i, j :: 0 <= i < |items| && 0 <= j < |items| && i != j ==>
      !(items[i].href == "/" && items[j].href == "/")
    ensures PrefixFree(items)
  {
    forall i, j | 0 <= i < |items| && 0 <= j < |items| && i != j
      ensures items[i].href != items[j].href
      ensures items[i].href != "/" ==> !StartsWith(items[j].href, items[i].href)
    {
      var a, b := items[i].href, items[j].href;
      if a != "/" {
        SecondCharDiffers(b, a);
      }
    }
  }

  lemma MainItemsPrefixFree()
    ensures PrefixFree(MainItems)
  {
    SecondCharsDistinctPrefixFree(MainItems);
  }

  lemma LayoutItemsPrefixFree()
    ensures PrefixFree(LayoutItems)
  {
    SecondCharsDistinctPrefixFree(LayoutItems);
  }

  /** Sub-pages activate their section and not the map; since the test is a
      plain string prefix, so does any path that merely begins like a
      section's href. */
  lemma SubPathsActivateSection()
    ensures IsActive("/news/1", "/news") && !IsActive("/news/1", "/")
    ensures IsActive("/chatbot/x", "/chatbot") && !IsActive("/chatbot/x", "/")
    ensures IsActive("/newsroom", "/news")
  {
    assert "/news/1"[..5] == "/news";
    assert "/chatbot/x"[..8] == "/chatbot";
    assert "/newsroom"[..5] == "/news";
  }

  /** Pages outside the bar, such as the emergency call, activate nothing. */
  lemma EmergencyCallActivatesNothing(i: int)
    requires 0 <= i < |MainItems|
    ensures !IsActive("/emergency-call", MainItems[i].href)
    ensures !IsActive("/emergency-call", LayoutItems[i].href)
  {
    if i > 0 {
      SecondCharDiffers("/emergency-call", MainItems[i].href);
      SecondCharDiffers("/emergency-call", LayoutItems[i].href);
    }
  }
}

=== FILE: news.dfy ===
/** The news page: a fixed list of briefings shown newest first, as
    accordion cards of which at most one is open. Each item's date is
    carried as the instant it denotes, in milliseconds since the epoch. */
module News {
  import opened Wrappers

  datatype NewsItem = NewsItem(id: int, tag: string, headline: string, description: string, time: int)

  // ---------------------------------------------------------------------
  // Newest first

  /** Each item is at least as recent as the next. */
  predicate NewestFirst(s: seq<NewsItem>) {
    forall i :: 0 <= i < |s| - 1 ==> s[i].time >= s[i + 1].time
  }

  /** Hence every item is at least as recent as every later one. */
  lemma {:induction false} NewestFirstPairwise(s: seq<NewsItem>, i: int, j: int)
    requires NewestFirst(s) && 0 <= i <= j < |s|
    ensures s[i].time >= s[j].time
    decreases j - i
  {
    if i < j {
      NewestFirstPairwise(s, i + 1, j);
    }
  }

  /** The items of `s` dated `t`, in their order in `s`. */
  function DatedAt(s: seq<NewsItem>, t: int): seq<NewsItem>
    decreases |s|
  {
    if |s| == 0 then []
    else (if s[0].time == t then [s[0]] else []) + DatedAt(s[1..], t)
  }

  /** Places `x` before the first item not newer than it, so that `x`
      precedes the items of its own date. */
  function Insert(x: NewsItem, sorted: seq<NewsItem>): (r: seq<NewsItem>)
    requires NewestFirst(sorted)
    ensures |r| == |sorted| + 1
    ensures r[0] == x || (|sorted| > 0 && r[0] == sorted[0])
    ensures NewestFirst(r)
    decreases |sorted|
  {
    if |sorted| == 0 || sorted[0].time <= x.time then
      [x] + sorted
    else
      var rest := Insert(x, sorted[1..]);
      assert sorted == [sorted[0]] + sorted[1..];
      [sorted[0]] + rest
  }

  /** Among the items of one date, the inserted item comes first and the
      others keep their order. */
  lemma {:induction false} InsertDatedAt(x: NewsItem, sorted: seq<NewsItem>, t: int)
    requires NewestFirst(sorted)
    ensures DatedAt(Insert(x, sorted), t)
         == if x.time == t then [x] + DatedAt(sorted, t) else DatedAt(sorted, t)
    decreases |sorted|
  {
    var r := Insert(x, sorted);
    if |sorted| == 0 || sorted[0].time <= x.time {
      DatedAtCons(x, sorted, t);
    } else {
      var rest := Insert(x, sorted[1..]);
      InsertDatedAt(x, sorted[1..], t);
      DatedAtCons(sorted[0], rest, t);
      DatedAtCons(sorted[0], sorted[1..], t);
      assert [sorted[0]] + sorted[1..] == sorted;
    }
  }

  lemma DatedAtCons(h: NewsItem, rest: seq<NewsItem>, t: int)
    ensures DatedAt([h] + rest, t) == (if h.time == t then [h] else []) + DatedAt(rest, t)
  {
    assert ([h] + rest)[1..] == rest;
  }

  /** `[...items].sort((a, b) => time(b) - time(a))`. */
  function SortNewestFirst(items: seq<NewsItem>): (r: seq<NewsItem>)
    ensures NewestFirst(r)
    ensures |r| == |items|
    decreases |items|
  {
    if |items| == 0 then []
    else
      var r := Insert(items[0], SortNewestFirst(items[1..]));
      assert items == [items[0]] + items[1..];
      r
  }

  /** Inserting adds exactly `x`. */
  lemma {:induction false} InsertPermutes(x: NewsItem, sorted: seq<NewsItem>)
    requires NewestFirst(sorted)
    ensures multiset(Insert(x, sorted)) == multiset(sorted) + multiset{x}
    decreases |sorted|
  {
    if !(|sorted| == 0 || sorted[0].time <= x.time) {
      InsertPermutes(x, sorted[1..]);
      assert sorted == [sorted[0]] + sorted[1..];
    }
  }

  /** The sort is a permutation of its input. */
  lemma {:induction false} SortPermutes(items: seq<NewsItem>)
    ensures multiset(SortNewestFirst(items)) == multiset(items)
    decreases |items|
  {
    if |items| > 0 {
      SortPermutes(items[1..]);
      InsertPermutes(items[0], SortNewestFirst(items[1..]));
      assert items == [items[0]] + items[1..];
    }
  }

  /** The sort is stable: the items of any one date appear in the same order
      as in the input. */
  lemma {:induction false} SortIsStable(items: seq<NewsItem>, t: int)
    ensures DatedAt(SortNewestFirst(items), t) == DatedAt(items, t)
    decreases |items|
  {
    if |items| > 0 {
      SortIsStable(items[1..], t);
      InsertDatedAt(items[0], SortNewestFirst(items[1..]), t);
    }
  }

  /** Sorting an already sorted list changes nothing. */
  lemma {:induction false} SortKeepsSorted(items: seq<NewsItem>)
    requires NewestFirst(items)
    ensures SortNewestFirst(items) == items
    decreases |items|
  {
    if |items| > 0 {
      assert NewestFirst(items[1..]);
      SortKeepsSorted(items[1..]);
    }
  }

  // ---------------------------------------------------------------------
  // The page's items

  const Description1: string :=
    "IDF jets conducted precision strikes targeting military installations near Tehran following confirmed intelligence on missile depots."
  const Description2: string :=
    "Iranian air defense batteries activated in response to incoming munition trajectories. Anti-aircraft fire detected over northern districts."
  const Description3: string :=
    "Local authorities report multiple civilian casualties and infrastructure damage in Shemiran district. Medical teams are en route."
  const Description4: string :=
    "United Nations Security Council holds an emergency meeting to address escalating tensions following the airstrike."
  const Description5: string :=
    "Iranian authorities announce temporary humanitarian corridors for civilian evacuation and aid shipments."
  const Description6: string :=
    "Military command reports cessation of operations. All-clear issued for resumed civilian and commercial activity."

  const Headline1: string := "Airstrike Launched on Tehran Outskirts"
  const Headline2: string := "Tehran Air Defenses Engaged"
  const Headline3: string := "Civilian Casualties Reported in Shemiran"
  const Headline4: string := "UN Security Council Convenes Emergency Session"
  const Headline5: string := "Humanitarian Corridors Established"
  const Headline6: string := "Ceasefire Declared; All-Clear Issued"

  /** The six briefings, given the instant the module was loaded: four dated
      minutes or hours before it, two at fixed instants (2025-06-20T14:00Z and
      2025-06-20T18:30Z). */
  function PageItems(loadedAt: int): seq<NewsItem> {
    [ NewsItem(1, "Alert", Headline1, Description1,
               loadedAt - 1000 * 60 * 2),
      NewsItem(2, "Alert", Headline2, Description2,
               loadedAt - 1000 * 60 * 45),
      NewsItem(3, "Report", Headline3, Description3,
               loadedAt - 1000 * 3600 * 2),
      NewsItem(4, "Response", Headline4, Description4,
               loadedAt - 1000 * 3600 * 6),
      NewsItem(5, "Info", Headline5, Description5,
               1750428000000),
      NewsItem(6, "Briefing", Headline6, Description6,
               1750444200000) ]
  }

  function Ids(items: seq<NewsItem>): (ids: seq<int>)
    ensures |ids| == |items| && forall i :: 0 <= i < |items| ==> ids[i] == items[i].id
  {
    seq(|items|, i requires 0 <= i < |items| => items[i].id)
  }

  lemma InsertAtFront(x: NewsItem, s: seq<NewsItem>)
    requires NewestFirst(s) && (|s| == 0 || s[0].time <= x.time)
    ensures Insert(x, s) == [x] + s
  {
  }

  lemma InsertPastHead(x: NewsItem, s: seq<NewsItem>)
    requires NewestFirst(s) && |s| > 0 && s[0].time > x.time
    ensures Insert(x, s) == [s[0]] + Insert(x, s[1..])
  {
  }

  lemma SortStep(items: seq<NewsItem>)
    requires |items| > 0
    ensures SortNewestFirst(items) == Insert(items[0], SortNewestFirst(items[1..]))
  {
  }

  /** Sorting six items whose dates fall in the order 1, 2, 3, 4, 6, 5. */
  lemma {:induction false} SortSix(p: seq<NewsItem>)
    requires |p| == 6
    requires p[0].time > p[1].time > p[2].time > p[3].time > p[5].time > p[4].time
    ensures SortNewestFirst(p) == [p[0], p[1], p[2], p[3], p[5], p[4]]
  {
    var t4 := [p[5], p[4]];
    SortLastTwo(p[4..]);
    var t3 := [p[3]] + t4;
    assert p[3..][1..] == p[4..];
    SortFront(p[3..], t4);
    var t2 := [p[2]] + t3;
    assert p[2..][1..] == p[3..];
    SortFront(p[2..], t3);
    var t1 := [p[1]] + t2;
    assert p[1..][1..] == p[2..];
    SortFront(p[1..], t2);
    SortFront(p, t1);
    assert [p[0]] + t1 == [p[0], p[1], p[2], p[3], p[5], p[4]];
  }

  /** Two items in rising order are swapped. */
  lemma SortLastTwo(q: seq<NewsItem>)
    requires |q| == 2 && q[0].time < q[1].time
    ensures SortNewestFirst(q) == [q[1], q[0]]
  {
    var one := q[1..];
    SortStep(one);
    assert one[1..] == [];
    InsertAtFront(q[1], []);
    SortStep(q);
    InsertPastHead(q[0], [q[1]]);
    InsertAtFront(q[0], []);
  }

  /** An item at least as recent as everything after it stays in front. */
  lemma SortFront(items: seq<NewsItem>, tail: seq<NewsItem>)
    requires |items| > 0 && SortNewestFirst(items[1..]) == tail
    requires |tail| == 0 || tail[0].time <= items[0].time
    ensures SortNewestFirst(items) == [items[0]] + tail
  {
    SortStep(items);
    InsertAtFront(items[0], tail);
  }

  lemma IdsOfSix(r: seq<NewsItem>)
    requires |r| == 6
    requires r[0].id == 1 && r[1].id == 2 && r[2].id == 3 && r[3].id == 4 && r[4].id == 6 && r[5].id == 5
    ensures Ids(r) == [1, 2, 3, 4, 6, 5]
  {
  }

  lemma PageDates(loadedAt: int)
    requires loadedAt - 1000 * 3600 * 6 > 1750444200000
    ensures var p := PageItems(loadedAt);
      && |p| == 6
      && p[0].time > p[1].time > p[2].time > p[3].time > p[5].time > p[4].time
      && p[0].id == 1 && p[1].id == 2 && p[2].id == 3 && p[3].id == 4 && p[4].id == 5 && p[5].id == 6
  {
  }

  /** Loaded more than six hours after the ceasefire briefing, the page shows
      the four relative items first and the ceasefire before the corridors. */
  lemma PageOrderAfterCeasefire(loadedAt: int)
    requires loadedAt - 1000 * 3600 * 6 > 1750444200000
    ensures Ids(SortNewestFirst(PageItems(loadedAt))) == [1, 2, 3, 4, 6, 5]
  {
    var p := PageItems(loadedAt);
    PageDates(loadedAt);
    SortSix(p);
    IdsOfSix(SortNewestFirst(p));
  }

  // ---------------------------------------------------------------------
  // The accordion

  /** The card shown open, if any. */
  type Expanded = Option<int>

  function IsExpanded(e: Expanded, item: NewsItem): bool {
    e == Some(item.id)
  }

  /** A card's `onToggle`: closes it when it is open, opens it (closing any
      other) when it is not. */
  function Toggle(e: Expanded, id: int): (r: Expanded)
    ensures r == Some(id) <==> e != Some(id)
    ensures r != Some(id) ==> r.None?
  {
    if e == Some(id) then None else Some(id)
  }

  /** With distinct ids, at most one card is open. */
  lemma AtMostOneOpen(e: Expanded, items: seq<NewsItem>, i: int, j: int)
    requires forall a, b :: 0 <= a < b < |items| ==> items[a].id != items[b].id
    requires 0 <= i < |items| && 0 <= j < |items|
    requires IsExpanded(e, items[i]) && IsExpanded(e, items[j])
    ensures i == j
  {
  }

  /** Toggling a card twice restores the page exactly when no other card was
      open before. */
  lemma ToggleTwice(e: Expanded, id: int)
    ensures Toggle(Toggle(e, id), id) == e <==> (e.None? || e == Some(id))
  {
  }

  /** With card 2 open, toggling card 1 twice leaves every card closed. */
  lemma ToggleTwiceLosesOtherCard()
    ensures Toggle(Toggle(Some(2), 1), 1) == None
  {
  }
}

=== FILE: overlay.dfy ===
/** `MapOverlay`: the layer of controls over the map, and its `handleSearch`,
    which jumps to the first landmark whose name matches a query, or else to
    the centre of the first matching area. The map camera is reached through
    `onSearchSelect(lng, lat)`, modelled as the value passed to it. */
module MapOverlay {
  import opened Wrappers
  import opened Types
  import opened Text
  import SearchBar

  /** `getAreaCenter`: a point area's own position; for a polygon (outer
      ring), multipolygon (first outer ring) or line, the mean of its
      coordinates, a floating-point computation received as `mean`; for any
      other shape the coordinate list is empty, the sums are 0 and the
      divisor falls back to 1. */
  function GetAreaCenter(area: Area, mean: Area -> Location): (c: Location)
    ensures area.shape.Point? ==> c == Location(area.shape.lat, area.shape.lng)
    ensures area.shape.Polygon? || area.shape.MultiPolygon? || area.shape.LineString? ==> c == mean(area)
    ensures area.shape.OtherGeometry? ==> c == Location(0.0, 0.0)
  {
    match area.shape
    case Point(lng, lat) => Location(lat, lng)
    case OtherGeometry => Location(0.0 / 1.0, 0.0 / 1.0)
    case _ => mean(area)
  }

  /** The corrected search-bar centre and this one put a point area in the
      same place. */
  lemma PointCentresAgree(area: Area, bbox: Area -> Location, mean: Area -> Location)
    requires area.shape.Point?
    ensures SearchBar.AreaCenter(area, bbox) == GetAreaCenter(area, mean)
  {
  }

  /** `items.find(matches)`, as the index of the item found. */
  function FindFirst<T>(items: seq<T>, nameOf: T -> string, query: string): (r: Option<nat>)
    ensures r.Some? ==> r.value < |items| && SearchBar.Matches(nameOf(items[r.value]), query)
    ensures r.Some? ==> NoMatchBefore(items, nameOf, query, r.value)
    ensures r.None? ==> NoMatchBefore(items, nameOf, query, |items|)
    decreases |items|
  {
    if |items| == 0 then None
    else if SearchBar.Matches(nameOf(items[0]), query) then Some(0)
    else
      var rest := FindFirst(items[1..], nameOf, query);
      if rest.Some? then
        NoMatchShift(items, nameOf, query, rest.value);
        Some(rest.value + 1)
      else
        NoMatchShift(items, nameOf, query, |items| - 1);
        None
  }

  /** No item before position `n` matches. */
  predicate NoMatchBefore<T>(items: seq<T>, nameOf: T -> string, query: string, n: nat)
    requires n <= |items|
  {
    forall j :: 0 <= j < n ==> !SearchBar.Matches(nameOf(items[j]), query)
  }

  lemma NoMatchShift<T>(items: seq<T>, nameOf: T -> string, query: string, n: nat)
    requires n < |items| && !SearchBar.Matches(nameOf(items[0]), query)
    requires NoMatchBefore(items[1..], nameOf, query, n)
    ensures NoMatchBefore(items, nameOf, query, n + 1)
  {
    forall j | 1 <= j < n + 1
      ensures !SearchBar.Matches(nameOf(items[j]), query)
    {
      assert items[j] == items[1..][j - 1];
    }
  }

  /** What `handleSearch` does: the `(lng, lat)` passed to `onSearchSelect`,
      if it is called, and the search mode afterwards. */
  datatype SearchOutcome = SearchOutcome(selected: Option<(real, real)>, searchActive: bool)

  function HandleSearch(query: string, landmarks: seq<Landmark>, areas: seq<Area>,
                        mean: Area -> Location): (o: SearchOutcome)
    ensures !o.searchActive
    ensures FindFirst(landmarks, SearchBar.LandmarkName, query).Some? ==>
      var l := landmarks[FindFirst(landmarks, SearchBar.LandmarkName, query).value];
      o.selected == Some((l.location.lng, l.location.lat))
    ensures (FindFirst(landmarks, SearchBar.LandmarkName, query).None?
             && FindFirst(areas, SearchBar.AreaName, query).Some?) ==>
      var c := GetAreaCenter(areas[FindFirst(areas, SearchBar.AreaName, query).value], mean);
      o.selected == Some((c.lng, c.lat))
    ensures o.selected.None? <==>
      FindFirst(landmarks, SearchBar.LandmarkName, query).None?
      && FindFirst(areas, SearchBar.AreaName, query).None?
  {
    match FindFirst(landmarks, SearchBar.LandmarkName, query)
    case Some(i) => SearchOutcome(Some((landmarks[i].location.lng, landmarks[i].location.lat)), false)
    case None =>
      match FindFirst(areas, SearchBar.AreaName, query)
      case Some(k) =>
        var c := GetAreaCenter(areas[k], mean);
        SearchOutcome(Some((c.lng, c.lat)), false)
      case None => SearchOutcome(None, false)
  }

  /** `find` and `filter` agree: the first hit of the filtered list is the
      item `find` returns, and the list is empty exactly when `find` finds
      nothing. */
  lemma {:induction false} FirstHitIsFound<T>(items: seq<T>, nameOf: T -> string,
                                              toResult: T -> SearchBar.SearchResult, query: string)
    ensures SearchBar.Hits(items, nameOf, toResult, query) == [] <==> FindFirst(items, nameOf, query).None?
    ensures FindFirst(items, nameOf, query).Some? ==>
      SearchBar.Hits(items, nameOf, toResult, query)[0] == toResult(items[FindFirst(items, nameOf, query).value])
    decreases |items|
  {
    if |items| > 0 && !SearchBar.Matches(nameOf(items[0]), query) {
      FirstHitIsFound(items[1..], nameOf, toResult, query);
    }
  }

  /** For a non-empty query the overlay jumps to the first result the search
      bar would list without a filter (with areas centred the overlay's
      way), and does nothing when that list is empty. */
  lemma SearchAgreesWithSearchBar(query: string, landmarks: seq<Landmark>, areas: seq<Area>,
                                  mean: Area -> Location)
    requires query != ""
    ensures var results := SearchBar.Results(query, SearchBar.All, landmarks, areas, a => GetAreaCenter(a, mean));
      var o := HandleSearch(query, landmarks, areas, mean);
      && (results == [] <==> o.selected.None?)
      && (results != [] ==> o.selected == Some((results[0].location.lng, results[0].location.lat)))
  {
    FirstHitIsFound(landmarks, SearchBar.LandmarkName, SearchBar.LandmarkResult, query);
    FirstHitIsFound(areas, SearchBar.AreaName, a => SearchBar.AreaResult(a, a => GetAreaCenter(a, mean)), query);
  }

  /** Unlike the search bar, an empty query is not special here: it matches
      every name, so the overlay jumps to the first landmark. */
  lemma EmptyQueryJumpsToFirstLandmark(landmarks: seq<Landmark>, areas: seq<Area>, mean: Area -> Location)
    requires |landmarks| > 0
    ensures HandleSearch("", landmarks, areas, mean).selected
         == Some((landmarks[0].location.lng, landmarks[0].location.lat))
  {
    ContainsEmpty(ToLower(landmarks[0].name));
  }
}

=== FILE: provider.dfy ===
/** `LandmarksProvider` and `useLandmarks`: the client-side landmark list
    shared by the map screens. On mount it loads once, preferring the copy
    cached in `localStorage`, then the server's list followed by the bundled
    static landmarks, then the static landmarks alone; every non-empty list
    it holds is written back to the cache. A write that throws is not
    caught and takes the provider down. `localStorage`, `fetch` and
    `JSON.parse`/`JSON.stringify` are parameters. */
module LandmarksProvider {
  import opened Wrappers
  import opened Types
  import Store

  /** The nine bundled data files, in the order they are spread. */
  datatype StaticData = StaticData(
    checkpoint: seq<Landmark>,
    communication: seq<Landmark>,
    dangerousSpots: seq<Landmark>,
    explosions: seq<Landmark>,
    attacks: seq<Landmark>,
    disasters: seq<Landmark>,
    hospitals: seq<Landmark>,
    medical: seq<Landmark>,
    safeSpaces: seq<Landmark>)

  /** The nine files as a list, in spreading order. */
  function Blocks(d: StaticData): (b: seq<seq<Landmark>>)
    ensures |b| == 9
  {
    [d.checkpoint, d.communication, d.dangerousSpots, d.explosions, d.attacks,
     d.disasters, d.hospitals, d.medical, d.safeSpaces]
  }

  /** The spread `[...b[0], ...b[1], …]`. */
  function Concat(b: seq<seq<Landmark>>): seq<Landmark>
    decreases |b|
  {
    if |b| == 0 then [] else Concat(b[..|b| - 1]) + b[|b| - 1]
  }

  /** Where block `k` starts in the spread: the total length before it. */
  function Offset(b: seq<seq<Landmark>>, k: nat): nat
    requires k <= |b|
  {
    |Concat(b[..k])|
  }

  lemma ConcatSnoc(b: seq<seq<Landmark>>, k: nat)
    requires k < |b|
    ensures Concat(b[..k + 1]) == Concat(b[..k]) + b[k]
  {
    assert b[..k + 1][..k] == b[..k];
  }

  /** The spread of the first `j` blocks is a prefix of the whole spread. */
  lemma {:induction false} ConcatPrefix(b: seq<seq<Landmark>>, j: nat)
    requires j <= |b|
    ensures |Concat(b[..j])| <= |Concat(b)| && Concat(b)[..|Concat(b[..j])|] == Concat(b[..j])
    decreases |b| - j
  {
    if j < |b| {
      ConcatPrefix(b, j + 1);
      assert b[..j + 1][..j] == b[..j];
      var p := Concat(b[..j]);
      assert Concat(b[..j + 1]) == p + b[j];
      assert Concat(b[..j + 1])[..|p|] == p;
    } else {
      assert b[..j] == b;
    }
  }

  /** Each block sits in the spread between its offset and the next. */
  lemma ConcatAtOffsets(b: seq<seq<Landmark>>, k: nat)
    requires k < |b|
    ensures Offset(b, k + 1) == Offset(b, k) + |b[k]| && Offset(b, k + 1) <= |Concat(b)|
    ensures Concat(b)[Offset(b, k)..Offset(b, k + 1)] == b[k]
  {
    assert b[..k + 1][..k] == b[..k];
    var p := Concat(b[..k]);
    assert Concat(b[..k + 1]) == p + b[k];
    ConcatPrefix(b, k + 1);
    var whole := Concat(b);
    assert whole[..|p| + |b[k]|] == p + b[k];
    assert whole[|p|..|p| + |b[k]|] == (p + b[k])[|p|..];
  }

  /** Block `k` of `b` sits in `r` between its offset and the next. */
  predicate BlockAt(r: seq<Landmark>, b: seq<seq<Landmark>>, k: nat)
    requires k < |b|
  {
    Offset(b, k) <= Offset(b, k + 1) <= |r| && r[Offset(b, k)..Offset(b, k + 1)] == b[k]
  }

  /** `staticLandmarks`: the nine files spread one after the other in
      declaration order; each file's landmarks sit in one block at its
      offset, and the spread holds nothing else. */
  function StaticLandmarks(d: StaticData): (r: seq<Landmark>)
    ensures |r| == Offset(Blocks(d), 9)
    ensures forall k :: 0 <= k < 9 ==> BlockAt(r, Blocks(d), k)
  {
    var b := Blocks(d);
    assert b[..9] == b;
    forall k | 0 <= k < 9
      ensures BlockAt(Concat(b), b, k)
    {
      ConcatAtOffsets(b, k);
    }
    Concat(b)
  }

  /** The spread written out. */
  lemma StaticLandmarksSpread(d: StaticData)
    ensures StaticLandmarks(d) == d.checkpoint + d.communication + d.dangerousSpots + d.explosions
      + d.attacks + d.disasters + d.hospitals + d.medical + d.safeSpaces
  {
    var b := Blocks(d);
    assert b[..0] == [];
    ConcatSnoc(b, 0);
    var c1 := d.checkpoint;
    assert Concat(b[..1]) == c1;
    ConcatSnoc(b, 1);
    var c2 := c1 + d.communication;
    assert Concat(b[..2]) == c2;
    ConcatSnoc(b, 2);
    var c3 := c2 + d.dangerousSpots;
    assert Concat(b[..3]) == c3;
    ConcatSnoc(b, 3);
    var c4 := c3 + d.explosions;
    assert Concat(b[..4]) == c4;
    ConcatSnoc(b, 4);
    var c5 := c4 + d.attacks;
    assert Concat(b[..5]) == c5;
    ConcatSnoc(b, 5);
    var c6 := c5 + d.disasters;
    assert Concat(b[..6]) == c6;
    ConcatSnoc(b, 6);
    var c7 := c6 + d.hospitals;
    assert Concat(b[..7]) == c7;
    ConcatSnoc(b, 7);
    var c8 := c7 + d.medical;
    assert Concat(b[..8]) == c8;
    ConcatSnoc(b, 8);
    assert b[..9] == b;
  }

  /** The spread is as long as the nine files together, and holds exactly
      their landmarks; the checkpoints come first. */
  lemma StaticLandmarksContents(d: StaticData)
    ensures |StaticLandmarks(d)| == |d.checkpoint| + |d.communication| + |d.dangerousSpots| + |d.explosions|
      + |d.attacks| + |d.disasters| + |d.hospitals| + |d.medical| + |d.safeSpaces|
    ensures multiset(StaticLandmarks(d)) == multiset(d.checkpoint) + multiset(d.communication)
      + multiset(d.dangerousSpots) + multiset(d.explosions) + multiset(d.attacks)
      + multiset(d.disasters) + multiset(d.hospitals) + multiset(d.medical) + multiset(d.safeSpaces)
    ensures StaticLandmarks(d)[..|d.checkpoint|] == d.checkpoint
  {
    StaticLandmarksSpread(d);
  }

  /** `localStorage.getItem("landmarks")`: it throws when storage is not
      available, returns `null` when nothing is cached, or the cached text. */
  datatype StorageRead = StorageUnavailable | NoEntry | Entry(text: string)

  /** `fetch("/api/landmarks")`: it throws, answers with a non-2xx status, or
      answers 2xx with a body. The body is `None` when `res.json()` throws or
      the value is not an array, so that spreading it throws into the
      `catch`. */
  datatype FetchOutcome = FetchThrew | NotOk | Responded(body: Option<seq<Landmark>>)

  /** The list `loadLandmarks` offers. An empty cached text is falsy and
      falls through to the server. `parse` is `None` when `JSON.parse`
      throws; every throw lands in the `catch`, which offers the static
      landmarks. The cached text is taken to be a landmark array, as the
      persistence effect writes it. */
  function Loaded(read: StorageRead, parse: string -> Option<seq<Landmark>>, fetch: FetchOutcome,
                  staticLandmarks: seq<Landmark>): (r: seq<Landmark>)
    ensures read.Entry? && read.text != "" && parse(read.text).Some? ==> r == parse(read.text).value
    ensures read.Entry? && read.text != "" && parse(read.text).None? ==> r == staticLandmarks
    ensures read.StorageUnavailable? ==> r == staticLandmarks
    ensures (read.NoEntry? || read == Entry("")) ==>
      r == (if fetch.Responded? && fetch.body.Some? then fetch.body.value + staticLandmarks
            else staticLandmarks)
  {
    if read.StorageUnavailable? then staticLandmarks
    else if read.Entry? && read.text != "" then
      match parse(read.text)
      case Some(cached) => cached
      case None => staticLandmarks
    else
      match fetch
      case Responded(Some(dynamic)) => dynamic + staticLandmarks
      case _ => staticLandmarks
  }

  /** The functional update `prev.length ? prev : loaded`. */
  function ApplyLoad(prev: seq<Landmark>, loaded: seq<Landmark>): (r: seq<Landmark>)
    ensures |prev| > 0 ==> r == prev
    ensures |prev| == 0 ==> r == loaded
  {
    if |prev| > 0 then prev else loaded
  }

  /** `addLandmark`. */
  function AddLandmark(prev: seq<Landmark>, l: Landmark): (r: seq<Landmark>)
    ensures |r| == |prev| + 1 && r[..|prev|] == prev && r[|prev|] == l
  {
    prev + [l]
  }

  /** What `localStorage.setItem` does when it is called: stores the text, or
      throws because storage is unavailable or the quota is exceeded. */
  datatype SetItem = SetItemOk | SetItemThrew

  /** The outcome of the persistence effect: the cache entry afterwards, or an
      exception that escapes the effect uncaught. */
  datatype Effect = Cached(cache: Option<string>) | Threw

  /** The persistence effect after the list went from `prev` to `next`. React
      runs it only when the list changed: the load updater returns `prev`
      itself when it keeps it, and every other update yields a different
      list. It writes only a non-empty list. */
  function Persist(cache: Option<string>, prev: seq<Landmark>, next: seq<Landmark>,
                   stringify: seq<Landmark> -> string, write: SetItem): (r: Effect)
    ensures r.Threw? <==> next != prev && |next| > 0 && write.SetItemThrew?
    ensures next != prev && |next| > 0 && write.SetItemOk? ==> r == Cached(Some(stringify(next)))
    ensures next == prev || |next| == 0 ==> r == Cached(cache)
  {
    if next == prev || |next| == 0 then Cached(cache)
    else if write.SetItemOk? then Cached(Some(stringify(next)))
    else Threw
  }

  /** The provider's list together with the cache entry it maintains; once
      the effect has thrown, the provider's tree is gone. */
  datatype ProviderState = ProviderState(landmarks: seq<Landmark>, cache: Option<string>, crashed: bool)

  /** A state update, with what `setItem` would do if the effect it triggers
      calls it. */
  datatype Event = LoadFinished(loaded: seq<Landmark>, write: SetItem) | Added(l: Landmark, write: SetItem)

  /** One state update followed by the persistence effect it triggers. The
      update is committed before the effect runs; a crashed provider takes no
      further events. */
  function Step(s: ProviderState, e: Event, stringify: seq<Landmark> -> string): ProviderState {
    if s.crashed then s
    else
      var next := match e
        case LoadFinished(loaded, _) => ApplyLoad(s.landmarks, loaded)
        case Added(l, _) => AddLandmark(s.landmarks, l);
      match Persist(s.cache, s.landmarks, next, stringify, e.write)
      case Cached(c) => ProviderState(next, c, false)
      case Threw => ProviderState(next, s.cache, true)
  }

  function Run(s: ProviderState, events: seq<Event>, stringify: seq<Landmark> -> string): ProviderState
    decreases |events|
  {
    if |events| == 0 then s else Run(Step(s, events[0], stringify), events[1..], stringify)
  }

  /** The cache mirrors the list whenever the list is non-empty. */
  predicate Synced(s: ProviderState, stringify: seq<Landmark> -> string) {
    |s.landmarks| > 0 ==> s.cache == Some(stringify(s.landmarks))
  }

  /** Every write in the run is accepted by storage. */
  predicate WritesSucceed(events: seq<Event>) {
    forall i :: 0 <= i < |events| ==> events[i].write.SetItemOk?
  }

  /** Every run keeps the cache in step with the list for as long as the
      provider is alive, and a list that was non-empty never becomes empty
      again. */
  lemma {:induction false} RunKeepsSynced(s: ProviderState, events: seq<Event>,
                                          stringify: seq<Landmark> -> string)
    requires !s.crashed ==> Synced(s, stringify)
    ensures !Run(s, events, stringify).crashed ==> Synced(Run(s, events, stringify), stringify)
    ensures |s.landmarks| > 0 ==> |Run(s, events, stringify).landmarks| > 0
    decreases |events|
  {
    if s.crashed {
      CrashIsFinal(s, events, stringify);
    } else if |events| > 0 {
      RunKeepsSynced(Step(s, events[0], stringify), events[1..], stringify);
    }
  }

  /** A crashed provider stays crashed, with its list and cache frozen. */
  lemma {:induction false} CrashIsFinal(s: ProviderState, events: seq<Event>,
                                        stringify: seq<Landmark> -> string)
    requires s.crashed
    ensures Run(s, events, stringify) == s
    decreases |events|
  {
    if |events| > 0 {
      CrashIsFinal(Step(s, events[0], stringify), events[1..], stringify);
    }
  }

  /** When storage accepts every write the provider never crashes, so the
      cache mirrors the list at the end of the run. */
  lemma {:induction false} AcceptedWritesNeverCrash(s: ProviderState, events: seq<Event>,
                                                    stringify: seq<Landmark> -> string)
    requires !s.crashed && Synced(s, stringify) && WritesSucceed(events)
    ensures !Run(s, events, stringify).crashed
    ensures Synced(Run(s, events, stringify), stringify)
    decreases |events|
  {
    if |events| > 0 {
      assert events[0].write.SetItemOk?;
      assert WritesSucceed(events[1..]) by {
        forall i | 0 <= i < |events[1..]| ensures events[1..][i].write.SetItemOk? {
          assert events[1..][i] == events[i + 1];
        }
      }
      AcceptedWritesNeverCrash(Step(s, events[0], stringify), events[1..], stringify);
    }
  }

  /** With storage unavailable the initial read throws into the `catch`,
      which loads the static list, and persisting that list makes `setItem`
      throw out of the effect: the provider crashes with nothing cached. */
  lemma UnavailableStorageCrashes(parse: string -> Option<seq<Landmark>>, fetch: FetchOutcome,
                                  staticLandmarks: seq<Landmark>, stringify: seq<Landmark> -> string)
    requires |staticLandmarks| > 0
    ensures var loaded := Loaded(StorageUnavailable, parse, fetch, staticLandmarks);
      var s := Step(ProviderState([], None, false), LoadFinished(loaded, SetItemThrew), stringify);
      s.crashed && s.cache == None && s.landmarks == loaded
  {
  }

  /** One `addLandmark` call per landmark, in order, each write of which
      storage accepts. */
  function AddEvents(ls: seq<Landmark>): (events: seq<Event>)
    ensures |events| == |ls| && forall i :: 0 <= i < |ls| ==> events[i] == Added(ls[i], SetItemOk)
  {
    if |ls| == 0 then [] else [Added(ls[0], SetItemOk)] + AddEvents(ls[1..])
  }

  /** Running the add events of a non-empty list: the first add, then the
      rest. */
  lemma RunAddEvents(s: ProviderState, ls: seq<Landmark>, stringify: seq<Landmark> -> string)
    requires |ls| > 0 && !s.crashed
    ensures Run(s, AddEvents(ls), stringify) == Run(Step(s, Added(ls[0], SetItemOk), stringify), AddEvents(ls[1..]), stringify)
    ensures Step(s, Added(ls[0], SetItemOk), stringify).landmarks == s.landmarks + [ls[0]]
    ensures !Step(s, Added(ls[0], SetItemOk), stringify).crashed
  {
    var rest := AddEvents(ls[1..]);
    assert AddEvents(ls) == [Added(ls[0], SetItemOk)] + rest;
    assert ([Added(ls[0], SetItemOk)] + rest)[1..] == rest;
  }

  lemma AppendHead(prefix: seq<Landmark>, ls: seq<Landmark>)
    requires |ls| > 0
    ensures (prefix + [ls[0]]) + ls[1..] == prefix + ls
  {
    assert ls == [ls[0]] + ls[1..];
  }

  /** Adding a run of landmarks to a live provider appends them in order. */
  lemma {:induction false} AddsAppend(s: ProviderState, ls: seq<Landmark>,
                                      stringify: seq<Landmark> -> string)
    requires !s.crashed
    ensures Run(s, AddEvents(ls), stringify).landmarks == s.landmarks + ls
    decreases |ls|
  {
    if |ls| == 0 {
      assert s.landmarks + ls == s.landmarks;
    } else {
      RunAddEvents(s, ls, stringify);
      AddsAppend(Step(s, Added(ls[0], SetItemOk), stringify), ls[1..], stringify);
      AppendHead(s.landmarks, ls);
    }
  }

  /** A landmark added before the initial load finishes wins over the load:
      the cached, server and static landmarks are all dropped, whatever
      storage does with the writes. */
  lemma AddBeforeLoadDropsLoaded(l: Landmark, loaded: seq<Landmark>, w1: SetItem, w2: SetItem,
                                 stringify: seq<Landmark> -> string)
    ensures Run(ProviderState([], None, false), [Added(l, w1), LoadFinished(loaded, w2)], stringify).landmarks == [l]
  {
    var s1 := Step(ProviderState([], None, false), Added(l, w1), stringify);
    assert Run(ProviderState([], None, false), [Added(l, w1), LoadFinished(loaded, w2)], stringify)
        == Run(s1, [LoadFinished(loaded, w2)], stringify);
    assert Run(s1, [LoadFinished(loaded, w2)], stringify) == Run(Step(s1, LoadFinished(loaded, w2), stringify), [], stringify);
  }

  /** What a session caches is what the next session loads, as long as the
      serialiser and parser agree on it; the server is not consulted. */
  lemma ReloadRoundTrip(ls: seq<Landmark>, parse: string -> Option<seq<Landmark>>,
                        stringify: seq<Landmark> -> string, fetch: FetchOutcome,
                        staticLandmarks: seq<Landmark>)
    requires |ls| > 0 && stringify(ls) != "" && parse(stringify(ls)) == Some(ls)
    ensures var e := Persist(None, [], ls, stringify, SetItemOk);
      e.Cached? && e.cache.Some? && ApplyLoad([], Loaded(Entry(e.cache.value), parse, fetch, staticLandmarks)) == ls
  {
  }

  /** Without a cache the provider shows the store's list, as the
      `GET /api/landmarks` route serves it, followed by the static landmarks;
      an unreadable store shows only the static landmarks. */
  lemma FirstLoadFromServer(file: Store.StoreFile, parse: string -> Option<seq<Landmark>>,
                            staticLandmarks: seq<Landmark>)
    requires Store.Get(file).List? && Store.AllKnown(Store.Get(file).entries)
    ensures ApplyLoad([], Loaded(NoEntry, parse, Responded(Some(Store.Landmarks(Store.Get(file).entries))),
                                 staticLandmarks))
         == (if file.Holds? then Store.Landmarks(file.parsed.entries) else []) + staticLandmarks
  {
  }

  /** `useContext` result: the provider's value, or `undefined` outside it. */
  datatype Context = Context(landmarks: seq<Landmark>)

  const OutsideProvider: string := "useLandmarks must be used within LandmarksProvider"

  /** `useLandmarks()`: the context, or a thrown error outside a provider. */
  function UseLandmarks(ctx: Option<Context>): (r: Result<Context>)
    ensures r.Ok? <==> ctx.Some?
    ensures r.Ok? ==> r.value == ctx.value
    ensures r.Thrown? ==> r.message == OutsideProvider
  {
    match ctx
    case Some(c) => Ok(c)
    case None => Thrown(OutsideProvider)
  }
}

=== FILE: relative_time.dfy ===
/** `formatRelativeTime`: how long ago an instant was, in the largest unit
    of which strictly more than one has elapsed. Instants are milliseconds
    since the epoch; turning a date string into one (`new Date(date)`) is
    not modelled. */
module RelativeTime {
  import opened Wrappers
  import opened Text

  datatype Unit = Years | Months | Days | Hours | Minutes | Seconds

  /** The length of a unit in seconds (a year is 365 days, a month 30). */
  function UnitSeconds(u: Unit): (n: nat)
    ensures n >= 1
  {
    match u
    case Years => 31536000
    case Months => 2592000
    case Days => 86400
    case Hours => 3600
    case Minutes => 60
    case Seconds => 1
  }

  function UnitName(u: Unit): string {
    match u
    case Years => "years"
    case Months => "months"
    case Days => "days"
    case Hours => "hours"
    case Minutes => "minutes"
    case Seconds => "seconds"
  }

  /** The position of a unit from the smallest (0) to the largest (5). */
  function Rank(u: Unit): nat {
    match u
    case Seconds => 0
    case Minutes => 1
    case Hours => 2
    case Days => 3
    case Months => 4
    case Years => 5
  }

  datatype Age = JustNow | Ago(count: nat, unit: Unit)

  /** `Math.floor((now - past) / 1000)`. The divisor is positive, so
      Dafny's division is the floor also for instants in the future. */
  function ElapsedSeconds(pastMs: int, nowMs: int): int {
    (nowMs - pastMs) / 1000
  }

  /** The cascade of comparisons. Each `seconds / unit > 1` holds exactly
      when `seconds > unit`, and for such a positive count
      `Math.floor(seconds / unit)` is the integer quotient. */
  function Classify(seconds: int): (a: Age)
    ensures a.JustNow? <==> seconds < 10
    ensures a.Ago? ==> a.count == seconds / UnitSeconds(a.unit) && a.count >= 1
    ensures a.Ago? && a.unit != Seconds ==> seconds > UnitSeconds(a.unit)
    ensures a.Ago? && a.unit == Seconds ==> 10 <= seconds <= 60
    ensures a.Ago? ==> forall u :: Rank(u) > Rank(a.unit) ==> seconds <= UnitSeconds(u)
  {
    if seconds > 31536000 then Ago(seconds / 31536000, Years)
    else if seconds > 2592000 then Ago(seconds / 2592000, Months)
    else if seconds > 86400 then Ago(seconds / 86400, Days)
    else if seconds > 3600 then Ago(seconds / 3600, Hours)
    else if seconds > 60 then Ago(seconds / 60, Minutes)
    else if seconds < 10 then JustNow
    else Ago(seconds, Seconds)
  }

  /** The string for an age. */
  function Render(a: Age): (s: string)
    ensures a.JustNow? ==> s == "just now"
    ensures a.Ago? ==> s == NatToString(a.count) + " " + UnitName(a.unit) + " ago"
  {
    match a
    case JustNow => "just now"
    case Ago(n, u) => NatToString(n) + " " + UnitName(u) + " ago"
  }

  /** `formatRelativeTime(past, now)`: "just now" exactly below ten
      seconds, and otherwise a text that reads back as the age of the
      elapsed whole seconds. */
  function FormatRelativeTime(pastMs: int, nowMs: int): (s: string)
    ensures s == "just now" <==> nowMs - pastMs < 10000
    ensures ParseAge(s) == Some(Classify((nowMs - pastMs) / 1000))
  {
    var a := Classify(ElapsedSeconds(pastMs, nowMs));
    RenderRoundTrip(a);
    RenderRoundTrip(JustNow);
    Render(a)
  }

  /** Only the distance between the instants matters: shifting both by the
      same amount changes nothing. */
  lemma ShiftInvariant(pastMs: int, nowMs: int, d: int)
    ensures FormatRelativeTime(pastMs + d, nowMs + d) == FormatRelativeTime(pastMs, nowMs)
  {
  }

  /** An older instant is never reported in a smaller unit. */
  lemma UnitGrowsWithAge(s1: int, s2: int)
    requires 10 <= s1 <= s2
    ensures Rank(Classify(s1).unit) <= Rank(Classify(s2).unit)
  {
  }

  /** Boundaries are strict: exactly a minute is still counted in seconds,
      exactly a day in hours, and the count of a unit can be 1 with the
      plural name. */
  lemma BoundaryRendering()
    ensures Classify(60) == Ago(60, Seconds)
    ensures Classify(86400) == Ago(24, Hours)
    ensures Classify(31536000 + 31536000 / 2) == Ago(1, Years)
    ensures Render(Ago(1, Years)) == "1 years ago"
  {
  }

  /** Instants in the future are "just now". */
  lemma FutureIsJustNow(pastMs: int, nowMs: int)
    requires pastMs > nowMs
    ensures FormatRelativeTime(pastMs, nowMs) == "just now"
  {
  }

  // ---------------------------------------------------------------------
  // Reading a rendered age back

  function UnitOfName(name: string): (u: Option<Unit>)
    ensures u.Some? ==> UnitName(u.value) == name
  {
    if name == "years" then Some(Years)
    else if name == "months" then Some(Months)
    else if name == "days" then Some(Days)
    else if name == "hours" then Some(Hours)
    else if name == "minutes" then Some(Minutes)
    else if name == "seconds" then Some(Seconds)
    else None
  }

  /** The length of the run of decimal digits `s` starts with. */
  function DigitRun(s: string): (k: nat)
    ensures k <= |s| && AllDigits(s[..k]) && (k == |s| || !IsDigit(s[k]))
  {
    if |s| == 0 || !IsDigit(s[0]) then 0
    else
      var k := DigitRun(s[1..]) + 1;
      assert s[..k] == [s[0]] + s[1..][..k - 1];
      k
  }

  lemma {:induction false} DigitRunOfDigits(a: string, b: string)
    requires AllDigits(a) && b != [] && !IsDigit(b[0])
    ensures DigitRun(a + b) == |a|
    decreases |a|
  {
    if |a| > 0 {
      assert (a + b)[1..] == a[1..] + b;
      DigitRunOfDigits(a[1..], b);
    } else {
      assert a + b == b;
    }
  }

  function ParseAge(s: string): Option<Age> {
    if s == "just now" then Some(JustNow)
    else if |s| >= 4 && s[|s| - 4..] == " ago" then
      var body := s[..|s| - 4];
      var k := DigitRun(body);
      if 0 < k < |body| && body[k] == ' ' then
        match UnitOfName(body[k + 1..])
        case Some(u) => Some(Ago(DigitsValue(body[..k]), u))
        case None => None
      else None
    else None
  }

  lemma SplitAgo(body: string)
    ensures var s := body + " ago";
      |s| >= 4 && s[|s| - 4..] == " ago" && s[..|s| - 4] == body
  {
    var s := body + " ago";
    assert s[|s| - 4..] == " ago";
    assert s[..|s| - 4] == body;
  }

  lemma SplitCount(digits: string, name: string)
    requires |digits| >= 1 && AllDigits(digits)
    ensures var body := digits + " " + name;
      && DigitRun(body) == |digits| < |body| && body[|digits|] == ' '
      && body[..|digits|] == digits && body[|digits| + 1..] == name
  {
    var body := digits + " " + name;
    assert body == digits + (" " + name);
    DigitRunOfDigits(digits, " " + name);
    assert body[..|digits|] == digits;
    assert body[|digits| + 1..] == name;
  }

  /** A digit string, a space, a unit name and " ago" read back as that
      count of that unit. */
  lemma ParseCount(digits: string, name: string, u: Unit)
    requires |digits| >= 1 && AllDigits(digits)
    requires UnitOfName(name) == Some(u)
    ensures ParseAge(digits + " " + name + " ago") == Some(Ago(DigitsValue(digits), u))
  {
    var body := digits + " " + name;
    var s := body + " ago";
    assert s[0] == digits[0];
    assert s != "just now";
    SplitAgo(body);
    SplitCount(digits, name);
  }

  /** Every rendered age reads back as itself, so different ages never
      render alike. */
  lemma RenderRoundTrip(a: Age)
    ensures ParseAge(Render(a)) == Some(a)
  {
    if a.Ago? {
      assert UnitOfName(UnitName(a.unit)) == Some(a.unit);
      ParseCount(NatToString(a.count), UnitName(a.unit), a.unit);
      NatToStringRoundTrip(a.count);
    }
  }
}

=== FILE: search.dfy ===
/** `SearchBar`: a case-insensitive substring search over landmark and area
    names. The results list the matching landmarks, then the matching areas,
    each in its input order, restricted by the filter; choosing a result
    moves the last known location to it and clears the query. */
module SearchBar {
  import opened Wrappers
  import opened Types
  import opened Text

  datatype Filter = All | LandmarksOnly | AreasOnly

  datatype Kind = LandmarkHit | AreaHit

  datatype SearchResult = SearchResult(id: string, name: string, location: Location, kind: Kind)

  /** `name.toLowerCase().includes(query.toLowerCase())`. */
  predicate Matches(name: string, query: string) {
    Contains(ToLower(name), ToLower(query))
  }

  function LandmarkName(l: Landmark): string { l.name }

  function AreaName(a: Area): string { a.name }

  function LandmarkResult(l: Landmark): SearchResult {
    SearchResult(l.id, l.name, l.location, LandmarkHit)
  }

  function AreaResult(a: Area, center: Area -> Location): SearchResult {
    SearchResult(a.id, a.name, center(a), AreaHit)
  }

  // ---------------------------------------------------------------------
  // Area centres

  /** `computeAreaCenter` as written. Only a polygon's outer ring and a
      multipolygon's first outer ring contribute coordinates; their
      bounding-box midpoint is a floating-point computation received as
      `bbox`. Any other shape contributes none, and the midpoint of the
      initial box (latitudes 90 and -90, longitudes 180 and -180) is the
      origin. */
  function AreaCenterAsWritten(area: Area, bbox: Area -> Location): (c: Location)
    ensures area.shape.Polygon? || area.shape.MultiPolygon? ==> c == bbox(area)
    ensures !(area.shape.Polygon? || area.shape.MultiPolygon?) ==> c == Location(0.0, 0.0)
  {
    if area.shape.Polygon? || area.shape.MultiPolygon? then bbox(area)
    else Location((90.0 + -90.0) / 2.0, (180.0 + -180.0) / 2.0)
  }

  /** A point area anywhere but the origin is reported at the origin. */
  lemma PointAreaReportedAtOrigin(bbox: Area -> Location)
    ensures var berlin := Area("a1", "Shelter", Point(13.4, 52.5), Safe, None, None);
      AreaCenterAsWritten(berlin, bbox) == Location(0.0, 0.0)
      && AreaCenterAsWritten(berlin, bbox) != Location(52.5, 13.4)
  {
  }

  /** The centre a result should carry: a point area's own position. Every
      other geometry keeps the centre the code computes: the bounding-box
      midpoint for polygons, the origin for a line string or anything else. */
  function AreaCenter(area: Area, bbox: Area -> Location): (c: Location)
    ensures area.shape.Point? ==> c == Location(area.shape.lat, area.shape.lng)
    ensures !area.shape.Point? ==> c == AreaCenterAsWritten(area, bbox)
    ensures area.shape.LineString? ==> c == Location(0.0, 0.0)
  {
    match area.shape
    case Point(lng, lat) => Location(lat, lng)
    case Polygon => bbox(area)
    case MultiPolygon => bbox(area)
    case _ => Location(0.0, 0.0)
  }

  /** With the corrected centre, choosing a point area's result moves the
      last known location onto the point. */
  lemma PointAreaResultOnPoint(area: Area, bbox: Area -> Location)
    requires area.shape.Point?
    ensures AreaResult(area, a => AreaCenter(a, bbox)).location == Location(area.shape.lat, area.shape.lng)
  {
  }

  // ---------------------------------------------------------------------
  // Results

  /** `items.filter(matches).map(toResult)`. */
  function Hits<T>(items: seq<T>, nameOf: T -> string, toResult: T -> SearchResult, query: string)
    : (r: seq<SearchResult>)
    ensures |r| <= |items|
    decreases |items|
  {
    if |items| == 0 then []
    else (if Matches(nameOf(items[0]), query) then [toResult(items[0])] else [])
         + Hits(items[1..], nameOf, toResult, query)
  }

  /** A result is listed exactly when it is the result of a matching item. */
  lemma {:induction false} HitsMembers<T>(items: seq<T>, nameOf: T -> string,
                                          toResult: T -> SearchResult, query: string, x: SearchResult)
    ensures x in Hits(items, nameOf, toResult, query)
        <==> exists t :: t in items && Matches(nameOf(t), query) && x == toResult(t)
    decreases |items|
  {
    if |items| > 0 {
      HitsMembers(items[1..], nameOf, toResult, query, x);
      if x in Hits(items, nameOf, toResult, query) && !(x in Hits(items[1..], nameOf, toResult, query)) {
        assert items[0] in items;
      }
      if exists t :: t in items && Matches(nameOf(t), query) && x == toResult(t) {
        var t :| t in items && Matches(nameOf(t), query) && x == toResult(t);
        if t != items[0] {
          assert t in items[1..];
        }
      }
    }
  }

  /** Searching two lists one after the other is searching their
      concatenation: the results keep the input order. */
  lemma {:induction false} HitsConcat<T>(a: seq<T>, b: seq<T>, nameOf: T -> string,
                                         toResult: T -> SearchResult, query: string)
    ensures Hits(a + b, nameOf, toResult, query)
         == Hits(a, nameOf, toResult, query) + Hits(b, nameOf, toResult, query)
    decreases |a|
  {
    if |a| == 0 {
      assert a + b == b;
    } else {
      var ab := a + b;
      assert ab[0] == a[0];
      assert ab[1..] == a[1..] + b;
      var head := if Matches(nameOf(a[0]), query) then [toResult(a[0])] else [];
      assert Hits(ab, nameOf, toResult, query) == head + Hits(ab[1..], nameOf, toResult, query);
      assert Hits(a, nameOf, toResult, query) == head + Hits(a[1..], nameOf, toResult, query);
      HitsConcat(a[1..], b, nameOf, toResult, query);
    }
  }

  /** The kinds of `Hits` are the kinds of the results it maps to. */
  lemma {:induction false} HitsKind<T>(items: seq<T>, nameOf: T -> string, toResult: T -> SearchResult,
                                       query: string, kind: Kind)
    requires forall t :: t in items ==> toResult(t).kind == kind
    ensures forall i :: 0 <= i < |Hits(items, nameOf, toResult, query)| ==>
      Hits(items, nameOf, toResult, query)[i].kind == kind
    decreases |items|
  {
    if |items| > 0 {
      assert forall t :: t in items[1..] ==> t in items;
      HitsKind(items[1..], nameOf, toResult, query, kind);
    }
  }

  /** The results memo. An empty query lists nothing; otherwise the landmark
      hits (unless only areas are wanted) come before the area hits (unless
      only landmarks are wanted). */
  function Results(query: string, filter: Filter, landmarks: seq<Landmark>, areas: seq<Area>,
                   center: Area -> Location): (r: seq<SearchResult>)
    ensures query == "" ==> r == []
    ensures |r| <= |landmarks| + |areas|
  {
    if query == "" then []
    else
      (if filter != AreasOnly then Hits(landmarks, LandmarkName, LandmarkResult, query) else [])
      + (if filter != LandmarksOnly then Hits(areas, AreaName, a => AreaResult(a, center), query) else [])
  }

  /** Exactly the matching landmarks and areas the filter admits are listed. */
  lemma ResultsMembers(query: string, filter: Filter, landmarks: seq<Landmark>, areas: seq<Area>,
                       center: Area -> Location, x: SearchResult)
    ensures x in Results(query, filter, landmarks, areas, center) <==>
      query != "" &&
      ((filter != AreasOnly && exists l :: l in landmarks && Matches(l.name, query) && x == LandmarkResult(l))
       || (filter != LandmarksOnly && exists a :: a in areas && Matches(a.name, query) && x == AreaResult(a, center)))
  {
    HitsMembers(landmarks, LandmarkName, LandmarkResult, query, x);
    HitsMembers(areas, AreaName, a => AreaResult(a, center), query, x);
  }

  /** No area is listed before a landmark. */
  lemma ResultsLandmarksFirst(query: string, filter: Filter, landmarks: seq<Landmark>, areas: seq<Area>,
                              center: Area -> Location, i: int, j: int)
    requires 0 <= i < j < |Results(query, filter, landmarks, areas, center)|
    requires Results(query, filter, landmarks, areas, center)[i].kind == AreaHit
    ensures Results(query, filter, landmarks, areas, center)[j].kind == AreaHit
  {
    HitsKind(landmarks, LandmarkName, LandmarkResult, query, LandmarkHit);
    HitsKind(areas, AreaName, a => AreaResult(a, center), query, AreaHit);
  }

  /** The search ignores ASCII case. */
  lemma ResultsIgnoreCase(q1: string, q2: string, filter: Filter, landmarks: seq<Landmark>,
                          areas: seq<Area>, center: Area -> Location)
    requires ToLower(q1) == ToLower(q2)
    ensures Results(q1, filter, landmarks, areas, center) == Results(q2, filter, landmarks, areas, center)
  {
    assert (q1 == "") == (q2 == "");
    MatchesIgnoreCase(landmarks, LandmarkName, LandmarkResult, q1, q2);
    MatchesIgnoreCase(areas, AreaName, a => AreaResult(a, center), q1, q2);
  }

  lemma {:induction false} MatchesIgnoreCase<T>(items: seq<T>, nameOf: T -> string,
                                                toResult: T -> SearchResult, q1: string, q2: string)
    requires ToLower(q1) == ToLower(q2)
    ensures Hits(items, nameOf, toResult, q1) == Hits(items, nameOf, toResult, q2)
    decreases |items|
  {
    if |items| > 0 {
      MatchesIgnoreCase(items[1..], nameOf, toResult, q1, q2);
    }
  }

  /** Without a filter the results are the landmark-only results followed
      by the area-only results. */
  lemma AllIsBoth(query: string, landmarks: seq<Landmark>, areas: seq<Area>, center: Area -> Location)
    ensures Results(query, All, landmarks, areas, center)
         == Results(query, LandmarksOnly, landmarks, areas, center)
            + Results(query, AreasOnly, landmarks, areas, center)
  {
  }

  // ---------------------------------------------------------------------
  // Choosing a result

  datatype SearchState = SearchState(query: string, lastKnown: Location)

  /** `handleSelect`: the new state and the value passed to `onActiveChange`. */
  function HandleSelect(s: SearchState, r: SearchResult): (out: (SearchState, bool))
    ensures out.0.lastKnown == r.location && out.0.query == ""
    ensures !out.1
  {
    (SearchState("", r.location), false)
  }

  /** Choosing a result empties the list. */
  lemma SelectClearsResults(s: SearchState, r: SearchResult, filter: Filter, landmarks: seq<Landmark>,
                            areas: seq<Area>, center: Area -> Location)
    ensures Results(HandleSelect(s, r).0.query, filter, landmarks, areas, center) == []
  {
  }
}

=== FILE: select_map.dfy ===
/** `SelectMap` and the `LocationProvider` it writes to: a small map on which
    the user moves a pin and saves it as the last known location. The
    selection is initialised from the last known location when the map
    mounts; a click moves the pin; Save commits the pin and calls `onSave`
    if one was given. */
module SelectMap {
  import opened Wrappers
  import opened Types

  /** The provider's initial last known location. */
  const DefaultLocation: Location := Location(35.688, 51.334)

  const OutsideProvider: string := "useLocation must be used within LocationProvider"

  /** `useLocation()`: the last known location, or a thrown error outside a
      provider. */
  function UseLocation(ctx: Option<Location>): (r: Result<Location>)
    ensures r.Ok? <==> ctx.Some?
    ensures r.Ok? ==> r.value == ctx.value
    ensures r.Thrown? ==> r.message == OutsideProvider
  {
    match ctx
    case Some(l) => Ok(l)
    case None => Thrown(OutsideProvider)
  }

  datatype MapState = MapState(lastKnown: Location, selected: Location)

  function Mount(lastKnown: Location): (s: MapState)
    ensures s.lastKnown == lastKnown && s.selected == lastKnown
  {
    MapState(lastKnown, lastKnown)
  }

  /** `handleClick`: the pin moves to the clicked position. */
  function Click(s: MapState, at: Location): (t: MapState)
    ensures t.selected == at && t.lastKnown == s.lastKnown
  {
    s.(selected := at)
  }

  /** `handleSave`: the new state and whether `onSave` was called. */
  function Save(s: MapState, hasOnSave: bool): (out: (MapState, bool))
    ensures out.0.lastKnown == s.selected && out.0.selected == s.selected
    ensures out.1 == hasOnSave
  {
    (MapState(s.selected, s.selected), hasOnSave)
  }

  function Clicks(s: MapState, at: seq<Location>): MapState
    decreases |at|
  {
    if |at| == 0 then s else Clicks(Click(s, at[0]), at[1..])
  }

  /** After any clicks and a save, the last known location is the last
      clicked position, or the location the map started from when there was
      no click. */
  lemma {:induction false} SaveCommitsLastClick(start: Location, at: seq<Location>, hasOnSave: bool)
    ensures Save(Clicks(Mount(start), at), hasOnSave).0.lastKnown
         == (if |at| == 0 then start else at[|at| - 1])
  {
    ClicksSelectLast(Mount(start), at);
  }

  lemma {:induction false} ClicksSelectLast(s: MapState, at: seq<Location>)
    ensures Clicks(s, at).lastKnown == s.lastKnown
    ensures Clicks(s, at).selected == (if |at| == 0 then s.selected else at[|at| - 1])
    decreases |at|
  {
    if |at| > 0 {
      ClicksSelectLast(Click(s, at[0]), at[1..]);
    }
  }

  /** Saving twice is the same as saving once. */
  lemma SaveIdempotent(s: MapState, hasOnSave: bool)
    ensures Save(Save(s, hasOnSave).0, hasOnSave).0 == Save(s, hasOnSave).0
  {
  }
}

=== FILE: store.dfy ===
/** The landmark store: the file `data/landmarks.json`, read in full and
    written in full, shared by the assistant (grounding context), the report
    action (append) and the `GET /api/landmarks` route. */
module Store {
  import opened Wrappers
  import opened Types
  import Json

  /** An element of a stored array. `JSON.parse` checks nothing against the
      `Landmark` annotation, so an array may hold landmarks and any other
      JSON values (`1`, `{}`) side by side. */
  datatype Entry = Known(landmark: Landmark) | Foreign(value: Json.Value)

  /** The JSON values that are not arrays. */
  type NonArray = v: Json.Value | !v.Arr? witness Json.Null

  /** What `JSON.parse` makes of the file's text: an array, or any other
      JSON value (an object, `null`, a number, a string, a boolean). */
  datatype Parsed = List(entries: seq<Entry>) | NotAList(value: NonArray)

  /** The file as a reader finds it: absent or unreadable, present but not
      JSON, or present and parseable. */
  datatype StoreFile = Missing | Corrupt | Holds(parsed: Parsed)

  /** An array of landmarks, as the code's annotation assumes. */
  function LandmarkList(ls: seq<Landmark>): (p: Parsed)
    ensures p.List? && |p.entries| == |ls|
    ensures forall i :: 0 <= i < |ls| ==> p.entries[i] == Known(ls[i])
  {
    List(seq(|ls|, i requires 0 <= i < |ls| => Known(ls[i])))
  }

  predicate AllKnown(entries: seq<Entry>) {
    forall i :: 0 <= i < |entries| ==> entries[i].Known?
  }

  /** The landmarks of an array holding nothing else. */
  function Landmarks(entries: seq<Entry>): (ls: seq<Landmark>)
    requires AllKnown(entries)
    ensures LandmarkList(ls) == List(entries)
  {
    var ls := seq(|entries|, i requires 0 <= i < |entries| => entries[i].landmark);
    assert LandmarkList(ls).entries == entries;
    ls
  }

  /** `fs.readFile` followed by `JSON.parse`; `None` when either throws. */
  function Read(file: StoreFile): (r: Option<Parsed>)
    ensures r.None? <==> !file.Holds?
    ensures r.Some? ==> r.value == file.parsed
  {
    match file
    case Holds(p) => Some(p)
    case _ => None
  }

  /** The `GET /api/landmarks` handler: the parsed file content as it is, or
      the empty list when reading or parsing fails. It only reads: the store
      after a request is the store before it. */
  function Get(file: StoreFile): (body: Parsed)
    ensures !file.Holds? ==> body == List([])
    ensures file.Holds? ==> body == file.parsed
  {
    Read(file).GetOr(List([]))
  }

}

=== FILE: text.dfy ===
/** The string operations the application relies on, with JavaScript's
    semantics: `trim`, `toLowerCase` (restricted to ASCII), `includes`,
    `indexOf`, `startsWith`, joining and splitting on newlines, and the
    decimal rendering of a non-negative integer. */
module Text {
  import opened Wrappers

  /** The WhiteSpace and LineTerminator code points of ECMAScript: exactly
      what `String.prototype.trim` strips and what the regular-expression
      class `\s` matches. */
  predicate IsWhitespace(c: char) {
    || c == '\t' || c == '\n' || c == '\U{B}' || c == '\U{C}' || c == '\r' || c == ' '
    || c == '\U{A0}' || c == '\U{1680}' || ('\U{2000}' <= c <= '\U{200A}')
    || c == '\U{2028}' || c == '\U{2029}' || c == '\U{202F}' || c == '\U{205F}'
    || c == '\U{3000}' || c == '\U{FEFF}'
  }

  predicate IsBlank(s: string) {
    forall k :: 0 <= k < |s| ==> IsWhitespace(s[k])
  }

  /** Drops leading whitespace: the result is a suffix of `s`, what was
      dropped is whitespace, and the result does not start with whitespace. */
  function TrimStart(s: string): (r: string)
    ensures |r| <= |s| && r == s[|s| - |r|..]
    ensures forall k :: 0 <= k < |s| - |r| ==> IsWhitespace(s[k])
    ensures r == [] || !IsWhitespace(r[0])
  {
    if |s| > 0 && IsWhitespace(s[0]) then TrimStart(s[1..]) else s
  }

  /** Drops trailing whitespace: the result is a prefix of `s`, what was
      dropped is whitespace, and the result does not end with whitespace. */
  function TrimEnd(s: string): (r: string)
    ensures |r| <= |s| && r == s[..|r|]
    ensures forall k :: |r| <= k < |s| ==> IsWhitespace(s[k])
    ensures r == [] || !IsWhitespace(r[|r| - 1])
  {
    if |s| > 0 && IsWhitespace(s[|s| - 1]) then TrimEnd(s[..|s| - 1]) else s
  }

  /** `String.prototype.trim`. */
  function Trim(s: string): (r: string)
    ensures |r| <= |s|
    ensures r == [] <==> IsBlank(s)
    ensures r != [] ==> !IsWhitespace(r[0]) && !IsWhitespace(r[|r| - 1])
  {
    var a := TrimStart(s);
    var r := TrimEnd(a);
    assert r != [] ==> r[0] == a[0];
    assert r == [] ==> a == [];
    r
  }

  /** A string with no whitespace at either end is its own trim. */
  lemma TrimOfTrimmed(s: string)
    requires s == [] || (!IsWhitespace(s[0]) && !IsWhitespace(s[|s| - 1]))
    ensures Trim(s) == s
  {
  }

  lemma TrimIdempotent(s: string)
    ensures Trim(Trim(s)) == Trim(s)
  {
    TrimOfTrimmed(Trim(s));
  }

  /** One newline on each side of an already trimmed, non-empty text is
      removed again by `trim`. */
  lemma TrimNewlinePadding(s: string)
    requires s != [] && !IsWhitespace(s[0]) && !IsWhitespace(s[|s| - 1])
    ensures Trim("\n" + s + "\n") == s
  {
    assert ("\n" + s + "\n")[1..] == s + "\n";
    assert TrimStart("\n" + s + "\n") == TrimStart(s + "\n");
    assert TrimStart(s + "\n") == s + "\n";
    assert (s + "\n")[..|s|] == s;
    assert TrimEnd(s + "\n") == TrimEnd(s);
  }

  function LowerChar(c: char): char {
    if 'A' <= c <= 'Z' then (c as int + 32) as char else c
  }

  function UpperChar(c: char): char {
    if 'a' <= c <= 'z' then (c as int - 32) as char else c
  }

  /** `String.prototype.toLowerCase` on ASCII letters; every other code point
      is left as it is. */
  function ToLower(s: string): (r: string)
    ensures |r| == |s|
    ensures forall k :: 0 <= k < |s| ==> r[k] == LowerChar(s[k])
  {
    seq(|s|, k requires 0 <= k < |s| => LowerChar(s[k]))
  }

  predicate StartsWith(s: string, prefix: string) {
    |prefix| <= |s| && s[..|prefix|] == prefix
  }

  /** `t` occurs in `s` starting at index `i`. */
  ghost predicate OccursAt(s: string, t: string, i: int) {
    0 <= i && i + |t| <= |s| && s[i..i + |t|] == t
  }

  /** `k` is the first index at or after `from` where `t` occurs in `s`. */
  ghost predicate FirstOccurrenceFrom(s: string, t: string, from: nat, k: nat) {
    from <= k && OccursAt(s, t, k) && forall m :: from <= m < k ==> !OccursAt(s, t, m)
  }

  /** `s.indexOf(t, from)`, with `None` for JavaScript's -1. */
  function IndexOfFrom(s: string, t: string, from: nat): (r: Option<nat>)
    ensures r.Some? ==> FirstOccurrenceFrom(s, t, from, r.value)
    ensures r.None? ==> forall m :: from <= m ==> !OccursAt(s, t, m)
    decreases |s| - from
  {
    if from + |t| > |s| then None
    else if s[from..from + |t|] == t then Some(from)
    else IndexOfFrom(s, t, from + 1)
  }

  /** In a text assembled from seven parts, the second, fourth and sixth
      parts are found at their offsets. */
  lemma SevenPartSlices(a: string, b: string, c: string, d: string, e: string, f: string, g: string)
    ensures var p := a + b + c + d + e + f + g;
      && |p| == |a| + |b| + |c| + |d| + |e| + |f| + |g|
      && p[..|a|] == a
      && p[|a|..|a| + |b|] == b
      && p[|a| + |b| + |c|..|a| + |b| + |c| + |d|] == d
      && p[|a| + |b| + |c| + |d| + |e|..|a| + |b| + |c| + |d| + |e| + |f|] == f
  {
    var p := a + b + c + d + e + f + g;
    var i := |a| + |b| + |c| + |d| + |e|;
    assert forall k :: 0 <= k < |a| ==> p[k] == a[k];
    assert forall k :: 0 <= k < |b| ==> p[|a| + k] == b[k];
    assert forall k :: 0 <= k < |d| ==> p[|a| + |b| + |c| + k] == d[k];
    assert forall k :: 0 <= k < |f| ==> p[i + k] == f[k];
  }

  /** There is only one first occurrence. */
  lemma FirstOccurrenceUnique(s: string, t: string, from: nat, k1: nat, k2: nat)
    requires FirstOccurrenceFrom(s, t, from, k1) && FirstOccurrenceFrom(s, t, from, k2)
    ensures k1 == k2
  {
  }

  /** `s.includes(t)`. */
  function Contains(s: string, t: string): (r: bool)
    ensures r <==> exists i :: OccursAt(s, t, i)
  {
    var k := IndexOfFrom(s, t, 0);
    if k.Some? then
      assert OccursAt(s, t, k.value);
      true
    else
      false
  }

  /** Every string contains the empty string (so `includes("")` is always true). */
  lemma ContainsEmpty(s: string)
    ensures Contains(s, "")
  {
    assert OccursAt(s, "", 0);
  }

  /** `lines.join("\n")`. */
  function JoinLines(lines: seq<string>): (r: string)
    ensures |lines| == 0 ==> r == ""
    decreases |lines|
  {
    if |lines| == 0 then ""
    else if |lines| == 1 then lines[0]
    else lines[0] + "\n" + JoinLines(lines[1..])
  }

  /** `s.split("\n")`: never empty, and `"".split("\n")` is `[""]`. */
  function SplitLines(s: string): (r: seq<string>)
    ensures |r| >= 1
  {
    if |s| == 0 then [""]
    else
      var rest := SplitLines(s[1..]);
      if s[0] == '\n' then [""] + rest
      else [[s[0]] + rest[0]] + rest[1..]
  }

  /** A newline-free prefix is split off as the first line. */
  lemma {:induction false} SplitAfterLine(a: string, b: string)
    requires '\n' !in a
    ensures SplitLines(a + "\n" + b) == [a] + SplitLines(b)
    decreases |a|
  {
    if |a| == 0 {
      assert a + "\n" + b == "\n" + b;
      assert ("\n" + b)[1..] == b;
    } else {
      assert (a + "\n" + b)[1..] == a[1..] + "\n" + b;
      SplitAfterLine(a[1..], b);
      assert [a[0]] + a[1..] == a;
    }
  }

  /** Splitting on newlines undoes joining with newlines, as long as there is
      at least one line and no line contains a newline itself. */
  lemma {:induction false} SplitJoinRoundTrip(lines: seq<string>)
    requires |lines| >= 1
    requires forall i :: 0 <= i < |lines| ==> '\n' !in lines[i]
    ensures SplitLines(JoinLines(lines)) == lines
    decreases |lines|
  {
    if |lines| == 1 {
      NewlineFreeIsOneLine(lines[0]);
    } else {
      SplitAfterLine(lines[0], JoinLines(lines[1..]));
      SplitJoinRoundTrip(lines[1..]);
      assert [lines[0]] + lines[1..] == lines;
    }
  }

  lemma {:induction false} NewlineFreeIsOneLine(s: string)
    requires '\n' !in s
    ensures SplitLines(s) == [s]
    decreases |s|
  {
    if |s| > 0 {
      assert s[0] != '\n';
      NewlineFreeIsOneLine(s[1..]);
      assert [s[0]] + s[1..] == s;
    }
  }

  predicate IsDigit(c: char) {
    '0' <= c <= '9'
  }

  predicate AllDigits(s: string) {
    forall k :: 0 <= k < |s| ==> IsDigit(s[k])
  }

  function DigitChar(d: nat): (c: char)
    requires d < 10
    ensures IsDigit(c) && c as int - '0' as int == d
  {
    (d + '0' as int) as char
  }

  /** JavaScript's `String(n)` for a non-negative integer below 10^21. */
  function NatToString(n: nat): (r: string)
    ensures |r| >= 1 && AllDigits(r)
    decreases n
  {
    if n < 10 then [DigitChar(n)] else NatToString(n / 10) + [DigitChar(n % 10)]
  }

  /** The value of a string of decimal digits. */
  function DigitsValue(s: string): nat
    requires AllDigits(s)
    decreases |s|
  {
    if |s| == 0 then 0
    else DigitsValue(s[..|s| - 1]) * 10 + (s[|s| - 1] as int - '0' as int)
  }

  /** Reading back a rendered number gives the number. */
  lemma {:induction false} NatToStringRoundTrip(n: nat)
    ensures DigitsValue(NatToString(n)) == n
    decreases n
  {
    if n >= 10 {
      var s := NatToString(n);
      assert s[..|s| - 1] == NatToString(n / 10);
      NatToStringRoundTrip(n / 10);
    }
  }
}

=== FILE: types.dfy ===
/** The shared records of the application: landmarks and their locations,
    chat messages, the server-action response wrapper, areas and the system
    status. Optional TypeScript fields (`field?: T`) are `Option`s. */
module Types {
  import opened Wrappers

  /** A geographic coordinate. Coordinates are only copied and compared,
      never computed with, so they are kept as opaque reals. */
  datatype Location = Location(lat: real, lng: real)

  datatype TrustLevel = High | Medium | Low

  /** A point of interest. `category` is a plain string: the application
      writes categories that are not in its own `LandmarkCategory` union
      (`explosion`, `attack`, `disaster` from the assistant; `danger_zone`,
      `satellite_phone` from the entry form). `radius` is not part of the
      declared interface but the landmark dialog stores it. */
  datatype Landmark = Landmark(
    id: string,
    name: string,
    description: Option<string>,
    location: Location,
    category: string,
    trustLevel: Option<TrustLevel>,
    lastUpdated: Option<string>,
    addedBy: Option<string>,
    isVerified: Option<bool>,
    visible: Option<bool>,
    radius: Option<real>)

  datatype Role = User | Assistant

  /** A chat message as the chat components hold it. */
  datatype Message = Message(id: string, role: Role, content: string, isError: Option<bool>)

  /** `ApiResponse<T>`: `{success: true, data}` or `{success: false, error}`. */
  datatype ApiResponse<T> = Success(data: T) | Failure(error: string)

  datatype SystemStatus = Online | Offline | Crisis | Transmitting

  datatype AreaCategory = NoGo | Caution | Safe

  /** The geometry of an area's first GeoJSON feature. Only a point's
      coordinates are ever read directly; every other shape's centre is a
      floating-point computation the model receives as an oracle. */
  datatype Geometry =
    | Point(lng: real, lat: real)
    | Polygon
    | MultiPolygon
    | LineString
    | OtherGeometry

  datatype Area = Area(
    id: string,
    name: string,
    shape: Geometry,
    category: AreaCategory,
    fillColor: Option<string>,
    borderColor: Option<string>)
}

=== FILE: wrappers.dfy ===
/** Optional values, the model's rendering of `undefined` / `null`, and the
    outcome of a computation that may throw an `Error`. */
module Wrappers {

  datatype Option<+T> = None | Some(value: T) {

    /** The wrapped value, or `default` when there is none (JavaScript's `x ?? default`). */
    function GetOr(default: T): T {
      match this
      case Some(v) => v
      case None => default
    }
  }

  /** A computation that either returns a value or throws an `Error` with a
      message. */
  datatype Result<+T> = Ok(value: T) | Thrown(message: string)
}
